=== FILE: README.md ===
# EdgeLake MCP bridge, modelled in Dafny

EdgeLake runs MCP, the Model Context Protocol, inside its HTTP server. Remote agents open a server-sent-events (SSE) stream on `GET /mcp/sse`. They post JSON-RPC 2.0 requests to `POST /mcp/messages/{session_id}` and get the replies back as events on their stream. A request names a configured tool. The bridge turns the tool's configuration and the caller's arguments into an EdgeLake command, runs it on the engine in-process, extracts one result value from what the engine left behind, and wraps it as MCP text content.

This project models that bridge, one Dafny module per Python file:

| module | file | form |
|---|---|---|
| `SseTransport` | `edge_lake/mcp/transport/sse_handler.py` | classes `Connection`, `Transport`, `Runtime` over per-connection state values |
| `McpServer` | `edge_lake/mcp/server/mcp_server.py` | class `Server`; its methods route requests and start and stop the transport |
| `ToolGenerator` | `edge_lake/mcp_server/tools/generator.py` | filtering loop proved against a function |
| `ToolExecutor` | `edge_lake/mcp_server/tools/executor.py` | functions; the two extraction loops as methods |
| `CommandBuilder` | `edge_lake/mcp_server/core/command_builder.py` | functions; `_fill_template` and `build_sql_query` as methods |
| `QueryBuilder` | `edge_lake/mcp_server/core/query_builder.py` | functions; the list-growing clauses as methods |
| `DirectClient` | `edge_lake/mcp_server/core/direct_client.py` | result extraction as scanning methods; class `Client` |
| `QueryExecutor` | `edge_lake/mcp_server/core/query_executor.py` | mode choice as a function; streaming and batch loops as methods over a class `Cursor` |
| `Capabilities` | `edge_lake/mcp_server/capabilities.py` | tool-enabling and summary methods |
| `BlockchainQuery` | `edge_lake/mcp_server/core/blockchain_query.py` | set-building loops proved against functions |
| `Config` | `edge_lake/mcp_server/config/__init__.py` | lookups as functions; class `Config` with the environment overrides |
| `NodeQuery` | `edge_lake/mcp_server/core/node_query.py` | functions |
| `SseClient` | `test-mcp-sse.py` | the test client's line framing as a class `Tester` |
| `FormatTests` | `tests/test_format_changes.py` | validators as functions; class `Suite` |

`Json`, `Strings`, `Sorting`, `Seqs` and `Wrappers` are shared helpers:

- `Json` is an abstract Python/JSON value. Objects keep their key order.
- `Strings` holds the `str` operations the bridge uses.
- `Sorting` is `sorted` over distinct strings.
- `Seqs` holds sequence facts.
- `Wrappers` has `Option` and `Result`. `Err` carries the text of the exception Python would raise.

Everything outside the bridge is passed in as a parameter:

- the engine;
- the clock;
- fresh session ids;
- the outcome of every socket write;
- `json.loads`, `json.dumps` and the UTF-8 decoder;
- the environment variables and the decoded YAML files.

Each handler call, each keepalive sweep and each test run is one sequential step.

## Model

| member | source | states |
|---|---|---|
| SseTransport.FrameText | edge_lake/mcp/transport/sse_handler.py:111-118 | every frame ends with a blank line; it is a keepalive comment exactly when it starts with `:` |
| SseTransport.EnqueueKeepsIdsIncreasing | edge_lake/mcp/transport/sse_handler.py:73-86 | queueing keeps ids strictly increasing and bounded by the counter; a closed connection is left unchanged; otherwise the counter rises by one and the message is appended with that new id, above every id already queued |
| SseTransport.SendKeepsIdsIncreasing | edge_lake/mcp/transport/sse_handler.py:102-129 | an immediate send never breaks the increasing order of queued ids |
| SseTransport.SendOutcome | edge_lake/mcp/transport/sse_handler.py:102-129 | a send succeeds iff the connection is open and the write goes through; a failed write closes the connection and writes nothing; a success appends exactly one frame carrying the explicit id or the next counter value; an explicit id leaves the counter alone; the queue is untouched |
| SseTransport.KeepaliveOutcome | edge_lake/mcp/transport/sse_handler.py:138-149 | a keepalive succeeds iff the write goes through, without looking at `connected`; success appends one keepalive frame, failure closes the connection and writes nothing |
| SseTransport.FirstQueuedIdIsOne | edge_lake/mcp/transport/sse_handler.py:226-236 | the `connected` event goes out with id 0 and leaves the counter at 0, so the first queued message gets id 1 |
| SseTransport.Frames | edge_lake/mcp/transport/sse_handler.py:252-256 | sending a run of messages writes one event frame per message, each with the message's stored event, data and id |
| SseTransport.DrainTakesPrefix | edge_lake/mcp/transport/sse_handler.py:245-264 | the serving loop pops a prefix of the queue, keeps the counter, does nothing on a closed connection, and stops only when the queue is empty or the connection has closed |
| SseTransport.DrainSendsInOrder | edge_lake/mcp/transport/sse_handler.py:245-264 | popped messages are written in FIFO order with their stored ids; the message whose write fails is lost |
| SseTransport.DrainKeepsIdsIncreasing | edge_lake/mcp/transport/sse_handler.py:245-264 | draining keeps the remaining ids strictly increasing |
| SseTransport.SweptRegistry | edge_lake/mcp/transport/sse_handler.py:415-437 | removing exactly the sessions whose sweep step says drop, and keeping the rest in their new state, gives the swept registry |
| SseTransport.SweepRemovesExactly | edge_lake/mcp/transport/sse_handler.py:419-437 | a session survives a sweep iff it has not been idle strictly longer than the timeout and it is either closed or its keepalive goes through; a stale session is closed without a keepalive; a closed fresh one is untouched; an open one gets exactly one keepalive frame |
| SseTransport.CheckPost | edge_lake/mcp/transport/sse_handler.py:291-351 | a path with fewer than four parts is 400 "Invalid path - missing session_id", an unknown session 404 "Session not found"; a Content-Length `int` rejects is 500 "Internal server error: " with the ValueError text, a zero one 400 "Empty message body"; a body that does not decode is 500 with the decoder's text, one that does not parse 400 "Invalid JSON: " with the parser's text, and a parsed non-object 500 with "'<type>' object has no attribute 'get'"; a message is accepted exactly when it passes all checks and is an object, and then it carries the session id and the parsed message |
| SseTransport.ErrorReply | edge_lake/mcp/transport/sse_handler.py:389-396 | the error reply is a JSON-RPC 2.0 object with the request's id (or null) and error code -32603 with message "Internal error: " followed by the error text |
| SseTransport.ReplyQueuesOneEvent | edge_lake/mcp/transport/sse_handler.py:367-397 | on an open session, processing queues exactly one event after the existing ones, with the next id: a "message" carrying the response, or an "error" |
| SseTransport.Connection.constructor | edge_lake/mcp/transport/sse_handler.py:48-61 | a new connection is open with counter 0, an empty queue and nothing written |
| SseTransport.Connection.QueueMessage | edge_lake/mcp/transport/sse_handler.py:65-86 | the connection's new state is the queued-message state |
| SseTransport.Connection.SendEvent | edge_lake/mcp/transport/sse_handler.py:90-129 | the new state and the result are those of the immediate send |
| SseTransport.Connection.SendKeepalive | edge_lake/mcp/transport/sse_handler.py:131-149 | the new state and the result are those of a keepalive |
| SseTransport.Connection.Close | edge_lake/mcp/transport/sse_handler.py:151-154 | only `connected` changes, to false |
| SseTransport.Transport.constructor | edge_lake/mcp/transport/sse_handler.py:172-188 | an empty, running registry with a keepalive interval of 30 s and a connection timeout of 300 s |
| SseTransport.Transport.OpenSession | edge_lake/mcp/transport/sse_handler.py:212-236 | a fresh connection is registered under the new id, and its state is a fresh connection after the `connected` event with id 0 |
| SseTransport.Transport.ServeQueue | edge_lake/mcp/transport/sse_handler.py:245-269 | the connection ends in the drained state; it is unregistered exactly when it ended closed |
| SseTransport.Transport.HandleMessagesEndpoint | edge_lake/mcp/transport/sse_handler.py:294-341 | an accepted message names a registered session; a 404 means the path's session id is not registered |
| SseTransport.Transport.ProcessMessageAsync | edge_lake/mcp/transport/sse_handler.py:367-397 | the reply event is queued on the session's connection if the session is registered; otherwise nothing changes |
| SseTransport.Transport.SweepOne | edge_lake/mcp/transport/sse_handler.py:419-437 | the connection takes one sweep step and the result says whether it stays registered |
| SseTransport.Transport.SweepSnapshot | edge_lake/mcp/transport/sse_handler.py:417-437 | every connection of the snapshot takes its sweep step; the dropped set is exactly those that must leave |
| SseTransport.Transport.KeepaliveSweep | edge_lake/mcp/transport/sse_handler.py:413-437 | the registry becomes the swept registry under the 300 s timeout; survivors are the same objects; every dropped session ends closed |
| SseTransport.Transport.SendEventTo | edge_lake/mcp/transport/sse_handler.py:444-463 | an unknown session gives false and changes nothing; a known one takes an immediate send with a fresh id and nothing else changes |
| SseTransport.Transport.ActiveConnections | edge_lake/mcp/transport/sse_handler.py:465-473 | the list holds every registered id exactly once |
| SseTransport.Transport.CloseConnection | edge_lake/mcp/transport/sse_handler.py:475-487 | the session is closed and unregistered; an unknown id changes nothing; other connections keep their state |
| SseTransport.Transport.Shutdown | edge_lake/mcp/transport/sse_handler.py:489-502 | the sweep loop stops, every registered connection is closed and the registry is empty |
| SseTransport.Runtime.constructor | edge_lake/mcp/transport/sse_handler.py:511-512 | no transport exists before `initialize` |
| SseTransport.Runtime.Initialize | edge_lake/mcp/transport/sse_handler.py:515-532 | the first call creates a fresh, empty, running transport; later calls return the existing one |
| SseTransport.Runtime.HandleMessagesEndpoint | edge_lake/mcp/transport/sse_handler.py:563-578 | before `initialize` every POST is 503 "MCP server not available"; afterwards it goes through the transport's checks |
| SseTransport.Runtime.OpenSession | edge_lake/mcp/transport/sse_handler.py:545-560 | no session opens before `initialize`; afterwards the new connection is registered on the transport |
| SseTransport.Runtime.Shutdown | edge_lake/mcp/transport/sse_handler.py:581-587 | a running transport is shut down and emptied, and the slot is cleared |
| McpServer.EncodeFields | edge_lake/mcp/server/mcp_server.py:195-255 | every reply dict carries `jsonrpc: "2.0"` and the request id, and exactly one of `result` and `error`; reading the fields back gives the reply |
| McpServer.Subscript | edge_lake/mcp/server/mcp_server.py:267-270 | `d[key]` gives the value of a present key of a dict, and raises for a missing key or a value that is not a dict |
| McpServer.ListEntryOfGenerated | edge_lake/mcp/server/mcp_server.py:264-273 | rebuilding a generated tool as `{name, description, inputSchema}` gives it back unchanged |
| McpServer.GeneratedEntries | edge_lake/mcp/server/mcp_server.py:262-275 | every tool the generator lists survives the rebuilding unchanged, so `tools/list` never raises |
| McpServer.TextContentOfItem | edge_lake/mcp/server/mcp_server.py:290-296 | rebuilding a text item as `{type: "text", text}` gives it back unchanged |
| McpServer.ExecutedItem | edge_lake/mcp/server/mcp_server.py:287 | `execute_tool` answers exactly one text item |
| McpServer.CallItemsSingle | edge_lake/mcp/server/mcp_server.py:223-233 | `tools/call` always answers exactly one text item, whatever the name and arguments |
| McpServer.Server.Create | edge_lake/mcp/server/mcp_server.py:55-97 | construction fails exactly when `get_max_workers` raises, with its ValueError; otherwise a fresh server holding the configuration, the tool filter and MCP availability, with no transport and a client that is not shut down |
| McpServer.Server.constructor | edge_lake/mcp/server/mcp_server.py:55-97 | the server keeps the configuration, the tool filter and whether MCP is available; it has no transport yet and a client that is not shut down |
| McpServer.Server.Start | edge_lake/mcp/server/mcp_server.py:145-160 | without the MCP library it fails with the install message and changes nothing; otherwise the server's transport is the SSE singleton, which is reused when already running |
| McpServer.Server.Stop | edge_lake/mcp/server/mcp_server.py:162-180 | a transport this server started is shut down and the singleton cleared; otherwise the singleton is untouched; the transport is dropped and the client closed |
| McpServer.Server.ReplyEchoesId | edge_lake/mcp/server/mcp_server.py:195-255 | a request that is an object always gets a reply echoing its `id` (None when absent); anything else raises on `.get` |
| McpServer.Server.UninitializedRefuses | edge_lake/mcp/server/mcp_server.py:195-203 | without the MCP library every request gets the internal error -32603 "MCP server not initialized", whatever its method |
| McpServer.Server.ToolsListReply | edge_lake/mcp/server/mcp_server.py:214-221 | `tools/list` succeeds with a list; with no filter it holds one entry per configured tool, in configuration order |
| McpServer.Server.ToolsCallReply | edge_lake/mcp/server/mcp_server.py:223-233 | `tools/call` with object parameters succeeds with exactly one text item: the executor's text for a string name with object arguments, or its "Error: " text |
| McpServer.Server.UnknownMethodReply | edge_lake/mcp/server/mcp_server.py:235-244 | any other method gets -32601 "Method not found: <method>" |
| McpServer.Server.CallListTools | edge_lake/mcp/server/mcp_server.py:257-275 | the rebuilt list is exactly the generated tools, in order |
| McpServer.Server.CallTool | edge_lake/mcp/server/mcp_server.py:277-298 | the rebuilt list is exactly `CallItems`, the executor's items |
| McpServer.Server.ProcessMessage | edge_lake/mcp/server/mcp_server.py:182-255 | the returned dict is the encoded `Response`, or the error a non-object message raises |
| McpServer.Server.GetInfo | edge_lake/mcp/server/mcp_server.py:300-318 | six fields in order: the version, MCP availability, the number of open connections and their ids (none without a transport), the enabled tools or "all", and the transport name |
| McpServer.EnabledToolsField | edge_lake/mcp/server/mcp_server.py:316 | `enabled_tools or "all"`: "all" exactly when there is no filter or an empty one |
| ToolGenerator.GenerateToolFields | edge_lake/mcp_server/tools/generator.py:71-75 | a generated tool has exactly the fields name, description and inputSchema, in that order, holding the configuration's values |
| ToolGenerator.Generated | edge_lake/mcp_server/tools/generator.py:43-59 | never more tools than configurations |
| ToolGenerator.GeneratedUnfiltered | edge_lake/mcp_server/tools/generator.py:45-53 | without a filter list there is one tool per configuration, in configuration order |
| ToolGenerator.GeneratedMembers | edge_lake/mcp_server/tools/generator.py:45-53 | a tool is listed iff some configuration that passes the filter generates it |
| ToolGenerator.EmptyFilter | edge_lake/mcp_server/tools/generator.py:47-49 | an empty filter list lists no tool at all, because the filter applies whenever the list is not None |
| ToolGenerator.GeneratedAppend | edge_lake/mcp_server/tools/generator.py:45-56 | filtering keeps configuration order: listing two runs of configurations gives the first run's tools followed by the second's |
| ToolGenerator.GenerateTools | edge_lake/mcp_server/tools/generator.py:43-59 | the loop lists exactly the generated tools |
| ToolExecutor.TextItemText | edge_lake/mcp_server/tools/executor.py:271-274 | a text content item gives back the text it was built from |
| ToolExecutor.FormatResponse | edge_lake/mcp_server/tools/executor.py:261-274 | exactly one text item carrying the result |
| ToolExecutor.FormatError | edge_lake/mcp_server/tools/executor.py:276-289 | exactly one text item carrying "Error: " followed by the message |
| ToolExecutor.TableInfo | edge_lake/mcp_server/tools/executor.py:224-226 | table information exists iff the item is a dict whose `table` entry is a dict |
| ToolExecutor.DatabaseNames | edge_lake/mcp_server/tools/executor.py:222-229 | a name is collected iff some item carries it as a truthy `dbms` |
| ToolExecutor.UniqueDatabases | edge_lake/mcp_server/tools/executor.py:220-231 | the names are strictly sorted, so distinct, and a name is listed iff the result is a list and some item carries it as a truthy `dbms` |
| ToolExecutor.ExtractUniqueDatabases | edge_lake/mcp_server/tools/executor.py:210-231 | the loop and the sort give exactly the unique sorted database names |
| ToolExecutor.ConcatMembers | edge_lake/mcp_server/tools/executor.py:249-257 | a value is collected iff some item contributes it |
| ToolExecutor.ConcatAppend | edge_lake/mcp_server/tools/executor.py:249-257 | collecting over two runs of items gives the first run's values followed by the second's |
| ToolExecutor.ConcatLength | edge_lake/mcp_server/tools/executor.py:249-257 | with at most one value per item, never more values than items |
| ToolExecutor.TablesIn | edge_lake/mcp_server/tools/executor.py:249-257 | never more table names than items |
| ToolExecutor.TablesInMembers | edge_lake/mcp_server/tools/executor.py:249-257 | a name is listed iff some item is a table of the requested database (Python equality) with that truthy name |
| ToolExecutor.TablesInAppend | edge_lake/mcp_server/tools/executor.py:249-257 | order and repeats are kept across runs of items |
| ToolExecutor.TablesForDatabase | edge_lake/mcp_server/tools/executor.py:244-259 | a falsy database or a result that is not a list gives no tables; otherwise the tables of the database in result order |
| ToolExecutor.ExtractTablesForDatabase | edge_lake/mcp_server/tools/executor.py:233-259 | the loop lists exactly the tables of the database |
| ToolExecutor.NameList | edge_lake/mcp_server/tools/executor.py:231 | the names become a JSON list of strings of the same length and order |
| ToolExecutor.ParseBlockchainTable | edge_lake/mcp_server/tools/executor.py:200-208 | `unique_databases` gives the unique sorted database names, `tables_for_database` the tables of the `database` argument, and any other setting returns the result unchanged |
| ToolExecutor.ParseResponse | edge_lake/mcp_server/tools/executor.py:174-185 | an unknown or falsy parser leaves the result unchanged; a `blockchain_table` parser applies its extraction; another parser type leaves the result unchanged |
| ToolExecutor.ParseResponseAsWritten | edge_lake/mcp_server/tools/executor.py:174 | as written the lookup of the parser mapping always raises |
| ToolExecutor.ParserUnreachableAsWritten | edge_lake/mcp_server/tools/executor.py:149-151 | a tool configured with a `unique_databases` parser would list the databases under the corrected parse, but as written gets an error |
| ToolExecutor.SqlCommand | edge_lake/mcp_server/tools/executor.py:130-132 | the command is the direct client's `sql` command over the `database` argument and the built query, with the `format` argument or "json" by default |
| ToolExecutor.EdgelakeCommand | edge_lake/mcp_server/tools/executor.py:125-143 | a `build_sql` tool builds its SQL from the arguments, fails when building fails, and keeps the configured headers; any other tool's command and headers come from its command template, or the template selection's error (`BuildFrom`) |
| ToolExecutor.EdgelakeCommandAsWritten | edge_lake/mcp_server/tools/executor.py:140-143 | as written a template tool's command is built from the command mapping as if it were the whole tool entry |
| ToolExecutor.TemplateIgnoredAsWritten | edge_lake/mcp_server/tools/executor.py:140-143 | a tool with template "get status" sends the empty command as written but "get status" when corrected |
| ToolExecutor.ResultText | edge_lake/mcp_server/tools/executor.py:154-159 | dicts and lists are serialised; a string is returned as it is |
| ToolExecutor.ExecuteEdgelakeCommand | edge_lake/mcp_server/tools/executor.py:122-159 | a command that cannot be built is the error; otherwise the engine's error passes through, and its answer becomes the result text: unparsed when `parse_response` is falsy, else after `ParseResponse`, whose error passes through |
| ToolExecutor.ExecuteEdgelakeCommandAsWritten | edge_lake/mcp_server/tools/executor.py:122-159 | as written, a command that cannot be built is the error, and a tool with a truthy `parse_response` whose command ran always ends in the missing `response_parsers` AttributeError |
| ToolExecutor.TemplateToolSendsEmptyAsWritten | edge_lake/mcp_server/tools/executor.py:140-143 | as written, a template tool without a parser sends the empty command with no headers, and its answer is the engine's reply to that |
| ToolExecutor.AsWrittenAgreesOnSql | edge_lake/mcp_server/tools/executor.py:125-137 | a `build_sql` tool without a parser runs and answers the same as written and corrected |
| ToolExecutor.ServerInfo | edge_lake/mcp_server/tools/executor.py:92-107 | the info exists iff both settings can be read, and then reports mode "embedded" and server name "edgelake-mcp-server" |
| ToolExecutor.ExecuteInternal | edge_lake/mcp_server/tools/executor.py:85-90 | `server_info` gives the server info; any other method is "Unknown internal method: " followed by the method |
| ToolExecutor.InfoText | edge_lake/mcp_server/tools/executor.py:92-107 | the serialised server info exists exactly when both settings can be read |
| ToolExecutor.Outcome | edge_lake/mcp_server/tools/executor.py:49-63 | a tool that is not configured fails with "Unknown tool: " followed by its name; a command entry that is not a dict fails with "'…' object has no attribute 'get'"; an internal tool answers with `ExecuteInternal` over the server info, any other with `ExecuteEdgelakeCommand` |
| ToolExecutor.OutcomeAsWritten | edge_lake/mcp_server/tools/executor.py:49-63 | as written: an unknown tool is "Unknown tool: …", and a command tool answers with `ExecuteEdgelakeCommandAsWritten` |
| ToolExecutor.OutcomeAsWrittenAgreesOffPipeline | edge_lake/mcp_server/tools/executor.py:49-60 | unknown tools, non-dict command entries and internal tools answer the same as written and corrected |
| ToolExecutor.ExecuteTool | edge_lake/mcp_server/tools/executor.py:49-70 | always exactly one text item: the outcome's text on success, "Error: " followed by the message on any failure, in particular for an unknown tool |
| CommandBuilder.WordEnd | edge_lake/mcp_server/core/command_builder.py:126 | the `\w+` run starting at a position ends at the first non-word character or at the end of the text |
| CommandBuilder.PlaceholderAt | edge_lake/mcp_server/core/command_builder.py:126 | a match of `\{(\w+)\}` found at a position starts with `{`, ends with `}` and encloses a non-empty word |
| CommandBuilder.KeysSound | edge_lake/mcp_server/core/command_builder.py:115-126 | every key `_extract_template_keys` returns is a word whose `{key}` placeholder occurs in the template |
| CommandBuilder.KeysComplete | edge_lake/mcp_server/core/command_builder.py:115-126 | every `{w}` placeholder with a word `w` that occurs in the template is extracted, whatever surrounds it |
| CommandBuilder.ExtractedKeysRequired | edge_lake/mcp_server/core/command_builder.py:108-131 | every extracted key is required by `_is_required_key`, so the "or not required" escape in the partial-template test never applies |
| CommandBuilder.FirstQualifying | edge_lake/mcp_server/core/command_builder.py:98-111 | no template is chosen exactly when no non-`full` entry has a truthy condition argument and all its keys present; otherwise the chosen one is the first entry, in mapping order, that does |
| CommandBuilder.SelectTemplate | edge_lake/mcp_server/core/command_builder.py:88-113 | the default without conditional templates; `full` when each of its placeholders names a truthy argument; otherwise the first qualifying `with_` template, else the default |
| CommandBuilder.Lookup2 | edge_lake/mcp_server/core/command_builder.py:92-95 | a found template is an entry under that key; a missing one means no entry has that key |
| CommandBuilder.FillIsReplaceAll | edge_lake/mcp_server/core/command_builder.py:144-158 | the `placeholder in command` test changes nothing: filling is replacing each argument's placeholder everywhere, argument by argument |
| CommandBuilder.FillOne | edge_lake/mcp_server/core/command_builder.py:148-156 | one argument's step keeps the text between occurrences of its placeholder and puts `str(value)` in place of each |
| CommandBuilder.FillWithoutPlaceholders | edge_lake/mcp_server/core/command_builder.py:144-158 | a template holding no argument's placeholder comes out unchanged |
| CommandBuilder.FillTemplate | edge_lake/mcp_server/core/command_builder.py:133-158 | the loop over the arguments computes exactly `Fill`, the in-order fold of replacements |
| CommandBuilder.TextEntries | edge_lake/mcp_server/core/command_builder.py:44 | an entry is kept exactly when its template is a string (also lines 98) |
| CommandBuilder.ReadCommand | edge_lake/mcp_server/core/command_builder.py:36-72 | the type is "internal" exactly when the mapping says so; a missing method or template reads as "", a missing conditional mapping as empty and error-free; the conditional value's error is `ConditionalError` of it; the headers are `get('headers')`, absent for both a missing key and null |
| CommandBuilder.ConditionalError | edge_lake/mcp_server/core/command_builder.py:88-98 | `_select_template` raises exactly on a truthy non-mapping: a number or bool cannot be searched with `in`; a string or list without "full" has no `items`; one holding "full" cannot be indexed by it |
| CommandBuilder.ListConditionalFails | edge_lake/mcp_server/core/command_builder.py:88-98 | a command whose `conditional_template` is a list without "full" fails with "'list' object has no attribute 'items'", whatever its template |
| Json.Get | edge_lake/mcp_server/core/command_builder.py:53 | `get('headers')` is absent exactly when the key is missing or null, and is the stored value otherwise |
| CommandBuilder.BuildFrom | edge_lake/mcp_server/core/command_builder.py:39-73 | an internal command is `internal:<method>` with no headers; any other fails exactly when its conditional value has an error, with that error, and otherwise passes the headers on and, without conditional templates, fills the plain template |
| CommandBuilder.BuildCommand | edge_lake/mcp_server/core/command_builder.py:35-59 | fails exactly when `edgelake_command` is not a mapping (with the "has no attribute 'get'" error), or is a non-internal command whose `conditional_template` has a `ConditionalError` (with that error); a tool without one builds the empty command with no headers |
| CommandBuilder.EmptyCommand | edge_lake/mcp_server/core/command_builder.py:35-59 | an empty `edgelake_command` mapping builds ("", None) for any arguments |
| CommandBuilder.OrderItem | edge_lake/mcp_server/core/command_builder.py:205-211 | a dict item gives `column` and its `direction`, "ASC" when missing and kept as written otherwise; any other item gives its `str` |
| CommandBuilder.OrderParts | edge_lake/mcp_server/core/command_builder.py:203-211 | one part per item, in order, each `OrderItem` of its item |
| CommandBuilder.OrderBy | edge_lake/mcp_server/core/command_builder.py:202-215 | the ORDER BY text appended is the specified `OrderClause`: empty for a falsy value, the joined parts for a list, `str` otherwise |
| CommandBuilder.BuildSqlQuery | edge_lake/mcp_server/core/command_builder.py:172-222 | growing the query clause by clause gives the specified `SqlQuery`, including the error of joining a list with a non-string |
| QueryBuilder.SelectColumns | edge_lake/mcp_server/core/query_builder.py:83-98 | without `select` and `extend_fields` the columns are `['*']`; the `select` columns always come first |
| QueryBuilder.SelectClause | edge_lake/mcp_server/core/query_builder.py:81-100 | the SELECT clause is built exactly when every column is a string; joining raises otherwise |
| QueryBuilder.Shown | edge_lake/mcp_server/core/query_builder.py:112-114 | `str` of each included table, in order |
| QueryBuilder.AppendedIsJoin | edge_lake/mcp_server/core/query_builder.py:107-114 | appending `", " + str(t)` per table lists the main table and every included table separated by commas |
| QueryBuilder.AppendTables | edge_lake/mcp_server/core/query_builder.py:111-114 | the loop appends `", " + str(t)` for each included table, in order |
| QueryBuilder.BuildFromClause | edge_lake/mcp_server/core/query_builder.py:102-118 | the method computes `FromClause`: the table, then the included tables of a list, or the single value, when truthy |
| QueryBuilder.WhereClause | edge_lake/mcp_server/core/query_builder.py:120-127 | a WHERE clause exactly when `where` is truthy |
| QueryBuilder.GroupByClause | edge_lake/mcp_server/core/query_builder.py:129-141 | a GROUP BY clause exactly when `group_by` is truthy and no error is raised; only a list can raise (a non-string item) |
| QueryBuilder.OrderPart | edge_lake/mcp_server/core/query_builder.py:153-162 | an item fails exactly when it is a dict whose direction is not a string; a string is kept, a non-dict non-string skipped, and a dict yields a part exactly when its column is truthy |
| QueryBuilder.Extend | edge_lake/mcp_server/core/query_builder.py:153-162 | one loop turn keeps an earlier error, else takes this item's, else appends at most one part |
| QueryBuilder.OrderParts | edge_lake/mcp_server/core/query_builder.py:150-162 | the loop succeeds exactly when every item's direction is usable, with at most one part per item; an error is the AttributeError message |
| QueryBuilder.Texts | edge_lake/mcp_server/core/query_builder.py:160-162 | the strings of a list of strings, in order |
| QueryBuilder.OrderPartsOfStrings | edge_lake/mcp_server/core/query_builder.py:160-162 | a list of plain strings is kept as it is |
| QueryBuilder.OrderByClause | edge_lake/mcp_server/core/query_builder.py:143-169 | no clause for a falsy `order_by`; only a list can raise, and then with the AttributeError message |
| QueryBuilder.CollectOrderParts | edge_lake/mcp_server/core/query_builder.py:152-162 | the loop over a list computes `OrderParts` |
| QueryBuilder.OrderPartsErrorPersists | edge_lake/mcp_server/core/query_builder.py:153-157 | once an item raises, the whole list fails with that same error |
| QueryBuilder.IntValue | edge_lake/mcp_server/core/query_builder.py:179 | `int(v)` of a number is itself; of null, a list or a dict it raises |
| QueryBuilder.LimitClause | edge_lake/mcp_server/core/query_builder.py:171-185 | "LIMIT n" exactly when `limit` converts to a positive integer, and the number written reads back as that integer |
| QueryBuilder.Assemble | edge_lake/mcp_server/core/query_builder.py:62-76 | the SELECT and FROM clauses, then each present clause in order, each after one space |
| QueryBuilder.Query | edge_lake/mcp_server/core/query_builder.py:39-79 | the ValueError "Table name is required" exactly when `table` is falsy |
| QueryBuilder.SequenceItemError | edge_lake/mcp_server/core/query_builder.py:39-41 | a failed join never reports a missing table, so the table error is recognisable (also lines 100) |
| QueryBuilder.QueryParts | edge_lake/mcp_server/core/query_builder.py:62-74 | the parts list is SELECT and FROM followed by each present clause, in clause order |
| QueryBuilder.BuildQuery | edge_lake/mcp_server/core/query_builder.py:39-79 | the method computes `Query`: the table check, the first clause error in clause order, else the joined parts |
| QueryBuilder.ColumnsWithoutExtend | edge_lake/mcp_server/core/query_builder.py:83-98 | without `extend_fields` the columns are exactly the `select` argument as a list |
| QueryBuilder.SelectAgrees | edge_lake/mcp_server/core/query_builder.py:81-100 | on plain arguments the SELECT text of both builders is the same, error included |
| QueryBuilder.GroupValueAgrees | edge_lake/mcp_server/core/query_builder.py:129-141 | for a list or string `group_by` both builders give the same GROUP BY text or the same error |
| QueryBuilder.GroupAgrees | edge_lake/mcp_server/core/query_builder.py:129-141 | on plain arguments both builders give the same GROUP BY text or the same error |
| QueryBuilder.WhereAgrees | edge_lake/mcp_server/core/query_builder.py:120-127 | both builders give the same WHERE text for any `where` |
| QueryBuilder.LimitAgrees | edge_lake/mcp_server/core/query_builder.py:171-185 | for a missing or non-negative numeric limit both builders agree; a negative limit is dropped here but kept by the command builder |
| QueryBuilder.BuildersAgree | edge_lake/mcp_server/core/query_builder.py:39-79 | on plain arguments `build_query` and `build_sql_query` produce the same statement or the same error, except that only the latter keeps a negative LIMIT |
| QueryBuilder.PlainClauses | edge_lake/mcp_server/core/query_builder.py:102-118 | plain arguments have a truthy table, a FROM clause naming only it, and no ORDER BY in either builder (also lines 143-148) |
| QueryBuilder.QueryCommand | edge_lake/mcp_server/core/query_builder.py:187-199 | the command is the one the direct client sends for the same query, and it ends with the query in double quotes |
| DirectClient.FirstNul | edge_lake/mcp_server/core/direct_client.py:211 | `find(b'\x00')`: -1 exactly when the buffer holds no NUL, else the position of the first one |
| DirectClient.BufferSize | edge_lake/mcp_server/core/direct_client.py:117-123 | an unset `io_buff_size` gives 32768; a set one gives its integer value, and no buffer when it is not a non-negative integer |
| DirectClient.FromBuffer | edge_lake/mcp_server/core/direct_client.py:209-229 | a result comes from the buffer exactly when its first NUL is past position 0 and the bytes before it decode to non-empty text; it is then that text parsed as JSON, or the text itself |
| DirectClient.UntouchedBufferIgnored | edge_lake/mcp_server/core/direct_client.py:123 | a zero-filled buffer of any size yields nothing, so the stdout half decides (also lines 211-214) |
| DirectClient.MarkerStart | edge_lake/mcp_server/core/direct_client.py:250-263 | -1 exactly when none of the four result patterns occurs; else the position of the first pattern in list order that occurs anywhere, even when a later one lies further left |
| DirectClient.MarkerFrom | edge_lake/mcp_server/core/direct_client.py:258-263 | the pattern loop from a given pattern on: the first pattern in order that occurs, or -1 |
| DirectClient.FirstIndex | edge_lake/mcp_server/core/direct_client.py:274-295 | the first index of the character, -1 exactly when it does not occur |
| DirectClient.JsonStart | edge_lake/mcp_server/core/direct_client.py:257-295 | a pattern position when a pattern occurs; otherwise the first `[` before the first `{` for a command mentioning "blockchain" and the other way round for any other; the start is always a bracket, and -1 exactly when the text has no bracket |
| DirectClient.SpanEnd | edge_lake/mcp_server/core/direct_client.py:297-312 | `json_end` is one past the first position where the count of the starting bracket kind returns to 0, every shorter span having a positive count; -1 when it never returns |
| DirectClient.FromStdout | edge_lake/mcp_server/core/direct_client.py:234-325 | the whole stripped text when it parses; otherwise the bracketed span from `JsonStart` to `SpanEnd` when it parses; otherwise the raw text |
| DirectClient.Extract | edge_lake/mcp_server/core/direct_client.py:208-329 | the buffer's result first; then the stripped stdout when it is not blank; else the empty string |
| DirectClient.FindMarker | edge_lake/mcp_server/core/direct_client.py:257-263 | the pattern loop computes `MarkerStart` |
| DirectClient.Scan | edge_lake/mcp_server/core/direct_client.py:274-277 | the enumerate-and-break loop computes `FirstIndex` |
| DirectClient.MatchSpan | edge_lake/mcp_server/core/direct_client.py:297-312 | the bracket-counting loop computes `SpanEnd` |
| DirectClient.FindStart | edge_lake/mcp_server/core/direct_client.py:257-295 | the pattern loop and the bracket fallbacks compute `JsonStart` |
| DirectClient.ExtractFromStdout | edge_lake/mcp_server/core/direct_client.py:234-325 | the stdout scan computes `FromStdout` |
| DirectClient.ExtractResult | edge_lake/mcp_server/core/direct_client.py:195-329 | the step-by-step extraction computes `Extract` |
| DirectClient.SyncOutcome | edge_lake/mcp_server/core/direct_client.py:176-189 | SUCCESS gives the extracted result, 141 the empty string, any other code an error carrying the saved error or "Command failed with code N" |
| DirectClient.SyncExecute | edge_lake/mcp_server/core/direct_client.py:99-193 | an unusable `io_buff_size` is the ValueError; then headers `in` cannot search are the `HeadersError`; otherwise the engine gets a zero-filled buffer of `BufferSize` bytes, an exception it raises is re-raised, and a return code is settled by `SyncOutcome` over `Extract` of the buffer and stdout it left |
| DirectClient.NotReadyIsEmpty | edge_lake/mcp_server/core/direct_client.py:181-184 | code 141 gives the empty string whatever the buffer, stdout and saved error hold |
| DirectClient.FailureIsError | edge_lake/mcp_server/core/direct_client.py:185-189 | any other failing code is an error with the saved error, or "Command failed with code N" when there is none |
| DirectClient.RaisedRuntimeError | edge_lake/mcp_server/core/direct_client.py:191-193 | a RuntimeError raised inside the worker is what `_sync_execute` re-raises; there is none when the headers raise their TypeError |
| DirectClient.HeadersError | edge_lake/mcp_server/core/direct_client.py:126 | `'destination' in headers` raises exactly on a truthy number or bool, with the "argument of type 'X' is not iterable" message |
| DirectClient.NumberHeadersRaise | edge_lake/mcp_server/core/direct_client.py:126 | a non-zero number as headers makes `_sync_execute` fail with "argument of type 'int' is not iterable" whatever the engine would do |
| DirectClient.NumberHeadersFail | edge_lake/mcp_server/core/direct_client.py:88-97 | `execute_command` with such headers fails with that same TypeError, since it is not a RuntimeError |
| DirectClient.OnRuntimeError | edge_lake/mcp_server/core/direct_client.py:88-94 | a RuntimeError, from the pool or from inside `_sync_execute`, gives the empty string exactly when its message mentions "shutdown" in any case, and is raised again otherwise |
| DirectClient.TimeoutMessage | edge_lake/mcp_server/core/direct_client.py:95-97 | the timeout message names the command |
| DirectClient.Complete | edge_lake/mcp_server/core/direct_client.py:78-97 | a finished run is `SyncExecute`'s outcome for the command and its headers, except that a RuntimeError it re-raised goes through `OnRuntimeError`; a timeout is an error naming the command; a pool failure goes through `OnRuntimeError` |
| DirectClient.FormatQueryResult | edge_lake/mcp_server/core/direct_client.py:351-356 | a dict is serialised, a string returned as is, anything else serialised inside `{"result": …}` |
| DirectClient.Client.constructor | edge_lake/mcp_server/core/direct_client.py:36-37 | a new client is not shutting down |
| DirectClient.Client.Close | edge_lake/mcp_server/core/direct_client.py:362-365 | the client is shutting down afterwards |
| DirectClient.Client.ExecuteCommand | edge_lake/mcp_server/core/direct_client.py:54-97 | once closed every command gives the empty string without running; otherwise `Complete`, which runs the command and its headers through `SyncExecute` |
| DirectClient.Client.ExecuteQuery | edge_lake/mcp_server/core/direct_client.py:331-360 | the command is `sql <db> format = <fmt> "<query>"` run with the headers `{"destination": "network"}` and the 30-second default; its value is formatted by `FormatQueryResult` and errors pass through unchanged |
| QueryExecutor.SelectMode | edge_lake/mcp_server/core/query_executor.py:472-494 | the mode is "batch" or "streaming", and "batch" exactly when the lower-cased query contains one of the seven indicators |
| QueryExecutor.BatchWhenFound | edge_lake/mcp_server/core/query_executor.py:488-489 | an indicator found at any position of the lower-cased query selects batch mode |
| QueryExecutor.SelectModeCount | edge_lake/mcp_server/test_query_executor.py:156 | "SELECT COUNT(*) FROM test_table" runs in batch mode |
| QueryExecutor.SelectModeScan | edge_lake/mcp_server/test_query_executor.py:157 | "SELECT * FROM test_table" streams |
| QueryExecutor.SelectModeLimit | edge_lake/mcp_server/test_query_executor.py:158 | "SELECT * FROM test_table LIMIT 10" runs in batch mode |
| QueryExecutor.ValidateQuery | edge_lake/mcp_server/core/query_executor.py:91-113 | code 0 validates with the table and the validated SQL; any other code fails with the saved error or "Query validation failed with code N"; an exception fails with its text |
| QueryExecutor.QueryValue | edge_lake/mcp_server/core/query_executor.py:219-220 | undecodable data is "Failed to parse query results: …"; a decoded dict gives its `Query` value (default `[]`); any other decoded value raises (also lines 357-358) |
| QueryExecutor.KeyStrings | edge_lake/mcp_server/core/query_executor.py:226 | iterating a dict yields its keys, in order |
| QueryExecutor.CharStrings | edge_lake/mcp_server/core/query_executor.py:226 | iterating a string yields its characters, in order |
| QueryExecutor.StreamStep | edge_lake/mcp_server/core/query_executor.py:213-241 | blank data ends the loop; a batch with rows has at least one, and they are the elements of the row value |
| QueryExecutor.StreamSteps | edge_lake/mcp_server/core/query_executor.py:201-246 | each fetch read as `StreamStep`, one per fetch |
| QueryExecutor.StreamFromStep | edge_lake/mcp_server/core/query_executor.py:201-253 | one loop turn: the end yields `complete` with the total; a failure raises; a last batch yields its data and then `complete`; otherwise its data and the loop goes on with the total increased |
| QueryExecutor.StreamShape | edge_lake/mcp_server/core/query_executor.py:201-253 | the fetch loop yields non-empty data units and, unless it raises, exactly one final `complete` unit whose total is the sum of their row counts |
| QueryExecutor.StreamingShape | edge_lake/mcp_server/core/query_executor.py:175-253 | whatever the engine returns, including cursor failures, the stream is well shaped as above |
| QueryExecutor.Cursor.constructor | edge_lake/mcp_server/core/query_executor.py:176 | a new cursor has not been closed |
| QueryExecutor.Cursor.Close | edge_lake/mcp_server/core/query_executor.py:255-261 | closing is counted once more |
| QueryExecutor.ExecuteStreaming | edge_lake/mcp_server/core/query_executor.py:175-261 | the yielded stream is `Streaming` of the engine, and the cursor is closed exactly once however the loop ends |
| QueryExecutor.FetchStream | edge_lake/mcp_server/core/query_executor.py:201-253 | the `while True` loop computes `StreamFrom` from the first fetch with no rows counted |
| QueryExecutor.BatchStep | edge_lake/mcp_server/core/query_executor.py:353-366 | blank data ends the loop; an empty row value adds no rows and the loop goes on; otherwise the rows are the elements of the value |
| QueryExecutor.BatchSteps | edge_lake/mcp_server/core/query_executor.py:343-369 | each fetch read as `BatchStep`, one per fetch |
| QueryExecutor.BatchReply | edge_lake/mcp_server/core/query_executor.py:373-377 | the reply says success, holds the rows and counts them |
| QueryExecutor.BatchFromStep | edge_lake/mcp_server/core/query_executor.py:343-369 | one loop turn: the end returns the rows so far; a failure raises; a last batch appends its rows and returns; otherwise it appends and goes on |
| QueryExecutor.BatchExtends | edge_lake/mcp_server/core/query_executor.py:360-361 | batches only ever append rows after those already collected |
| QueryExecutor.StepsAgree | edge_lake/mcp_server/core/query_executor.py:213-224 | the two loops read each fetch alike: the same rows where streaming takes rows; where streaming stops, batch stops or skips an empty batch (also lines 353-361) |
| QueryExecutor.StreamCountsRows | edge_lake/mcp_server/core/query_executor.py:226-253 | a stream that ends normally ends in a `complete` unit counting exactly the rows it streamed |
| QueryExecutor.StreamFromPrefixOfBatchFrom | edge_lake/mcp_server/core/query_executor.py:201-246 | over agreeing steps, the rows streamed extend the rows collected so far to a prefix of the batch result (also lines 343-369) |
| QueryExecutor.StreamingIsPrefixOfBatch | edge_lake/mcp_server/core/query_executor.py:175-377 | on the same engine, when neither executor raises, the rows streaming delivers are a prefix of the rows batch mode returns, and the `complete` unit counts exactly the rows streamed |
| QueryExecutor.ExecuteBatch | edge_lake/mcp_server/core/query_executor.py:288-384 | the reply is `Batch` of the engine, and the cursor is closed exactly once |
| QueryExecutor.FetchBatches | edge_lake/mcp_server/core/query_executor.py:343-369 | the `while True` loop computes `BatchFrom` from the first fetch with no rows |
| QueryExecutor.EffectiveMode | edge_lake/mcp_server/core/query_executor.py:442-444 | "auto" becomes `SelectMode` of the query; any other mode is kept |
| QueryExecutor.ExecuteQuery | edge_lake/mcp_server/core/query_executor.py:430-460 | a failed validation raises "Query validation failed: …" and opens no cursor; otherwise "streaming" streams and every other mode batches, with one cursor closed once |
| Capabilities.ToolNames | edge_lake/mcp_server/capabilities.py:93-136 | the names are those of the listed tools, one per tool, in order |
| Capabilities.ToolsFor | edge_lake/mcp_server/capabilities.py:90-136 | every node's list holds at least the five common tools |
| Capabilities.EnabledTools | edge_lake/mcp_server/capabilities.py:90-136 | growing the list group by group, in the order the flags are checked, yields exactly the specified list `ToolsFor` |
| Capabilities.FilterToolsByCapability | edge_lake/mcp_server/capabilities.py:90-137 | the names returned are those of `ToolsFor` the flags read from the capability dict, a missing flag counting as false |
| Capabilities.ToolsStartWithBase | edge_lake/mcp_server/capabilities.py:93-99 | every node's list starts with list_databases, list_tables, get_schema, node_status, server_info |
| Capabilities.BlockchainToolsByFlag | edge_lake/mcp_server/capabilities.py:102-108 | blockchain_get and info_table are listed if and only if has_blockchain; blockchain_post if and only if is_master and can_write_blockchain |
| Capabilities.QueryToolsByFlag | edge_lake/mcp_server/capabilities.py:111-116 | query_local is listed if and only if can_query_local, query if and only if can_query_network, query_status if and only if is_query |
| Capabilities.RoleToolsByFlag | edge_lake/mcp_server/capabilities.py:119-136 | operator_status is listed if and only if is_operator, publisher_status if and only if is_publisher, cluster_info if and only if is_operator or is_query |
| Capabilities.ServiceToolsDistinct | edge_lake/mcp_server/capabilities.py:93-116 | no common, blockchain or query tool is listed twice |
| Capabilities.ServiceToolsNotRoles | edge_lake/mcp_server/capabilities.py:93-116 | none of the common, blockchain or query tools is a role tool |
| Capabilities.RoleToolsDistinct | edge_lake/mcp_server/capabilities.py:119-136 | no role tool is listed twice, and the role groups hold only role tools |
| Capabilities.ToolsDistinct | edge_lake/mcp_server/capabilities.py:134-136 | no tool is listed twice: cluster_info is not repeated for a node that is both operator and query node |
| Capabilities.Members | edge_lake/mcp_server/capabilities.py:90-136 | a tool is listed if and only if one of the eight groups lists it |
| Capabilities.Roles | edge_lake/mcp_server/capabilities.py:306-319 | the node-type list is empty if and only if none of is_operator, is_query, is_publisher, is_master is set |
| Capabilities.RolesByFlag | edge_lake/mcp_server/capabilities.py:306-314 | each node type is reported if and only if its flag is set, in the order Operator, Query, Publisher, Master |
| Capabilities.RoleNames | edge_lake/mcp_server/capabilities.py:317 | one name per role, in order |
| Capabilities.JoinNames | edge_lake/mcp_server/capabilities.py:330 | joining a list joins its strings (or fails on a non-string); a dict joins its keys; null, booleans and numbers cannot be iterated |
| Capabilities.BlockchainAccess | edge_lake/mcp_server/capabilities.py:340-343 | "Read/Write" when the node can write, else "Read-Only" when it has a blockchain, else no line |
| Capabilities.DatabasesLine | edge_lake/mcp_server/capabilities.py:328-332 | "None" for a falsy value; otherwise the joined names, failing exactly when the join fails |
| Capabilities.SummaryLines | edge_lake/mcp_server/capabilities.py:303-343 | the summary succeeds exactly when the database line does; it then has ten lines plus the optional access line, starting with the title and the node type, with the database line seventh |
| Capabilities.NodeTypes | edge_lake/mcp_server/capabilities.py:306-314 | the appended node types are exactly `Roles` of the flags |
| Capabilities.GetCapabilitySummary | edge_lake/mcp_server/capabilities.py:303-345 | the result is `SummaryLines` joined by newlines, or the error of joining the database names |
| BlockchainQuery.TablesWithinDatabases | edge_lake/mcp_server/core/blockchain_query.py:62-74 | a database that has a table in some company is one of the databases `get_all_databases` lists |
| BlockchainQuery.AbsentDatabaseHasNoTables | edge_lake/mcp_server/core/blockchain_query.py:62-74 | asking for the tables of a database no company has yields the empty list |
| BlockchainQuery.CompanyDatabasesWithinDatabases | edge_lake/mcp_server/core/blockchain_query.py:98-105 | every database of a known company is among all databases |
| BlockchainQuery.GetAllDatabases | edge_lake/mcp_server/core/blockchain_query.py:38-50 | the result is sorted, has no duplicates, and holds exactly the databases some company has |
| BlockchainQuery.GetTablesForDatabase | edge_lake/mcp_server/core/blockchain_query.py:62-74 | the result is sorted, has no duplicates, and holds exactly the tables of that database over every company that has it |
| BlockchainQuery.GetCompanies | edge_lake/mcp_server/core/blockchain_query.py:83-86 | the result is the companies of the metadata, sorted, each once |
| BlockchainQuery.GetDatabasesForCompany | edge_lake/mcp_server/core/blockchain_query.py:98-105 | an unknown company yields []; a known one yields its databases sorted, each once |
| BlockchainQuery.ArgumentError | edge_lake/mcp_server/core/blockchain_query.py:134 | calling a query with keyword arguments raises no TypeError exactly when the keywords are the query's parameters, no more and no fewer |
| BlockchainQuery.FirstUnexpected | edge_lake/mcp_server/core/blockchain_query.py:134 | the keyword the TypeError names is the first one that is not a parameter |
| BlockchainQuery.FirstMissing | edge_lake/mcp_server/core/blockchain_query.py:134 | the parameter the TypeError names is the first one not passed |
| BlockchainQuery.ParseQuery | edge_lake/mcp_server/core/blockchain_query.py:121-134 | an unknown query type is the ValueError "Unknown blockchain query type: …"; the two parameterless queries called without arguments always dispatch, and the two one-parameter queries called with just their keyword dispatch with its value, whatever that value is |
| BlockchainQuery.EmptyIndexTables | edge_lake/mcp_server/core/blockchain_query.py:62-74 | with an empty index the database is never hashed, so tables for any database, even a list or dict, are none; a list or dict company is still unhashable, because the company lookup hashes before any loop |
| BlockchainQuery.ExecuteQuery | edge_lake/mcp_server/core/blockchain_query.py:121-134 | a dispatch error is returned unchanged; an unhashable database raises only when the index holds a company, an unhashable company always; otherwise the answer is the sorted, duplicate-free list of exactly the names the dispatched query asks for, and `[]` for tables of an empty index |
| Strings.ToInt | edge_lake/mcp_server/config/__init__.py:150 | `int(s)` succeeds exactly when the text is a Python integer literal, with its value; otherwise it is the ValueError (also lines 195, 202) |
| Config.FirstDefault | edge_lake/mcp_server/config/__init__.py:145-158 | the position found holds a default node and none before it does; nothing is found exactly when no node is a default |
| Config.DefaultNode | edge_lake/mcp_server/config/__init__.py:154-171 | the first default node when there is one; else the first node; with no nodes, the local node 127.0.0.1:32049 |
| Config.FirstNamed | edge_lake/mcp_server/config/__init__.py:173-185 | the position of the first element with the name, -1 exactly when no element has it |
| Config.NodeByName | edge_lake/mcp_server/config/__init__.py:173-178 | the node found has that name and is the first that does; none is found exactly when no node has the name |
| Config.ToolByName | edge_lake/mcp_server/config/__init__.py:180-185 | the tool found has that name and is the first that does; none is found exactly when no tool has the name |
| Config.Setting | edge_lake/mcp_server/config/__init__.py:191-203 | a set environment value wins and fails exactly when `int` rejects it; otherwise the client setting when present, else the default |
| Config.WithDefault | edge_lake/mcp_server/config/__init__.py:136-137 | every node keeps its fields except `is_default`, which becomes whether its name is the one given |
| Config.DefaultAfterOverride | edge_lake/mcp_server/config/__init__.py:133-158 | after EDGELAKE_DEFAULT_NODE names a node, the default node is the first node of that name |
| Config.OverrideNode | edge_lake/mcp_server/config/__init__.py:147-150 | the name and default flag are kept; the host is replaced when EDGELAKE_HOST is set; the port when EDGELAKE_PORT is a number, and a port that is not a number is the error |
| Config.DefaultApplied | edge_lake/mcp_server/config/__init__.py:133-137 | the default-node override leaves names, hosts and ports alone, sets each default flag to "name equals the override" when set, and changes nothing when unset |
| Config.EnvOverrides | edge_lake/mcp_server/config/__init__.py:130-152 | the node count, names and default flags are those after the default-node override; every node other than the first default is left as that override left it |
| Config.LoadedNodes | edge_lake/mcp_server/config/__init__.py:73-83 | without a nodes file the only node is the local default node |
| Config.MissingNodesFile | edge_lake/mcp_server/config/__init__.py:73-83 | without a nodes file and without overrides, the configuration holds just the local node and it is the default node (also lines 130-171) |
| Config.Config.constructor | edge_lake/mcp_server/config/__init__.py:55-66 | the loaded nodes, the `client` mapping only when there is a nodes file, and the tools (also lines 100) |
| Config.Config.Create | edge_lake/mcp_server/config/__init__.py:48-67 | construction fails exactly when the overrides fail (a port that is not a number); otherwise the nodes are `EnvOverrides` of the loaded nodes |
| Config.Config.ApplyEnvOverrides | edge_lake/mcp_server/config/__init__.py:130-152 | the loops leave the nodes equal to `EnvOverrides` of the old nodes, report its error, and change nothing else |
| Config.Config.DefaultNodeOf | edge_lake/mcp_server/config/__init__.py:154-171 | the first node marked default; else the first node; with no nodes, the local node |
| Config.Config.RequestTimeout | edge_lake/mcp_server/config/__init__.py:191-196 | with neither EDGELAKE_TIMEOUT nor `request_timeout`, 20 |
| Config.Config.MaxWorkers | edge_lake/mcp_server/config/__init__.py:198-203 | with neither EDGELAKE_MAX_WORKERS nor `max_workers`, 10 |
| NodeQuery.SplitNameParts | edge_lake/mcp_server/core/node_query.py:43-47 | with an '@' the name is split at the first one, the name part has no '@' and the parts rejoin to the whole; without one the name is whole and the id "unknown" |
| NodeQuery.NodeStatus | edge_lake/mcp_server/core/node_query.py:50-55 | the status dict holds, in order, the full node name, its two parts and "running" |
| NodeQuery.ExecuteQuery | edge_lake/mcp_server/core/node_query.py:74-84 | any type but `get_node_status` is the ValueError "Unknown node query type: …"; `get_node_status` answers the status without arguments and raises with any |
| SseClient.EventLine | test-mcp-sse.py:48-51 | an `event: ` line gives the event field and the stripped rest |
| SseClient.DataLine | test-mcp-sse.py:48-53 | a `data: ` line gives the data field and the stripped rest |
| SseClient.IgnoredLines | test-mcp-sse.py:48-54 | comment lines such as `:keepalive` and `id:` lines give nothing |
| SseClient.RStripNewlines | test-mcp-sse.py:69 | `rstrip('\n\r')` removes exactly the trailing run of newline characters and nothing else |
| SseClient.Dispatch | test-mcp-sse.py:76-91 | `endpoint` sets the endpoint and activates the session; `message` queues its parsed data at the back, and data that does not parse ends the listener; any other type changes nothing |
| SseClient.BlankLineResets | test-mcp-sse.py:71-95 | a blank line always clears the pending event; without a type or without data it dispatches nothing |
| SseClient.DataLines | test-mcp-sse.py:100-101 | the `data: v` line of each value, in order |
| SseClient.DataLinesCollected | test-mcp-sse.py:97-101 | the data lines of one event are collected in arrival order |
| SseClient.StepEventLine | test-mcp-sse.py:97-99 | an `event:` line sets the pending event type |
| SseClient.StepMessageDispatch | test-mcp-sse.py:71-95 | a blank line after a one-line `message` event queues the parsed data and resets the event |
| SseClient.MessageDataQueued | test-mcp-sse.py:71-101 | after `event: message`, a data line and a blank line queue the parsed data |
| SseClient.MessageEventQueued | test-mcp-sse.py:71-101 | the three lines of a `message` event queue the parsed data at the back of the responses |
| SseClient.Tester.constructor | test-mcp-sse.py:38-41 | no endpoint, an inactive session and no responses |
| SseClient.Tester.Listen | test-mcp-sse.py:56-105 | after the loop the session state is that of `Run` over the lines; an exception marks the session inactive |
| SseClient.Payload | test-mcp-sse.py:135-142 | the payload holds version, id and method in that order, and `params` only when it is truthy |
| SseClient.Request | test-mcp-sse.py:129-142 | nothing is posted without an endpoint; otherwise the message URL is the base URL followed by the endpoint, with `Payload` |
| FormatTests.AllPresent | tests/test_format_changes.py:249-251 | the field loop succeeds exactly when every required field is a key of the dict |
| FormatTests.ValidMcp | tests/test_format_changes.py:236-253 | MCP output is valid exactly when it decodes and, when the case requires fields, it is a dict holding every one of them |
| FormatTests.McpIsJson | tests/test_format_changes.py:236-263 | output that passes the MCP check passes the JSON check |
| FormatTests.McpWithoutFields | tests/test_format_changes.py:236-263 | with no required fields the MCP check and the JSON check agree |
| FormatTests.MatchesBaseline | tests/test_format_changes.py:265-279 | a match needs the same type; dicts match exactly when every baseline key is present, lists exactly when the output is at least as long, other values of one type always |
| FormatTests.MatchesReflexive | tests/test_format_changes.py:265-279 | a baseline matches itself |
| FormatTests.MatchesTransitive | tests/test_format_changes.py:265-279 | an output matching something that matches the baseline matches the baseline |
| FormatTests.FormatVerdict | tests/test_format_changes.py:201-209 | the format check passes, with no message, exactly when an `mcp` case's output is valid MCP and a `json` case's output is valid JSON; other formats pass |
| FormatTests.Verdict | tests/test_format_changes.py:190-215 | a failed command passes exactly when it was expected to fail; a successful one passes exactly when the format check passes and, with a baseline, the output matches it; a message is given exactly on failure |
| FormatTests.BaselineOnlyAfterFormat | tests/test_format_changes.py:211-215 | for a failed command or a failed format check the baseline does not change the verdict |
| FormatTests.OwnBaselinePasses | tests/test_format_changes.py:211-215 | a successful output judged against itself as baseline gets just the format verdict |
| FormatTests.Judged | tests/test_format_changes.py:217-225 | the recorded result names the case and command, holds the output and the baseline, and carries the verdict |
| FormatTests.JudgedAll | tests/test_format_changes.py:290-291 | one result per case, in order, each judged on its own reply |
| FormatTests.PassedCount | tests/test_format_changes.py:298-299 | the passed count is at most the number of results, and equals it exactly when every result passed |
| FormatTests.Suite.constructor | tests/test_format_changes.py:98-100 | no baseline and an empty baseline are the same; no results yet |
| FormatTests.Suite.RunTest | tests/test_format_changes.py:178-234 | the returned result is `Judged` against the stored baseline, and it is appended to the results |
| FormatTests.Suite.RunAllTests | tests/test_format_changes.py:281-311 | the results grow by the judged cases in order, and the suite succeeds exactly when no recorded result failed |
| FormatTests.BaselineCases | tests/test_format_changes.py:323 | exactly the cases whose name does not contain "mcp" |
| FormatTests.CollectedEntries | tests/test_format_changes.py:327-335 | a name has a baseline exactly when some case of that name succeeded, and the baseline is the output of such a case |
| FormatTests.CollectBaselines | tests/test_format_changes.py:313-338 | the loop collects exactly `Collected` of the baseline cases and their replies |
| FormatTests.BaselinesSkipMcp | tests/test_format_changes.py:322-335 | no name containing "mcp" gets a baseline, and every baseline belongs to a case |

## Left out

- Threads, locks, thread pools and `asyncio`. Every handler call, worker-thread run and keepalive pass is one atomic sequential step. The lock only makes registry updates atomic, so interleavings between steps are not modelled.
- Real time. There is no `time.time`, no `time.sleep`, no 1 s queue wait and no 30 s sweep sleep. Clock readings are `nat` parameters, and the float timeout is a whole number of seconds.
- Randomness. `uuid.uuid4()` is a fresh-id parameter.
- The float exponential-backoff poll loop of `_sync_execute` (`edge_lake/mcp_server/core/direct_client.py:150-172`). The model takes how the worker thread finished as an input.
- HTTP and socket I/O: headers, `wfile`, `rfile`, urllib and requests.
  - Every write is a boolean outcome: it either goes through whole or fails before any output. A partially written frame is not modelled.
  - The SSE `GET` handler's own failure before the connection is stored, where it returns False, is not modelled.
  - The 202 reply's body is not modelled.
  - Neither is the wait for the HTTP response in the test client's `send_mcp_request` and `establish_session`.
- The EdgeLake engine: `process_cmd`, `select_parser`, `set_cursor`, `process_sql_stmt`, `process_fetch_rows`, `close_cursor`, the `table_to_cluster_` index and the node name. These are inputs: return codes, saved error text, and a sequence of fetch results.
- `json.loads`, `json.dumps` and UTF-8 decoding. They are function parameters and are never implemented. JSON numbers are integers only, since no float arithmetic is involved.
- Logging, everywhere.
- YAML file reading and `os.getenv`. The decoded node list, client section, tool list and environment values are inputs. Nodes are values, not objects.
- Capability probing (`detect_node_capabilities` and its `_is_*`/`_has_*`/`_get_*` helpers). These read the live node and the filesystem. The flags arrive as a decoded dict.
- Server and application glue: Starlette/uvicorn startup, the threaded launchers, the process registry, the protocol dataclasses, the HTTP client and the `sql_query` wrapper.
- `McpServer.Server`: the `capabilities` field the constructor stores is not modelled, because no modelled operation reads it.
- `McpServer.CallItems`: a `tools/call` whose `arguments` is not an object is answered at once with the "object has no attribute 'get'" error item. The source looks the tool up first, so for an unknown tool it reports "Unknown tool" instead. An internal tool, which never reads its arguments, would even succeed.
- `ToolGenerator.GenerateTools`: `_generate_tool` only builds a dict from the three fields and cannot raise, so the skip-on-exception path is unreachable and has no model.
- `QueryExecutor.ExecuteStreaming`: the source is an async generator whose cursor opens only when iteration starts. The model takes it as iterated to the end.
  - The streaming and batch loops read each fetch from the precomputed fetch sequence. Fetching past its end reads empty data.
- `Strings.Lower` and `Strings.Upper` map ASCII letters only. Python's Unicode case mapping is not modelled. Whitespace is Python's full `str.isspace` set.
- `CommandBuilder.IsWordChar` is ASCII only. In a `str` pattern Python's `\w` also matches non-ASCII letters and digits, so a placeholder such as `{größe}` is filled by the program but left as text by the model.
- `Strings.ToInt` quotes the text with plain single quotes, as `Json.Repr` does, so its ValueError text is exact only for text without quotes or backslashes. `DirectClient.SizeError` and `SseTransport.CheckPost` share this.
- `Strings.PyInt`: `int()` on text accepts surrounding whitespace, a sign and ASCII digits. It does not accept the underscores or non-ASCII digits that Python also takes.
- `Json.Repr` quotes every string with single quotes and no escapes, as Python does for strings without quotes or special characters. So error texts built with `repr` are exact only for such strings.
- `CommandBuilder.ConditionalError`: the message for a string holding "full" is the one Python 3.11 and later give ("string indices must be integers, not 'str'"); earlier versions omit the part after the comma.
- `CommandBuilder.ReadCommand`: a `template` that is not a string is read as the empty template, and a conditional entry that is not a string is dropped. Python would instead raise a TypeError later, when matching or filling it.
- `ToolExecutor.UniqueDatabases`: only string `dbms` values are collected. A truthy non-string `dbms`, such as a number, is not modelled.
- `ToolExecutor.PyEq` treats a bool and the number it stands for as equal only at the top level of a value, not inside containers.
- `SseClient.DataLinesCollected` assumes the data lines carry no surrounding whitespace, because the test client strips each field value.
- `SseClient.Tester`: the test client resets the event type to `None`, which the model writes as the empty string, since both are falsy. Decoding the stream's bytes into lines is not modelled.
- `FormatTests.Suite`: the elapsed time of each run and everything the suite prints are not modelled.
  - The test cases are an input, and each command gets exactly one reply from the reply sequence.
- `SseTransport.Transport.ActiveConnections` returns the ids in no particular order. The registry is a map, so the insertion order of `list(self.connections.keys())` is not modelled, nor the order of `connection_ids` in `McpServer.Server.GetInfo`.
- `SseTransport.CheckPost`: the text of a `UnicodeDecodeError` from decoding the body is an input, not computed from the bytes.
- `ToolExecutor.Outcome` composes the corrected halves of both findings below: `EdgelakeCommand`, and `ParseResponse` over a `parsers` argument that stands for a parser mapping the configuration object does not have. `ToolExecutor.ExecuteTool`, `McpServer.CallItems` and `McpServer.Server.Response` inherit this. The program as written is `ToolExecutor.OutcomeAsWritten`.
- `ToolExecutor.ExecuteEdgelakeCommand` likewise builds with the corrected `EdgelakeCommand` and parses with `ParseResponse` over the `parsers` argument. The program as written is `ToolExecutor.ExecuteEdgelakeCommandAsWritten`.
- `Config.Config.RequestTimeout` and `Config.Config.MaxWorkers` state only the default case (20 and 10) in their own contracts. The full precedence order (environment, then client section, then default) is the contract of `Config.Setting`, which both call.

## Findings

| source | as written | input that shows it | evidently intended | confidence | as-written member | corrected member |
|---|---|---|---|---|---|---|
| edge_lake/mcp_server/tools/executor.py:174 | `_parse_response` reads `self.config.response_parsers`, an attribute the configuration object never defines, so every call raises AttributeError. The tool then answers "Error: …" | a tool whose command entry sets `parse_response: "databases"`, with a `blockchain_table` parser extracting `unique_databases` | look the parser up in the configured parser mapping and return the sorted unique database names | not executed | ToolExecutor.ParseResponseAsWritten (counterexample lemma ToolExecutor.ParserUnreachableAsWritten) | ToolExecutor.ParseResponse |
| edge_lake/mcp_server/tools/executor.py:140-143 | the template branch passes the tool's `edgelake_command` mapping to `build_command`, which reads `edgelake_command` from what it is given. It finds none and builds the empty command | a tool whose `edgelake_command` is `{"template": "get status"}`: the command sent is `""` | build from the tool entry, so the command sent is `get status` | not executed | ToolExecutor.EdgelakeCommandAsWritten (counterexample lemma ToolExecutor.TemplateIgnoredAsWritten) | ToolExecutor.EdgelakeCommand |

=== FILE: blockchain_query.dfy ===
/** `BlockchainQuery`: read-only questions about the blockchain metadata
    index `table_to_cluster_`, which maps a company to its databases and a
    database to its tables. Every answer is a sorted list of distinct names.

    The index is a parameter: the global dict the source reads on each call. */
module BlockchainQuery {
  import opened Wrappers
  import opened Json
  import Sorting

  /** `{company: {dbms: {table: cluster info}}}`. */
  type Index = map<string, map<string, map<string, Json>>>

  /** The databases some company has. */
  function Databases(index: Index): set<string> {
    set company, dbms | company in index && dbms in index[company] :: dbms
  }

  /** The tables of `database`, over every company that has it. */
  function Tables(index: Index, database: string): set<string> {
    set company, table | company in index && database in index[company] && table in index[company][database] :: table
  }

  /** A database with a table is one of the databases. */
  lemma TablesWithinDatabases(index: Index, database: string)
    ensures Tables(index, database) != {} ==> database in Databases(index)
  {
    if Tables(index, database) != {} {
      var table :| table in Tables(index, database);
      var company :| company in index && database in index[company] && table in index[company][database];
    }
  }

  /** A database no company has lists no tables. */
  lemma AbsentDatabaseHasNoTables(index: Index, database: string, tables: seq<string>)
    requires database !in Databases(index)
    requires Sorting.SortedListOf(tables, Tables(index, database))
    ensures tables == []
  {
    TablesWithinDatabases(index, database);
    Sorting.SortedListUnique(tables, []);
  }

  /** A company's databases are among all databases. */
  lemma CompanyDatabasesWithinDatabases(index: Index, company: string)
    requires company in index
    ensures index[company].Keys <= Databases(index)
  {
    forall dbms | dbms in index[company]
      ensures dbms in Databases(index)
    {
    }
  }

  /** `get_all_databases`: every company's databases, sorted, each once. */
  method GetAllDatabases(index: Index) returns (databases: seq<string>)
    ensures Sorting.SortedListOf(databases, Databases(index))
  {
    var found: set<string> := {};
    var companies := index.Keys;
    while companies != {}
      invariant companies <= index.Keys
      invariant found == set company, dbms | company in index.Keys - companies && dbms in index[company] :: dbms
      decreases |companies|
    {
      var company :| company in companies;
      var keys := index[company].Keys;
      ghost var before := found;
      while keys != {}
        invariant keys <= index[company].Keys
        invariant found == before + (index[company].Keys - keys)
        decreases |keys|
      {
        var dbms :| dbms in keys;
        found := found + {dbms};
        keys := keys - {dbms};
      }
      companies := companies - {company};
    }
    databases := Sorting.SortedList(found);
  }

  /** `get_tables_for_database`: the tables under `database` in every company,
      sorted, each once; none when no company has the database. */
  method GetTablesForDatabase(index: Index, database: string) returns (tables: seq<string>)
    ensures Sorting.SortedListOf(tables, Tables(index, database))
  {
    var found: set<string> := {};
    var companies := index.Keys;
    while companies != {}
      invariant companies <= index.Keys
      invariant found == set company, table | company in index.Keys - companies && database in index[company] &&
                                              table in index[company][database] :: table
      decreases |companies|
    {
      var company :| company in companies;
      if database in index[company] {
        var keys := index[company][database].Keys;
        ghost var before := found;
        while keys != {}
          invariant keys <= index[company][database].Keys
          invariant found == before + (index[company][database].Keys - keys)
          decreases |keys|
        {
          var table :| table in keys;
          found := found + {table};
          keys := keys - {table};
        }
      }
      companies := companies - {company};
    }
    tables := Sorting.SortedList(found);
  }

  /** `get_companies`: the companies, sorted. */
  method GetCompanies(index: Index) returns (companies: seq<string>)
    ensures Sorting.SortedListOf(companies, index.Keys)
  {
    companies := Sorting.SortedList(index.Keys);
  }

  /** `get_databases_for_company`: the company's databases sorted; none for
      an unknown company. */
  method GetDatabasesForCompany(index: Index, company: string) returns (databases: seq<string>)
    ensures company !in index ==> databases == []
    ensures company in index ==> Sorting.SortedListOf(databases, index[company].Keys)
  {
    if company !in index {
      return [];
    }
    databases := Sorting.SortedList(index[company].Keys);
  }

  // ---------------------------------------------------------------------------
  // execute_query
  // ---------------------------------------------------------------------------

  /** A question `execute_query` can dispatch, with its argument. */
  datatype Query = AllDatabases | TablesForDatabase(database: Json) | Companies | DatabasesForCompany(company: Json)

  /** The names an answer lists. Keys are strings, so a key that is not a
      string is never found. */
  function Answer(index: Index, q: Query): set<string> {
    match q
    case AllDatabases => Databases(index)
    case TablesForDatabase(database) => if database.Str? then Tables(index, database.s) else {}
    case Companies => index.Keys
    case DatabasesForCompany(company) =>
      if company.Str? && company.s in index then index[company.s].Keys else {}
  }

  /** The TypeError of calling method `name` with keyword arguments `kwargs`
      when it takes exactly the parameters `params`: the first unexpected
      keyword, else the first missing parameter. */
  function ArgumentError(name: string, params: seq<string>, kwargs: seq<(string, Json)>): (r: Option<string>)
    ensures r.None? <==> (forall k :: k in Keys(kwargs) ==> k in params) && (forall p :: p in params ==> p in Keys(kwargs))
  {
    if exists i :: 0 <= i < |kwargs| && kwargs[i].0 !in params then
      var i := FirstUnexpected(params, kwargs);
      Some("BlockchainQuery." + name + "() got an unexpected keyword argument '" + kwargs[i].0 + "'")
    else if exists j :: 0 <= j < |params| && params[j] !in Keys(kwargs) then
      var j := FirstMissing(params, kwargs);
      Some("BlockchainQuery." + name + "() missing 1 required positional argument: '" + params[j] + "'")
    else None
  }

  /** The position of the first keyword argument not among `params`. */
  function FirstUnexpected(params: seq<string>, kwargs: seq<(string, Json)>): (i: nat)
    requires exists i :: 0 <= i < |kwargs| && kwargs[i].0 !in params
    ensures i < |kwargs| && kwargs[i].0 !in params
    ensures forall k :: 0 <= k < i ==> kwargs[k].0 in params
  {
    if kwargs[0].0 !in params then 0
    else
      assert exists i :: 0 <= i < |kwargs[1..]| && kwargs[1..][i].0 !in params by {
        var i :| 0 <= i < |kwargs| && kwargs[i].0 !in params;
        assert kwargs[1..][i - 1] == kwargs[i];
      }
      1 + FirstUnexpected(params, kwargs[1..])
  }

  /** The position of the first parameter not passed. */
  function FirstMissing(params: seq<string>, kwargs: seq<(string, Json)>): (j: nat)
    requires exists j :: 0 <= j < |params| && params[j] !in Keys(kwargs)
    ensures j < |params| && params[j] !in Keys(kwargs)
    ensures forall k :: 0 <= k < j ==> params[k] in Keys(kwargs)
  {
    if params[0] !in Keys(kwargs) then 0
    else
      assert exists j :: 0 <= j < |params[1..]| && params[1..][j] !in Keys(kwargs) by {
        var j :| 0 <= j < |params| && params[j] !in Keys(kwargs);
        assert params[1..][j - 1] == params[j];
      }
      1 + FirstMissing(params[1..], kwargs)
  }

  /** Membership test of a value in a dict: lists and dicts cannot be hashed. */
  function HashError(key: Json): Option<string> {
    if key.Arr? || key.Obj? then Some("unhashable type: '" + TypeName(key) + "'") else None
  }

  /** The dispatch of `execute_query`: the query named by `queryType` with its
      keyword arguments, or the error Python raises before the query runs. */
  function ParseQuery(queryType: string, kwargs: seq<(string, Json)>): (r: Result<Query>)
    ensures queryType !in ["get_all_databases", "get_tables_for_database", "get_companies", "get_databases_for_company"] ==>
      r == Err("Unknown blockchain query type: " + queryType)
    ensures queryType in ["get_all_databases", "get_companies"] && kwargs == [] ==> r.Ok?
    ensures queryType == "get_tables_for_database" && Keys(kwargs) == ["database"] ==>
      r == Ok(TablesForDatabase(kwargs[0].1))
    ensures queryType == "get_databases_for_company" && Keys(kwargs) == ["company"] ==>
      r == Ok(DatabasesForCompany(kwargs[0].1))
  {
    if queryType == "get_all_databases" then
      match ArgumentError("get_all_databases", [], kwargs)
      case Some(e) => Err(e)
      case None => Ok(AllDatabases)
    else if queryType == "get_tables_for_database" then
      match ArgumentError("get_tables_for_database", ["database"], kwargs)
      case Some(e) => Err(e)
      case None => Ok(TablesForDatabase(GetOr(kwargs, "database", Null)))
    else if queryType == "get_companies" then
      match ArgumentError("get_companies", [], kwargs)
      case Some(e) => Err(e)
      case None => Ok(Companies)
    else if queryType == "get_databases_for_company" then
      match ArgumentError("get_databases_for_company", ["company"], kwargs)
      case Some(e) => Err(e)
      case None => Ok(DatabasesForCompany(GetOr(kwargs, "company", Null)))
    else Err("Unknown blockchain query type: " + queryType)
  }

  /** What running a dispatched query raises. `get_databases_for_company`
      tests its argument against the index on every call; `get_tables_for_database`
      tests it only inside the loop over companies, so on an empty index it
      never hashes it. */
  function RunError(index: Index, q: Query): Option<string> {
    match q
    case TablesForDatabase(database) => if |index| > 0 then HashError(database) else None
    case DatabasesForCompany(company) => HashError(company)
    case _ => None
  }

  /** On an empty index, asking for a database's tables never raises and
      lists nothing, whatever the argument; asking for a company's databases
      with a list or dict still raises. */
  lemma EmptyIndexTables(database: Json, company: Json)
    ensures RunError(map[], TablesForDatabase(database)).None?
    ensures Answer(map[], TablesForDatabase(database)) == {}
    ensures (company.Arr? || company.Obj?) ==> RunError(map[], DatabasesForCompany(company)).Some?
  {
  }

  /** The sorted list of no names is empty. */
  lemma NothingToList(xs: seq<string>)
    requires Sorting.SortedListOf(xs, {})
    ensures xs == []
  {
    Sorting.SortedListUnique(xs, []);
  }

  /** `execute_query`: run the dispatched query, or raise. */
  method ExecuteQuery(index: Index, queryType: string, kwargs: seq<(string, Json)>) returns (r: Result<seq<string>>)
    ensures ParseQuery(queryType, kwargs).Err? ==> r == Err(ParseQuery(queryType, kwargs).error)
    ensures ParseQuery(queryType, kwargs).Ok? && RunError(index, ParseQuery(queryType, kwargs).value).Some? ==>
      r == Err(RunError(index, ParseQuery(queryType, kwargs).value).value)
    ensures ParseQuery(queryType, kwargs).Ok? && RunError(index, ParseQuery(queryType, kwargs).value).None? ==>
      r.Ok? && Sorting.SortedListOf(r.value, Answer(index, ParseQuery(queryType, kwargs).value))
    ensures index == map[] && ParseQuery(queryType, kwargs).Ok? && ParseQuery(queryType, kwargs).value.TablesForDatabase? ==>
      r == Ok([])
  {
    var q := ParseQuery(queryType, kwargs);
    if q.Err? {
      return Err(q.error);
    }
    var failure := RunError(index, q.value);
    if failure.Some? {
      return Err(failure.value);
    }
    var names: seq<string>;
    match q.value {
      case AllDatabases =>
        names := GetAllDatabases(index);
      case TablesForDatabase(database) =>
        if database.Str? {
          names := GetTablesForDatabase(index, database.s);
          if index == map[] {
            NothingToList(names);
          }
        } else {
          names := [];
        }
      case Companies =>
        names := GetCompanies(index);
      case DatabasesForCompany(company) =>
        if company.Str? {
          names := GetDatabasesForCompany(index, company.s);
        } else {
          names := [];
        }
    }
    r := Ok(names);
  }
}

=== FILE: capabilities.dfy ===
/** `Capabilities`: which MCP tools a node enables, and the human-readable
    summary of its capability flags. The flags arrive as a decoded dict;
    probing the live node for them is not part of this model. */
module Capabilities {
  import opened Wrappers
  import opened Strings
  import opened Json
  import Seqs

  /** `capabilities.get(key)` (or `.get(key, False)`) read as a condition:
      a missing flag counts as false. */
  predicate Flag(caps: seq<(string, Json)>, key: string) {
    Truthy(GetOr(caps, key, Bool(false)))
  }

  /** The flags the tool filter and the summary read. */
  datatype Flags = Flags(
    isOperator: bool, isQuery: bool, isPublisher: bool, isMaster: bool,
    hasBlockchain: bool, canWriteBlockchain: bool, canQueryLocal: bool, canQueryNetwork: bool,
    hasRestServer: bool, hasTcpServer: bool)

  /** Each flag read from the capability dict. */
  function FlagsOf(caps: seq<(string, Json)>): Flags {
    Flags(Flag(caps, "is_operator"), Flag(caps, "is_query"), Flag(caps, "is_publisher"), Flag(caps, "is_master"),
          Flag(caps, "has_blockchain"), Flag(caps, "can_write_blockchain"), Flag(caps, "can_query_local"),
          Flag(caps, "can_query_network"), Flag(caps, "has_rest_server"), Flag(caps, "has_tcp_server"))
  }

  /** The MCP tools the filter can enable. */
  datatype Tool =
    | ListDatabases | ListTables | GetSchema | NodeStatus | ServerInfo
    | BlockchainGet | InfoTable | BlockchainPost | QueryLocal | Query
    | OperatorStatus | ClusterInfo | PublisherStatus | QueryStatus

  /** The tool's name as MCP lists it. */
  function ToolName(t: Tool): string {
    match t
    case ListDatabases => "list_databases"
    case ListTables => "list_tables"
    case GetSchema => "get_schema"
    case NodeStatus => "node_status"
    case ServerInfo => "server_info"
    case BlockchainGet => "blockchain_get"
    case InfoTable => "info_table"
    case BlockchainPost => "blockchain_post"
    case QueryLocal => "query_local"
    case Query => "query"
    case OperatorStatus => "operator_status"
    case ClusterInfo => "cluster_info"
    case PublisherStatus => "publisher_status"
    case QueryStatus => "query_status"
  }

  /** The names of a list of tools, in order. */
  function ToolNames(ts: seq<Tool>): (names: seq<string>)
    ensures |names| == |ts| && forall i :: 0 <= i < |ts| ==> names[i] == ToolName(ts[i])
  {
    seq(|ts|, i requires 0 <= i < |ts| => ToolName(ts[i]))
  }

  /** The tools every node enables, in order. */
  const BaseTools: seq<Tool> := [ListDatabases, ListTables, GetSchema, NodeStatus, ServerInfo]

  /** The read-only blockchain tools. */
  function BlockchainTools(f: Flags): seq<Tool> {
    if f.hasBlockchain then [BlockchainGet, InfoTable] else []
  }

  /** The blockchain write tool, for a master that can write. */
  function WriteTools(f: Flags): seq<Tool> {
    if f.isMaster && f.canWriteBlockchain then [BlockchainPost] else []
  }

  /** The local query tool. */
  function LocalQueryTools(f: Flags): seq<Tool> {
    if f.canQueryLocal then [QueryLocal] else []
  }

  /** The network query tool. */
  function NetworkQueryTools(f: Flags): seq<Tool> {
    if f.canQueryNetwork then [Query] else []
  }

  /** The operator tools, `cluster_info` among them. */
  function OperatorTools(f: Flags): seq<Tool> {
    if f.isOperator then [OperatorStatus, ClusterInfo] else []
  }

  /** The publisher tool. */
  function PublisherTools(f: Flags): seq<Tool> {
    if f.isPublisher then [PublisherStatus] else []
  }

  /** The query-node tools; `cluster_info` only when the operator tools did
      not already bring it. */
  function QueryNodeTools(f: Flags): seq<Tool> {
    if !f.isQuery then [] else if f.isOperator then [QueryStatus] else [QueryStatus, ClusterInfo]
  }

  /** The list `filter_tools_by_capability` returns: the common tools, then
      each group whose flags are set, in the order the groups are checked. */
  function ToolsFor(f: Flags): (tools: seq<Tool>)
    ensures |tools| >= |BaseTools|
  {
    BaseTools + BlockchainTools(f) + WriteTools(f) + LocalQueryTools(f) + NetworkQueryTools(f)
    + OperatorTools(f) + PublisherTools(f) + QueryNodeTools(f)
  }

  /** The body of `filter_tools_by_capability`: the list grown group by
      group. */
  method EnabledTools(f: Flags) returns (tools: seq<Tool>)
    ensures tools == ToolsFor(f)
  {
    tools := [];
    tools := tools + BaseTools;
    assert tools == BaseTools;
    var before := tools;
    if f.hasBlockchain {
      tools := tools + [BlockchainGet];
      tools := tools + [InfoTable];
      assert tools == before + [BlockchainGet, InfoTable];
    }
    assert tools == before + BlockchainTools(f);
    before := tools;
    if f.isMaster && f.canWriteBlockchain {
      tools := tools + [BlockchainPost];
    }
    assert tools == before + WriteTools(f);
    before := tools;
    if f.canQueryLocal {
      tools := tools + [QueryLocal];
    }
    assert tools == before + LocalQueryTools(f);
    before := tools;
    if f.canQueryNetwork {
      tools := tools + [Query];
    }
    assert tools == before + NetworkQueryTools(f);
    before := tools;
    if f.isOperator {
      tools := tools + [OperatorStatus, ClusterInfo];
    }
    assert tools == before + OperatorTools(f);
    before := tools;
    if f.isPublisher {
      tools := tools + [PublisherStatus];
    }
    assert tools == before + PublisherTools(f);
    before := tools;
    if f.isQuery {
      tools := tools + [QueryStatus];
      if !f.isOperator {
        tools := tools + [ClusterInfo];
        assert tools == before + [QueryStatus, ClusterInfo];
      }
    }
    assert tools == before + QueryNodeTools(f);
  }

  /** `filter_tools_by_capability`: the names of the enabled tools. */
  method FilterToolsByCapability(caps: seq<(string, Json)>) returns (names: seq<string>)
    ensures names == ToolNames(ToolsFor(FlagsOf(caps)))
  {
    var tools := EnabledTools(FlagsOf(caps));
    names := ToolNames(tools);
  }

  /** Every node's list starts with the five common tools. */
  lemma ToolsStartWithBase(f: Flags)
    ensures ToolsFor(f)[..|BaseTools|] == BaseTools
  {
  }

  /** The blockchain tools are listed exactly when their flags are set. */
  lemma BlockchainToolsByFlag(f: Flags)
    ensures BlockchainGet in ToolsFor(f) <==> f.hasBlockchain
    ensures InfoTable in ToolsFor(f) <==> f.hasBlockchain
    ensures BlockchainPost in ToolsFor(f) <==> f.isMaster && f.canWriteBlockchain
  {
    Members(f);
  }

  /** The query tools are listed exactly when their flags are set; a missing
      flag counts as unset. */
  lemma QueryToolsByFlag(f: Flags)
    ensures QueryLocal in ToolsFor(f) <==> f.canQueryLocal
    ensures Query in ToolsFor(f) <==> f.canQueryNetwork
    ensures QueryStatus in ToolsFor(f) <==> f.isQuery
  {
    Members(f);
  }

  /** The role tools are listed exactly when their roles are set;
      `cluster_info` for an operator or a query node. */
  lemma RoleToolsByFlag(f: Flags)
    ensures OperatorStatus in ToolsFor(f) <==> f.isOperator
    ensures PublisherStatus in ToolsFor(f) <==> f.isPublisher
    ensures ClusterInfo in ToolsFor(f) <==> f.isOperator || f.isQuery
  {
    Members(f);
  }

  /** No element of the sequence occurs twice. */
  predicate Distinct<T(==)>(s: seq<T>) {
    forall i, j :: 0 <= i < j < |s| ==> s[i] != s[j]
  }

  /** Two repeat-free sequences with no common element append to a
      repeat-free sequence. */
  lemma DistinctAppend<T>(a: seq<T>, b: seq<T>)
    requires Distinct(a) && Distinct(b)
    requires forall x :: x in b ==> x !in a
    ensures Distinct(a + b)
  {
    forall i, j | 0 <= i < j < |a + b|
      ensures (a + b)[i] != (a + b)[j]
    {
      if i < |a| && j >= |a| {
        assert (a + b)[j] == b[j - |a|];
        assert (a + b)[i] in a;
      }
    }
  }

  /** The common, blockchain and query tools, before the role tools. */
  function ServiceTools(f: Flags): seq<Tool> {
    BaseTools + BlockchainTools(f) + WriteTools(f) + LocalQueryTools(f) + NetworkQueryTools(f)
  }

  /** No common, blockchain or query tool is listed twice. */
  lemma ServiceToolsDistinct(f: Flags)
    ensures Distinct(ServiceTools(f))
  {
    var p := BaseTools;
    DistinctAppend(p, BlockchainTools(f));
    p := p + BlockchainTools(f);
    DistinctAppend(p, WriteTools(f));
    p := p + WriteTools(f);
    DistinctAppend(p, LocalQueryTools(f));
    p := p + LocalQueryTools(f);
    DistinctAppend(p, NetworkQueryTools(f));
  }

  /** The tools a node gets for its roles. */
  predicate RoleTool(t: Tool) {
    t.OperatorStatus? || t.ClusterInfo? || t.PublisherStatus? || t.QueryStatus?
  }

  /** The common, blockchain and query tools are not role tools. */
  lemma ServiceToolsNotRoles(f: Flags)
    ensures forall t :: t in ServiceTools(f) ==> !RoleTool(t)
  {
  }

  /** The role tools, after the service tools. */
  function RoleTools(f: Flags): seq<Tool> {
    OperatorTools(f) + PublisherTools(f) + QueryNodeTools(f)
  }

  /** No role tool is listed twice. */
  lemma RoleToolsDistinct(f: Flags)
    ensures Distinct(RoleTools(f))
    ensures forall t :: t in RoleTools(f) ==> RoleTool(t)
  {
  }

  /** No tool is listed twice; in particular `cluster_info` is not repeated
      for a node that is both an operator and a query node. */
  lemma ToolsDistinct(f: Flags)
    ensures Distinct(ToolsFor(f))
  {
    ServiceToolsDistinct(f);
    ServiceToolsNotRoles(f);
    RoleToolsDistinct(f);
    DistinctAppend(ServiceTools(f), RoleTools(f));
    ToolsSplit(f);
  }

  /** A tool is listed when some group lists it. */
  lemma Members(f: Flags)
    ensures forall t :: t in ToolsFor(f) <==>
      t in BaseTools || t in BlockchainTools(f) || t in WriteTools(f) || t in LocalQueryTools(f) ||
      t in NetworkQueryTools(f) || t in OperatorTools(f) || t in PublisherTools(f) || t in QueryNodeTools(f)
  {
  }

  /** The list is the service tools followed by the role tools. */
  lemma ToolsSplit(f: Flags)
    ensures ToolsFor(f) == ServiceTools(f) + RoleTools(f)
  {
    var s, o, p, q := ServiceTools(f), OperatorTools(f), PublisherTools(f), QueryNodeTools(f);
    Seqs.AppendAssoc(s + o, p, q);
    Seqs.AppendAssoc(s, o, p + q);
  }

  // ---------------------------------------------------------------------------
  // get_capability_summary
  // ---------------------------------------------------------------------------

  /** The node types the summary names. */
  datatype Role = Operator | QueryNode | Publisher | Master

  function RoleName(r: Role): string {
    match r
    case Operator => "Operator"
    case QueryNode => "Query"
    case Publisher => "Publisher"
    case Master => "Master"
  }

  /** The order roles are reported in. */
  function RoleRank(r: Role): nat {
    match r
    case Operator => 0
    case QueryNode => 1
    case Publisher => 2
    case Master => 3
  }

  /** The node types whose flags are set, in the order Operator, Query,
      Publisher, Master. */
  function Roles(f: Flags): (roles: seq<Role>)
    ensures roles == [] <==> !(f.isOperator || f.isQuery || f.isPublisher || f.isMaster)
  {
    RoleIf(f.isOperator, Operator) + RoleIf(f.isQuery, QueryNode) + RoleIf(f.isPublisher, Publisher) + RoleIf(f.isMaster, Master)
  }

  /** The role when its flag is set. */
  function RoleIf(flag: bool, r: Role): seq<Role> {
    if flag then [r] else []
  }

  /** Each role is reported exactly when its flag is set, and the roles
      come in the order Operator, Query, Publisher, Master. */
  lemma RolesByFlag(f: Flags)
    ensures Operator in Roles(f) <==> f.isOperator
    ensures QueryNode in Roles(f) <==> f.isQuery
    ensures Publisher in Roles(f) <==> f.isPublisher
    ensures Master in Roles(f) <==> f.isMaster
    ensures forall i, j :: 0 <= i < j < |Roles(f)| ==> RoleRank(Roles(f)[i]) < RoleRank(Roles(f)[j])
  {
  }

  function RoleNames(roles: seq<Role>): (names: seq<string>)
    ensures |names| == |roles| && forall i :: 0 <= i < |roles| ==> names[i] == RoleName(roles[i])
  {
    seq(|roles|, i requires 0 <= i < |roles| => RoleName(roles[i]))
  }

  /** The node-type line: "Generic" when no role flag is set. */
  function NodeTypeLine(f: Flags): string {
    var roles := Roles(f);
    if roles != [] then "  Node Type: " + Join(", ", RoleNames(roles)) else "  Node Type: Generic"
  }

  /** `', '.join(databases)`: a list joins its strings, a string its
      characters, a dict its keys; anything else cannot be iterated. */
  function JoinNames(databases: Json): (r: Result<string>)
    ensures databases.Arr? ==> r == JoinText(", ", databases.items)
    ensures databases.Obj? ==> r == Ok(Join(", ", Keys(databases.fields)))
    ensures databases.Null? || databases.Bool? || databases.Num? ==> r == Err("can only join an iterable")
  {
    match databases
    case Arr(items) => JoinText(", ", items)
    case Str(s) => Ok(Join(", ", seq(|s|, i requires 0 <= i < |s| => [s[i]])))
    case Obj(fields) => Ok(Join(", ", Keys(fields)))
    case _ => Err("can only join an iterable")
  }

  /** "Active"/"Inactive" and the like, by flag. */
  function YesNo(flag: bool, yes: string, no: string): string {
    if flag then yes else no
  }

  /** The closing Blockchain line, if any. */
  function BlockchainAccess(f: Flags): (lines: seq<string>)
    ensures f.canWriteBlockchain ==> lines == ["  Blockchain: Read/Write"]
    ensures !f.canWriteBlockchain && f.hasBlockchain ==> lines == ["  Blockchain: Read-Only"]
    ensures !f.canWriteBlockchain && !f.hasBlockchain ==> lines == []
  {
    if f.canWriteBlockchain then ["  Blockchain: Read/Write"]
    else if f.hasBlockchain then ["  Blockchain: Read-Only"]
    else []
  }

  /** The "Local Databases" line, or the error joining the names raises. */
  function DatabasesLine(databases: Json): (r: Result<string>)
    ensures !Truthy(databases) ==> r == Ok("  Local Databases: None")
    ensures Truthy(databases) ==> r.Ok? == JoinNames(databases).Ok?
    ensures Truthy(databases) && r.Ok? ==> r.value == "  Local Databases: " + JoinNames(databases).value
  {
    if Truthy(databases) then
      match JoinNames(databases)
      case Ok(names) => Ok("  Local Databases: " + names)
      case Err(e) => Err(e)
    else Ok("  Local Databases: None")
  }

  /** The title and node-type lines. */
  function HeaderLines(f: Flags): seq<string> {
    ["EdgeLake Node Capabilities:", NodeTypeLine(f)]
  }

  /** The services block. */
  function ServiceLines(f: Flags): seq<string> {
    ["  Services:",
     "    REST Server: " + YesNo(f.hasRestServer, "Active", "Inactive"),
     "    TCP Server: " + YesNo(f.hasTcpServer, "Active", "Inactive"),
     "    Blockchain: " + YesNo(f.hasBlockchain, "Connected", "Not Connected")]
  }

  /** The query-capabilities block. */
  function QueryLines(f: Flags): seq<string> {
    ["  Query Capabilities:",
     "    Local Queries: " + YesNo(f.canQueryLocal, "Yes", "No"),
     "    Network Queries: " + YesNo(f.canQueryNetwork, "Yes", "No")]
  }

  /** The lines of `get_capability_summary`: the title, the node type, three
      services, the databases, two query capabilities and the optional
      Blockchain access line; or the error joining the database names
      raises. */
  function SummaryLines(f: Flags, databases: Json): (r: Result<seq<string>>)
    ensures r.Ok? <==> DatabasesLine(databases).Ok?
    ensures r.Ok? ==> (|r.value| == 10 + |BlockchainAccess(f)| && r.value[0] == "EdgeLake Node Capabilities:" &&
                       r.value[1] == NodeTypeLine(f) && r.value[6] == DatabasesLine(databases).value &&
                       r.value[10..] == BlockchainAccess(f))
  {
    match DatabasesLine(databases)
    case Err(e) => Err(e)
    case Ok(dbLine) => Ok(HeaderLines(f) + ServiceLines(f) + [dbLine] + QueryLines(f) + BlockchainAccess(f))
  }

  /** Appending three lines one at a time appends the block of three. */
  lemma Append3(s: seq<string>, a: string, b: string, c: string)
    ensures s + [a] + [b] + [c] == s + [a, b, c]
  {
  }

  /** Appending four lines one at a time appends the block of four. */
  lemma Append4(s: seq<string>, a: string, b: string, c: string, d: string)
    ensures s + [a] + [b] + [c] + [d] == s + [a, b, c, d]
  {
  }

  /** The `node_types` list `get_capability_summary` builds. */
  method NodeTypes(f: Flags) returns (roles: seq<Role>)
    ensures roles == Roles(f)
  {
    roles := [];
    if f.isOperator { roles := roles + [Operator]; }
    assert roles == RoleIf(f.isOperator, Operator);
    var before := roles;
    if f.isQuery { roles := roles + [QueryNode]; }
    assert roles == before + RoleIf(f.isQuery, QueryNode);
    before := roles;
    if f.isPublisher { roles := roles + [Publisher]; }
    assert roles == before + RoleIf(f.isPublisher, Publisher);
    before := roles;
    if f.isMaster { roles := roles + [Master]; }
    assert roles == before + RoleIf(f.isMaster, Master);
  }

  /** `get_capability_summary`: the summary lines joined by newlines. */
  method GetCapabilitySummary(caps: seq<(string, Json)>) returns (r: Result<string>)
    ensures var lines := SummaryLines(FlagsOf(caps), GetOr(caps, "local_databases", Arr([])));
      r == if lines.Ok? then Ok(Join("\n", lines.value)) else Err(lines.error)
  {
    var f := FlagsOf(caps);
    var databases := GetOr(caps, "local_databases", Arr([]));
    var lines := ["EdgeLake Node Capabilities:"];
    var roles := NodeTypes(f);
    if roles != [] {
      lines := lines + ["  Node Type: " + Join(", ", RoleNames(roles))];
    } else {
      lines := lines + ["  Node Type: Generic"];
    }
    assert lines == HeaderLines(f);
    var head := lines;
    lines := lines + ["  Services:"];
    lines := lines + ["    REST Server: " + YesNo(f.hasRestServer, "Active", "Inactive")];
    lines := lines + ["    TCP Server: " + YesNo(f.hasTcpServer, "Active", "Inactive")];
    lines := lines + ["    Blockchain: " + YesNo(f.hasBlockchain, "Connected", "Not Connected")];
    Append4(head, "  Services:", "    REST Server: " + YesNo(f.hasRestServer, "Active", "Inactive"),
      "    TCP Server: " + YesNo(f.hasTcpServer, "Active", "Inactive"),
      "    Blockchain: " + YesNo(f.hasBlockchain, "Connected", "Not Connected"));
    assert lines == head + ServiceLines(f);
    if Truthy(databases) {
      var names := JoinNames(databases);
      if names.Err? {
        return Err(names.error);
      }
      lines := lines + ["  Local Databases: " + names.value];
    } else {
      lines := lines + ["  Local Databases: None"];
    }
    assert lines == head + ServiceLines(f) + [DatabasesLine(databases).value];
    head := lines;
    lines := lines + ["  Query Capabilities:"];
    lines := lines + ["    Local Queries: " + YesNo(f.canQueryLocal, "Yes", "No")];
    lines := lines + ["    Network Queries: " + YesNo(f.canQueryNetwork, "Yes", "No")];
    Append3(head, "  Query Capabilities:", "    Local Queries: " + YesNo(f.canQueryLocal, "Yes", "No"),
      "    Network Queries: " + YesNo(f.canQueryNetwork, "Yes", "No"));
    assert lines == head + QueryLines(f);
    head := lines;
    if f.canWriteBlockchain {
      lines := lines + ["  Blockchain: Read/Write"];
    } else if f.hasBlockchain {
      lines := lines + ["  Blockchain: Read-Only"];
    }
    assert lines == head + BlockchainAccess(f);
    r := Ok(Join("\n", lines));
  }
}

=== FILE: command_builder.dfy ===
/** `CommandBuilder`: turns a tool's `edgelake_command` configuration and the
    caller's arguments into an EdgeLake command line, and builds SQL text from
    structured query arguments.

    Arguments are a Python dict, kept as its ordered list of fields. */
module CommandBuilder {
  import opened Wrappers
  import opened Strings
  import opened Json
  import Seqs

  // ---------------------------------------------------------------------------
  // Placeholders: `re.findall(r'\{(\w+)\}', template)`
  // ---------------------------------------------------------------------------

  /** A character `\w` matches (ASCII). */
  predicate IsWordChar(c: char) {
    'a' <= c <= 'z' || 'A' <= c <= 'Z' || '0' <= c <= '9' || c == '_'
  }

  predicate IsWord(w: string) {
    |w| > 0 && forall i :: 0 <= i < |w| ==> IsWordChar(w[i])
  }

  function Placeholder(key: string): string {
    "{" + key + "}"
  }

  /** The end of the longest run of word characters starting at `j`. */
  function WordEnd(t: string, j: nat): (k: nat)
    requires j <= |t|
    ensures j <= k <= |t|
    ensures forall i :: j <= i < k ==> IsWordChar(t[i])
    ensures k < |t| ==> !IsWordChar(t[k])
    decreases |t| - j
  {
    if j < |t| && IsWordChar(t[j]) then WordEnd(t, j + 1) else j
  }

  /** Where the `}` of a placeholder starting at `i` is, if one starts there. */
  function PlaceholderAt(t: string, i: nat): (r: Option<nat>)
    ensures r.Some? ==> i < r.value < |t| && t[i] == '{' && t[r.value] == '}' && IsWord(t[i + 1..r.value])
  {
    if i < |t| && t[i] == '{' then
      var k := WordEnd(t, i + 1);
      if k > i + 1 && k < |t| && t[k] == '}' then Some(k) else None
    else None
  }

  /** The regex scan from position `i`: a match is consumed whole, otherwise
      the scan moves one character on. */
  function KeysFrom(t: string, i: nat): (keys: seq<string>)
    decreases |t| - i
  {
    if i >= |t| then []
    else match PlaceholderAt(t, i)
      case Some(k) => [t[i + 1..k]] + KeysFrom(t, k + 1)
      case None => KeysFrom(t, i + 1)
  }

  /** `_extract_template_keys`. */
  function TemplateKeys(template: string): seq<string> {
    KeysFrom(template, 0)
  }

  lemma PlaceholderText(t: string, i: nat, k: nat)
    requires PlaceholderAt(t, i) == Some(k)
    ensures OccursAt(t, Placeholder(t[i + 1..k]), i)
  {
    assert t[i..k + 1] == Placeholder(t[i + 1..k]);
  }

  /** Every extracted key is a word whose placeholder occurs in the template. */
  lemma {:induction false} KeysSound(t: string, i: nat)
    ensures forall j :: 0 <= j < |KeysFrom(t, i)| ==>
      IsWord(KeysFrom(t, i)[j]) && Contains(t, Placeholder(KeysFrom(t, i)[j]))
    decreases |t| - i
  {
    if i < |t| {
      match PlaceholderAt(t, i)
      case Some(k) =>
        KeysSound(t, k + 1);
        PlaceholderText(t, i, k);
      case None =>
        KeysSound(t, i + 1);
    }
  }

  /** A placeholder `{w}` at `p` is recognised there, with `w` as its key. */
  lemma PlaceholderFound(t: string, w: string, p: nat)
    requires IsWord(w) && OccursAt(t, Placeholder(w), p)
    ensures PlaceholderAt(t, p) == Some(p + 1 + |w|) && t[p + 1..p + 1 + |w|] == w
  {
    var ph := Placeholder(w);
    assert t[p..p + |ph|] == ph;
    assert t[p] == ph[0] == '{';
    assert forall m :: 0 <= m < |w| ==> t[p + 1 + m] == ph[1 + m] == w[m];
    assert t[p + 1 + |w|] == ph[|w| + 1] == '}';
    WordEndOfRun(t, p + 1, p + 1 + |w|);
    assert t[p + 1..p + 1 + |w|] == w;
  }

  /** The scan from `i` meets every placeholder recognised at or after `i`. */
  lemma {:induction false} KeysReach(t: string, i: nat, p: nat, q: nat)
    requires i <= p && PlaceholderAt(t, p) == Some(q)
    ensures t[p + 1..q] in KeysFrom(t, i)
    decreases |t| - i
  {
    var found := PlaceholderAt(t, i);
    if found.Some? {
      KeysFromMatch(t, i, found.value);
      if p != i {
        NoOverlap(t, i, found.value, p);
        KeysReach(t, found.value + 1, p, q);
      }
    } else {
      KeysFromSkip(t, i);
      KeysReach(t, i + 1, p, q);
    }
  }

  /** Every placeholder `{w}` that occurs at or after `i` is found, however
      the placeholders around it are laid out. */
  lemma KeysComplete(t: string, i: nat, w: string, p: nat)
    requires IsWord(w) && i <= p && OccursAt(t, Placeholder(w), p)
    ensures w in KeysFrom(t, i)
  {
    PlaceholderFound(t, w, p);
    KeysReach(t, i, p, p + 1 + |w|);
  }

  /** A placeholder at `i` yields its key, then the scan goes on after it. */
  lemma KeysFromMatch(t: string, i: nat, k: nat)
    requires PlaceholderAt(t, i) == Some(k)
    ensures KeysFrom(t, i) == [t[i + 1..k]] + KeysFrom(t, k + 1)
  {
  }

  /** Without a placeholder at `i` the scan moves one character on. */
  lemma KeysFromSkip(t: string, i: nat)
    requires i < |t| && PlaceholderAt(t, i).None?
    ensures KeysFrom(t, i) == KeysFrom(t, i + 1)
  {
  }

  /** Placeholders do not overlap: a `{` after the one at `i` lies past its `}`. */
  lemma NoOverlap(t: string, i: nat, k: nat, p: nat)
    requires PlaceholderAt(t, i) == Some(k) && i < p < |t| && t[p] == '{'
    ensures k < p
  {
  }

  lemma {:induction false} WordEndOfRun(t: string, j: nat, e: nat)
    requires j <= e < |t| && !IsWordChar(t[e])
    requires forall m :: j <= m < e ==> IsWordChar(t[m])
    ensures WordEnd(t, j) == e
    decreases e - j
  {
    if j < e {
      WordEndOfRun(t, j + 1, e);
    }
  }

  /** `_is_required_key`. */
  predicate IsRequiredKey(key: string, template: string) {
    Contains(template, Placeholder(key))
  }

  /** Every extracted key is required, so the optional-key escape never applies. */
  lemma ExtractedKeysRequired(template: string)
    ensures forall j :: 0 <= j < |TemplateKeys(template)| ==> IsRequiredKey(TemplateKeys(template)[j], template)
  {
    KeysSound(template, 0);
  }

  // ---------------------------------------------------------------------------
  // Choosing the template
  // ---------------------------------------------------------------------------

  /** `key in arguments and arguments[key]`. */
  predicate TruthyArgument(args: seq<(string, Json)>, key: string) {
    Lookup(args, key).Some? && Truthy(Lookup(args, key).value)
  }

  /** The condition of a `with_...` entry: the argument named by its key with
      every `with_` removed is truthy, and every placeholder of its template
      is present (or not required). */
  predicate Qualifies(entry: (string, string), args: seq<(string, Json)>) {
    var keys := TemplateKeys(entry.1);
    entry.0 != "full" &&
    TruthyArgument(args, Replace(entry.0, "with_", "")) &&
    forall j :: 0 <= j < |keys| ==> keys[j] in Keys(args) || !IsRequiredKey(keys[j], entry.1)
  }

  /** The first qualifying entry, in mapping order. */
  function FirstQualifying(entries: seq<(string, string)>, args: seq<(string, Json)>): (r: Option<string>)
    ensures r.None? <==> forall j :: 0 <= j < |entries| ==> !Qualifies(entries[j], args)
    ensures r.Some? ==> exists j :: (0 <= j < |entries| && Qualifies(entries[j], args) && r.value == entries[j].1 &&
      forall i :: 0 <= i < j ==> !Qualifies(entries[i], args))
  {
    if entries == [] then None
    else if Qualifies(entries[0], args) then Some(entries[0].1)
    else
      var r := FirstQualifying(entries[1..], args);
      assert forall j :: 1 <= j < |entries| ==> entries[j] == entries[1..][j - 1];
      if r.Some? then
        var j :| 0 <= j < |entries[1..]| && Qualifies(entries[1..][j], args) && r.value == entries[1..][j].1 &&
          forall i :: 0 <= i < j ==> !Qualifies(entries[1..][i], args);
        assert forall i :: 0 <= i < j + 1 ==> !Qualifies(entries[i], args) by {
          forall i | 0 <= i < j + 1 ensures !Qualifies(entries[i], args) {
            if i > 0 { assert entries[i] == entries[1..][i - 1]; }
          }
        }
        r
      else r
  }

  /** Every placeholder of `template` names a truthy argument. */
  predicate FullyCovered(template: string, args: seq<(string, Json)>) {
    var keys := TemplateKeys(template);
    forall j :: 0 <= j < |keys| ==> TruthyArgument(args, keys[j])
  }

  /** `_select_template`: the default without conditional templates; `full`
      when all its placeholders have truthy arguments; else the first
      qualifying `with_` entry; else the default. */
  function SelectTemplate(default: string, conditional: seq<(string, string)>, args: seq<(string, Json)>): (r: string)
    ensures conditional == [] ==> r == default
    ensures conditional != [] && Lookup2(conditional, "full").Some? && FullyCovered(Lookup2(conditional, "full").value, args) ==>
      r == Lookup2(conditional, "full").value
    ensures conditional != [] && !(Lookup2(conditional, "full").Some? && FullyCovered(Lookup2(conditional, "full").value, args)) ==>
      r == match FirstQualifying(conditional, args) case Some(t) => t case None => default
  {
    if conditional == [] then default
    else
      var full := Lookup2(conditional, "full");
      if full.Some? && FullyCovered(full.value, args) then full.value
      else match FirstQualifying(conditional, args)
        case Some(t) => t
        case None => default
  }

  /** `d[key]` on a dict of strings: the first entry under `key`. */
  function Lookup2(entries: seq<(string, string)>, key: string): (r: Option<string>)
    ensures r.Some? ==> (key, r.value) in entries
    ensures r.None? ==> forall j :: 0 <= j < |entries| ==> entries[j].0 != key
  {
    if entries == [] then None
    else if entries[0].0 == key then Some(entries[0].1)
    else Lookup2(entries[1..], key)
  }

  // ---------------------------------------------------------------------------
  // Filling the template
  // ---------------------------------------------------------------------------

  /** `_fill_template`, as the fold over the arguments in order. */
  function Fill(template: string, args: seq<(string, Json)>): string
    decreases |args|
  {
    if args == [] then template
    else
      var command := Fill(template, args[..|args| - 1]);
      var (key, value) := args[|args| - 1];
      if Contains(command, Placeholder(key)) then Replace(command, Placeholder(key), Show(value)) else command
  }

  /** The fold without the `placeholder in command` test. */
  function FillAll(template: string, args: seq<(string, Json)>): string
    decreases |args|
  {
    if args == [] then template
    else
      var (key, value) := args[|args| - 1];
      Replace(FillAll(template, args[..|args| - 1]), Placeholder(key), Show(value))
  }

  /** The containment test is only a shortcut: each argument's placeholder is
      replaced everywhere it occurs, and an argument whose placeholder does
      not occur changes nothing. */
  lemma {:induction false} FillIsReplaceAll(template: string, args: seq<(string, Json)>)
    ensures Fill(template, args) == FillAll(template, args)
    decreases |args|
  {
    if args != [] {
      FillIsReplaceAll(template, args[..|args| - 1]);
      var command := Fill(template, args[..|args| - 1]);
      var key := args[|args| - 1].0;
      if !Contains(command, Placeholder(key)) {
        ReplaceAbsent(command, Placeholder(key), Show(args[|args| - 1].1));
      }
    }
  }

  /** One argument's step: the text between its placeholders is kept and
      `str(value)` goes in place of each of them. */
  lemma FillOne(template: string, key: string, value: Json)
    ensures Fill(template, [(key, value)]) == Join(Show(value), SplitOn(template, Placeholder(key)))
  {
    FillIsReplaceAll(template, [(key, value)]);
    assert [(key, value)][..0] == [];
    ReplaceIsJoinOfPieces(template, Placeholder(key), Show(value));
  }

  /** The loop of `_fill_template`. */
  method FillTemplate(template: string, args: seq<(string, Json)>) returns (command: string)
    ensures command == Fill(template, args)
  {
    command := template;
    for i := 0 to |args|
      invariant command == Fill(template, args[..i])
    {
      var (key, value) := args[i];
      var placeholder := Placeholder(key);
      if Contains(command, placeholder) {
        command := Replace(command, placeholder, Show(value));
      }
      assert args[..i + 1][..i] == args[..i];
    }
    assert args[..|args|] == args;
  }

  // ---------------------------------------------------------------------------
  // `build_command`
  // ---------------------------------------------------------------------------

  /** An `edgelake_command` mapping as `build_command` reads it, with the
      defaults `get` supplies for missing keys. `conditionalError` is what
      `_select_template` raises on the `conditional_template` value. */
  datatype CommandConfig = CommandConfig(
    kind: Option<string>,
    methodName: string,
    template: string,
    conditional: seq<(string, string)>,
    conditionalError: Option<string>,
    headers: Option<Json>)

  /** The entries of a `conditional_template` mapping whose template is a string. */
  function TextEntries(fields: seq<(string, Json)>): (r: seq<(string, string)>)
    ensures forall e :: e in r ==> (e.0, Str(e.1)) in fields
    ensures forall k, t :: (k, Str(t)) in fields ==> (k, t) in r
  {
    if fields == [] then []
    else
      var rest := TextEntries(fields[1..]);
      assert forall e :: e in fields <==> e == fields[0] || e in fields[1..] by {
        assert fields == [fields[0]] + fields[1..];
      }
      if fields[0].1.Str? then [(fields[0].0, fields[0].1.s)] + rest else rest
  }

  /** What `_select_template` raises on a `conditional_template` value that
      is truthy but not a mapping: `'full' in v` cannot search a number or a
      bool; a string or list holding "full" cannot be indexed by it; any other
      string or list has no `items`. A falsy value or a mapping raises
      nothing. */
  function ConditionalError(c: Json): (e: Option<string>)
    ensures e.None? <==> !Truthy(c) || c.Obj?
    ensures Truthy(c) && (c.Num? || c.Bool?) ==> e == Some(NotIterable(c))
    ensures c.Str? && !Contains(c.s, "full") && c.s != [] ==> e == Some("'str' object has no attribute 'items'")
    ensures c.Arr? && Str("full") !in c.items && c.items != [] ==> e == Some("'list' object has no attribute 'items'")
  {
    match c
    case Null => None
    case Obj(_) => None
    case Bool(b) => if b then Some(NotIterable(c)) else None
    case Num(n) => if n != 0 then Some(NotIterable(c)) else None
    case Str(s) =>
      if s == [] then None
      else if Contains(s, "full") then Some("string indices must be integers, not 'str'")
      else Some("'str' object has no attribute 'items'")
    case Arr(xs) =>
      if xs == [] then None
      else if Str("full") in xs then Some("list indices must be integers or slices, not str")
      else Some("'list' object has no attribute 'items'")
  }

  /** `edgelake_cmd.get('type')`, `get('method', '')`, `get('template', '')`,
      `get('conditional_template', {})` and `get('headers')`. */
  function ReadCommand(cmd: seq<(string, Json)>): (c: CommandConfig)
    ensures c.kind == Some("internal") <==> Lookup(cmd, "type") == Some(Str("internal"))
    ensures Lookup(cmd, "method").None? ==> c.methodName == ""
    ensures Lookup(cmd, "template").None? ==> c.template == ""
    ensures Lookup(cmd, "conditional_template").None? ==> c.conditional == [] && c.conditionalError.None?
    ensures c.conditionalError == ConditionalError(GetOr(cmd, "conditional_template", Obj([])))
    ensures c.headers == Get(cmd, "headers")
  {
    var kind := GetOr(cmd, "type", Null);
    var template := GetOr(cmd, "template", Str(""));
    var conditional := GetOr(cmd, "conditional_template", Obj([]));
    CommandConfig(
      if kind.Str? then Some(kind.s) else None,
      Show(GetOr(cmd, "method", Str(""))),
      if template.Str? then template.s else "",
      if conditional.Obj? then TextEntries(conditional.fields) else [],
      ConditionalError(conditional),
      Get(cmd, "headers"))
  }

  /** The two branches of `build_command`: an internal command names the
      server-side method and has no headers (`_build_internal_command`); any
      other fills the selected template and passes the headers on, unless
      selecting the template raises. */
  function BuildFrom(config: CommandConfig, args: seq<(string, Json)>): (r: Result<(string, Option<Json>)>)
    ensures config.kind == Some("internal") ==> r == Ok(("internal:" + config.methodName, None))
    ensures config.kind != Some("internal") ==> (r.Err? <==> config.conditionalError.Some?)
    ensures config.kind != Some("internal") && r.Err? ==> r.error == config.conditionalError.value
    ensures config.kind != Some("internal") && r.Ok? ==> r.value.1 == config.headers
    ensures config.kind != Some("internal") && config.conditional == [] && r.Ok? ==> r.value.0 == Fill(config.template, args)
  {
    if config.kind == Some("internal") then Ok(("internal:" + config.methodName, None))
    else if config.conditionalError.Some? then Err(config.conditionalError.value)
    else Ok((Fill(SelectTemplate(config.template, config.conditional, args), args), config.headers))
  }

  /** `build_command(tool_config, arguments)`: reads the `edgelake_command`
      entry of the tool's configuration (an empty mapping when missing); a
      value that is not a mapping has no `get`, and a non-internal command
      fails when its `conditional_template` cannot be searched. */
  function BuildCommand(toolConfig: seq<(string, Json)>, args: seq<(string, Json)>): (r: Result<(string, Option<Json>)>)
    ensures var cmd := GetOr(toolConfig, "edgelake_command", Obj([]));
      r.Err? <==> (!cmd.Obj? ||
        (GetOr(cmd.fields, "type", Null) != Str("internal") &&
         ConditionalError(GetOr(cmd.fields, "conditional_template", Obj([]))).Some?))
    ensures var cmd := GetOr(toolConfig, "edgelake_command", Obj([]));
      !cmd.Obj? ==> r == Err("'" + TypeName(cmd) + "' object has no attribute 'get'")
    ensures var cmd := GetOr(toolConfig, "edgelake_command", Obj([]));
      (cmd.Obj? && r.Err?) ==> Some(r.error) == ConditionalError(GetOr(cmd.fields, "conditional_template", Obj([])))
    ensures Lookup(toolConfig, "edgelake_command").None? ==> r == Ok(("", None))
  {
    var cmd := GetOr(toolConfig, "edgelake_command", Obj([]));
    if cmd.Obj? then
      EmptyCommand(args);
      BuildFrom(ReadCommand(cmd.fields), args)
    else Err("'" + TypeName(cmd) + "' object has no attribute 'get'")
  }

  /** A command whose `conditional_template` is a list without "full" fails
      on `items`, whatever its template. */
  lemma ListConditionalFails(template: string, entry: string, args: seq<(string, Json)>)
    requires entry != "full"
    ensures BuildCommand([("edgelake_command", Obj([("template", Str(template)), ("conditional_template", Arr([Str(entry)]))]))], args)
      == Err("'list' object has no attribute 'items'")
  {
    var cmd := [("template", Str(template)), ("conditional_template", Arr([Str(entry)]))];
    var c := Arr([Str(entry)]);
    assert Str("full") !in c.items;
    assert ConditionalError(c) == Some("'list' object has no attribute 'items'");
    assert cmd[1..] == [("conditional_template", c)];
    assert cmd[1..][1..] == [];
    assert Lookup(cmd, "type").None?;
    assert GetOr(cmd, "conditional_template", Obj([])) == c;
  }

  /** An empty `edgelake_command` mapping builds the empty command. */
  lemma EmptyCommand(args: seq<(string, Json)>)
    ensures BuildFrom(ReadCommand([]), args) == Ok(("", None))
  {
    assert ReadCommand([]) == CommandConfig(None, "", "", [], None, None);
    FillWithoutPlaceholders("", args);
  }

  /** A template in which no argument has a placeholder comes out unchanged. */
  lemma {:induction false} FillWithoutPlaceholders(template: string, args: seq<(string, Json)>)
    requires forall i :: 0 <= i < |args| ==> !Contains(template, Placeholder(args[i].0))
    ensures Fill(template, args) == template
    decreases |args|
  {
    if args != [] {
      var n := |args| - 1;
      assert forall i :: 0 <= i < n ==> args[..n][i] == args[i];
      FillWithoutPlaceholders(template, args[..n]);
    }
  }

  // ---------------------------------------------------------------------------
  // `build_sql_query`
  // ---------------------------------------------------------------------------

  /** One ORDER BY item: a dict gives its `column` and its `direction`
      (default "ASC", kept as written); anything else its `str`. */
  function OrderItem(item: Json): (text: string)
    ensures item.Obj? && Lookup(item.fields, "direction").None? ==>
      text == Show(GetOr(item.fields, "column", Null)) + " ASC"
    ensures item.Obj? && Lookup(item.fields, "direction") == Some(Str("desc")) ==>
      text == Show(GetOr(item.fields, "column", Null)) + " desc"
    ensures !item.Obj? ==> text == Show(item)
  {
    if item.Obj? then
      Show(GetOr(item.fields, "column", Null)) + " " + Show(GetOr(item.fields, "direction", Str("ASC")))
    else Show(item)
  }

  /** `', '.join(...)` of a list argument, `str` of anything else. */
  function ListText(v: Json): Result<string> {
    if v.Arr? then JoinText(", ", v.items) else Ok(Show(v))
  }

  /** The ORDER BY text of a truthy `order_by`. */
  function OrderText(orderBy: Json): string {
    if orderBy.Arr? then Join(", ", seq(|orderBy.items|, i requires 0 <= i < |orderBy.items| => OrderItem(orderBy.items[i])))
    else Show(orderBy)
  }

  function WhereClause(where: Json): string {
    if Truthy(where) then " WHERE " + Show(where) else ""
  }

  function GroupClause(groupBy: Json): Result<string> {
    if !Truthy(groupBy) then Ok("")
    else match ListText(groupBy)
      case Ok(g) => Ok(" GROUP BY " + g)
      case Err(e) => Err(e)
  }

  function OrderClause(orderBy: Json): string {
    if Truthy(orderBy) then " ORDER BY " + OrderText(orderBy) else ""
  }

  function LimitClause(limit: Json): string {
    if Truthy(limit) then " LIMIT " + Show(limit) else ""
  }

  /** `build_sql_query`: SELECT and FROM, then WHERE, GROUP BY, ORDER BY and
      LIMIT in that order, each only for a truthy argument. Joining a list
      that holds a non-string raises. */
  function SqlQuery(args: seq<(string, Json)>): Result<string> {
    match ListText(GetOr(args, "select", Arr([Str("*")])))
    case Err(e) => Err(e)
    case Ok(select) =>
      match GroupClause(GetOr(args, "group_by", Arr([])))
      case Err(e) => Err(e)
      case Ok(g) =>
        Ok("SELECT " + select + " FROM " + Show(GetOr(args, "table", Null)) +
          WhereClause(GetOr(args, "where", Null)) + g +
          OrderClause(GetOr(args, "order_by", Arr([]))) +
          LimitClause(GetOr(args, "limit", Null)))
  }

  /** The `order_parts` loop. */
  method OrderParts(items: seq<Json>) returns (parts: seq<string>)
    ensures |parts| == |items|
    ensures forall i :: 0 <= i < |items| ==> parts[i] == OrderItem(items[i])
  {
    parts := [];
    for i := 0 to |items|
      invariant Seqs.Mapped(items[..i], OrderItem, parts)
    {
      Seqs.MappedNext(items, OrderItem, parts, i);
      parts := parts + [OrderItem(items[i])];
    }
    assert items[..|items|] == items;
  }

  /** The ORDER BY step of `build_sql_query`. */
  method OrderBy(orderBy: Json) returns (clause: string)
    ensures clause == OrderClause(orderBy)
  {
    clause := "";
    if Truthy(orderBy) {
      var text := Show(orderBy);
      if orderBy.Arr? {
        var parts := OrderParts(orderBy.items);
        assert parts == seq(|orderBy.items|, i requires 0 <= i < |orderBy.items| => OrderItem(orderBy.items[i]));
        text := Join(", ", parts);
      }
      clause := " ORDER BY " + text;
    }
  }

  /** `build_sql_query`, growing the query clause by clause. */
  method BuildSqlQuery(args: seq<(string, Json)>) returns (r: Result<string>)
    ensures r == SqlQuery(args)
  {
    var select := ListText(GetOr(args, "select", Arr([Str("*")])));
    if select.Err? {
      return Err(select.error);
    }
    var table := Show(GetOr(args, "table", Null));
    var where := GetOr(args, "where", Null);
    var groupBy := GetOr(args, "group_by", Arr([]));
    var limit := GetOr(args, "limit", Null);
    var query := "SELECT " + select.value + " FROM " + table;
    if Truthy(where) {
      var clause := " WHERE " + Show(where);
      query := query + clause;
    }
    assert query == "SELECT " + select.value + " FROM " + table + WhereClause(where);
    var grouped := GroupClause(groupBy);
    if Truthy(groupBy) {
      var g := ListText(groupBy);
      if g.Err? {
        return Err(g.error);
      }
      var clause := " GROUP BY " + g.value;
      query := query + clause;
    }
    assert grouped.Ok? && query == "SELECT " + select.value + " FROM " + table + WhereClause(where) + grouped.value;
    var order := OrderBy(GetOr(args, "order_by", Arr([])));
    query := query + order;
    if Truthy(limit) {
      var clause := " LIMIT " + Show(limit);
      query := query + clause;
    }
    assert query == "SELECT " + select.value + " FROM " + table + WhereClause(where) + grouped.value +
      order + LimitClause(limit);
    return Ok(query);
  }
}

=== FILE: config.dfy ===
/** `Config`: the node list, the tool list and the client settings, with the
    environment overrides applied once after loading. Environment variables
    are passed in as an `Env` value; the YAML files arrive already decoded. */
module Config {
  import opened Wrappers
  import opened Strings
  import opened Json

  /** A `NodeConfig`. */
  datatype Node = Node(name: string, description: string, host: string, port: int, isDefault: bool)

  /** A `ToolConfig`: the four fields every tool entry carries. */
  datatype ToolConfig = ToolConfig(name: string, description: Json, edgelakeCommand: Json, inputSchema: Json)

  /** The environment variables the configuration reads; `None` when unset. */
  datatype Env = Env(
    defaultNode: Option<string>,
    host: Option<string>,
    port: Option<string>,
    timeout: Option<string>,
    maxWorkers: Option<string>)

  /** The node used when there is no nodes file, and when the node list is empty. */
  const LocalNode := Node("local", "Local EdgeLake node", "127.0.0.1", 32049, true)

  /** `if value:` for an environment variable. */
  predicate IsSet(value: Option<string>) {
    value.Some? && value.value != ""
  }

  // ---------------------------------------------------------------------------
  // Lookups
  // ---------------------------------------------------------------------------

  /** The position of the first default node. */
  function FirstDefault(nodes: seq<Node>): (r: Option<nat>)
    ensures r.Some? ==> (r.value < |nodes| && nodes[r.value].isDefault &&
      forall j :: 0 <= j < r.value ==> !nodes[j].isDefault)
    ensures r.None? <==> forall j :: 0 <= j < |nodes| ==> !nodes[j].isDefault
  {
    if nodes == [] then None
    else if nodes[0].isDefault then Some(0)
    else match FirstDefault(nodes[1..])
      case Some(i) => Some(i + 1)
      case None => None
  }

  /** `get_default_node`: the first default node, else the first node, else a
      fresh local node. */
  function DefaultNode(nodes: seq<Node>): (n: Node)
    ensures (exists j :: 0 <= j < |nodes| && nodes[j].isDefault) ==>
      n.isDefault && exists j :: 0 <= j < |nodes| && nodes[j] == n && forall k :: 0 <= k < j ==> !nodes[k].isDefault
    ensures (forall j :: 0 <= j < |nodes| ==> !nodes[j].isDefault) && nodes != [] ==> n == nodes[0]
    ensures nodes == [] ==> n == LocalNode
  {
    match FirstDefault(nodes)
    case Some(i) => nodes[i]
    case None => if nodes != [] then nodes[0] else LocalNode
  }

  /** The position of the first element called `name`, or -1: the lookup
      `get_node_by_name` and `get_tool_by_name` both make. */
  function FirstNamed<T>(xs: seq<T>, nameOf: T -> string, name: string): (i: int)
    ensures -1 <= i < |xs|
    ensures i >= 0 ==> nameOf(xs[i]) == name && forall k :: 0 <= k < i ==> nameOf(xs[k]) != name
    ensures i == -1 <==> forall k :: 0 <= k < |xs| ==> nameOf(xs[k]) != name
  {
    if xs == [] then -1
    else if nameOf(xs[0]) == name then 0
    else
      var i := FirstNamed(xs[1..], nameOf, name);
      if i == -1 then -1 else i + 1
  }

  /** `get_node_by_name`: the first node with that name. */
  function NodeByName(nodes: seq<Node>, name: string): (r: Option<Node>)
    ensures r.Some? ==> (r.value.name == name &&
      exists j :: 0 <= j < |nodes| && nodes[j] == r.value && forall k :: 0 <= k < j ==> nodes[k].name != name)
    ensures r.None? <==> forall j :: 0 <= j < |nodes| ==> nodes[j].name != name
  {
    var i := FirstNamed(nodes, (n: Node) => n.name, name);
    if i < 0 then None else Some(nodes[i])
  }

  /** `get_tool_by_name`: the first tool with that name. */
  function ToolByName(tools: seq<ToolConfig>, name: string): (r: Option<ToolConfig>)
    ensures r.Some? ==> (r.value.name == name &&
      exists j :: 0 <= j < |tools| && tools[j] == r.value && forall k :: 0 <= k < j ==> tools[k].name != name)
    ensures r.None? <==> forall j :: 0 <= j < |tools| ==> tools[j].name != name
  {
    var i := FirstNamed(tools, (t: ToolConfig) => t.name, name);
    if i < 0 then None else Some(tools[i])
  }

  /** `get_request_timeout` and `get_max_workers`: a set environment value
      converted with `int`, else the client setting, else the default. */
  function Setting(envValue: Option<string>, clientConfig: seq<(string, Json)>, key: string, default: int): (r: Result<Json>)
    ensures IsSet(envValue) ==> (r.Ok? <==> PyInt(envValue.value).Some?)
    ensures IsSet(envValue) && r.Ok? ==> r.value == Num(PyInt(envValue.value).value)
    ensures !IsSet(envValue) && Lookup(clientConfig, key).None? ==> r == Ok(Num(default))
    ensures !IsSet(envValue) && Lookup(clientConfig, key).Some? ==> r == Ok(Lookup(clientConfig, key).value)
  {
    if IsSet(envValue) then
      match ToInt(envValue.value)
      case Ok(n) => Ok(Num(n))
      case Err(e) => Err(e)
    else Ok(GetOr(clientConfig, key, Num(default)))
  }

  const DefaultRequestTimeout := 20
  const DefaultMaxWorkers := 10

  // ---------------------------------------------------------------------------
  // Environment overrides
  // ---------------------------------------------------------------------------

  /** Every node's `is_default` becomes whether its name is `name`. */
  function WithDefault(nodes: seq<Node>, name: string): (r: seq<Node>)
    ensures |r| == |nodes|
    ensures forall i :: 0 <= i < |nodes| ==> r[i] == nodes[i].(isDefault := nodes[i].name == name)
  {
    seq(|nodes|, i requires 0 <= i < |nodes| => nodes[i].(isDefault := nodes[i].name == name))
  }

  /** After the default-node override, the default node is the first node of
      that name, when there is one. */
  lemma DefaultAfterOverride(nodes: seq<Node>, name: string, j: nat)
    requires j < |nodes| && nodes[j].name == name && forall k :: 0 <= k < j ==> nodes[k].name != name
    ensures DefaultNode(WithDefault(nodes, name)) == nodes[j].(isDefault := true)
  {
    assert WithDefault(nodes, name)[j].isDefault;
  }

  /** The result of `_apply_env_overrides`: the new node list, and the error
      that an unconvertible port raises (the host is already replaced by
      then). */
  datatype Overridden = Overridden(nodes: seq<Node>, error: Option<string>)

  /** The host and port overrides applied to one node. */
  function OverrideNode(node: Node, host: Option<string>, port: Option<string>): (r: Overridden)
    ensures |r.nodes| == 1 && r.nodes[0].name == node.name && r.nodes[0].isDefault == node.isDefault
    ensures r.nodes[0].host == if IsSet(host) then host.value else node.host
    ensures r.error.None? <==> !IsSet(port) || PyInt(port.value).Some?
    ensures r.nodes[0].port == if IsSet(port) && PyInt(port.value).Some? then PyInt(port.value).value else node.port
  {
    var withHost := if IsSet(host) then node.(host := host.value) else node;
    if IsSet(port) then
      match ToInt(port.value)
      case Ok(p) => Overridden([withHost.(port := p)], None)
      case Err(e) => Overridden([withHost], Some(e))
    else Overridden([withHost], None)
  }

  /** The node list after the default-node override alone. */
  function DefaultApplied(nodes: seq<Node>, env: Env): (ns: seq<Node>)
    ensures |ns| == |nodes|
    ensures forall i :: 0 <= i < |nodes| ==> ns[i].name == nodes[i].name && ns[i].host == nodes[i].host && ns[i].port == nodes[i].port
    ensures IsSet(env.defaultNode) ==> forall i :: 0 <= i < |nodes| ==> ns[i].isDefault == (nodes[i].name == env.defaultNode.value)
    ensures !IsSet(env.defaultNode) ==> ns == nodes
  {
    if IsSet(env.defaultNode) then WithDefault(nodes, env.defaultNode.value) else nodes
  }

  /** `_apply_env_overrides`: the default-node override first, then the host
      and port overrides on the first default node only; every other node
      keeps what the default-node override left. */
  function EnvOverrides(nodes: seq<Node>, env: Env): (r: Overridden)
    ensures |r.nodes| == |nodes|
    ensures forall i :: 0 <= i < |nodes| ==> (r.nodes[i].name == nodes[i].name &&
      r.nodes[i].isDefault == DefaultApplied(nodes, env)[i].isDefault)
    ensures forall i :: 0 <= i < |nodes| && Some(i) != FirstDefault(DefaultApplied(nodes, env)) ==>
      r.nodes[i] == DefaultApplied(nodes, env)[i]
  {
    var ns := DefaultApplied(nodes, env);
    if !(IsSet(env.host) || IsSet(env.port)) then Overridden(ns, None)
    else match FirstDefault(ns)
      case None => Overridden(ns, None)
      case Some(i) =>
        var o := OverrideNode(ns[i], env.host, env.port);
        Overridden(ns[i := o.nodes[0]], o.error)
  }

  // ---------------------------------------------------------------------------
  // The configuration object
  // ---------------------------------------------------------------------------

  /** The nodes `_load_nodes_config` yields: the file's nodes, or the local
      node alone when there is no nodes file. */
  function LoadedNodes(nodesFile: Option<seq<Node>>): (r: seq<Node>)
    ensures nodesFile.None? ==> r == [LocalNode]
  {
    if nodesFile.Some? then nodesFile.value else [LocalNode]
  }

  class Config {
    var nodes: seq<Node>
    var tools: seq<ToolConfig>
    var clientConfig: seq<(string, Json)>

    /** Loading without the environment overrides: `nodesFile` is the node
        list of `nodes.yaml` (`None` when the file is missing) and
        `clientSection` its `client` mapping. */
    constructor (nodesFile: Option<seq<Node>>, clientSection: seq<(string, Json)>, tools: seq<ToolConfig>)
      ensures this.nodes == LoadedNodes(nodesFile)
      ensures this.clientConfig == if nodesFile.Some? then clientSection else []
      ensures this.tools == tools
    {
      this.nodes := LoadedNodes(nodesFile);
      this.clientConfig := if nodesFile.Some? then clientSection else [];
      this.tools := tools;
    }

    /** `Config(...)`: load, then apply the environment overrides; a port
        override that is not a number makes construction fail. */
    static method Create(nodesFile: Option<seq<Node>>, clientSection: seq<(string, Json)>, tools: seq<ToolConfig>, env: Env)
      returns (c: Result<Config>)
      ensures var o := EnvOverrides(LoadedNodes(nodesFile), env);
        (c.Ok? <==> o.error.None?) && (c.Err? ==> c.error == o.error.value)
      ensures c.Ok? ==> (fresh(c.value) && c.value.nodes == EnvOverrides(LoadedNodes(nodesFile), env).nodes &&
        c.value.tools == tools)
    {
      var config := new Config(nodesFile, clientSection, tools);
      var error := config.ApplyEnvOverrides(env);
      if error.Some? {
        return Err(error.value);
      }
      return Ok(config);
    }

    /** `_apply_env_overrides`, loop by loop. */
    method ApplyEnvOverrides(env: Env) returns (error: Option<string>)
      modifies this
      ensures nodes == EnvOverrides(old(nodes), env).nodes
      ensures error == EnvOverrides(old(nodes), env).error
      ensures tools == old(tools) && clientConfig == old(clientConfig)
    {
      if IsSet(env.defaultNode) {
        var name := env.defaultNode.value;
        for i := 0 to |nodes|
          invariant |nodes| == |old(nodes)|
          invariant forall k :: 0 <= k < i ==> nodes[k] == old(nodes)[k].(isDefault := old(nodes)[k].name == name)
          invariant forall k :: i <= k < |nodes| ==> nodes[k] == old(nodes)[k]
          invariant tools == old(tools) && clientConfig == old(clientConfig)
        {
          nodes := nodes[i := nodes[i].(isDefault := nodes[i].name == name)];
        }
        assert nodes == DefaultApplied(old(nodes), env);
      }
      error := None;
      if IsSet(env.host) || IsSet(env.port) {
        var i := 0;
        while i < |nodes|
          invariant i <= |nodes|
          invariant forall k :: 0 <= k < i ==> !nodes[k].isDefault
        {
          if nodes[i].isDefault {
            var o := OverrideNode(nodes[i], env.host, env.port);
            nodes := nodes[i := o.nodes[0]];
            error := o.error;
            break;
          }
          i := i + 1;
        }
      }
    }

    /** `get_default_node`: the first default node, else the first node, else
        the local node. */
    function DefaultNodeOf(): (n: Node)
      reads this
      ensures (exists j :: 0 <= j < |nodes| && nodes[j].isDefault) ==>
        n.isDefault && exists j :: 0 <= j < |nodes| && nodes[j] == n && forall k :: 0 <= k < j ==> !nodes[k].isDefault
      ensures (forall j :: 0 <= j < |nodes| ==> !nodes[j].isDefault) && nodes != [] ==> n == nodes[0]
      ensures nodes == [] ==> n == LocalNode
    {
      DefaultNode(nodes)
    }

    function RequestTimeout(env: Env): (r: Result<Json>)
      reads this
      ensures !IsSet(env.timeout) && Lookup(clientConfig, "request_timeout").None? ==> r == Ok(Num(DefaultRequestTimeout))
    {
      Setting(env.timeout, clientConfig, "request_timeout", DefaultRequestTimeout)
    }

    function MaxWorkers(env: Env): (r: Result<Json>)
      reads this
      ensures !IsSet(env.maxWorkers) && Lookup(clientConfig, "max_workers").None? ==> r == Ok(Num(DefaultMaxWorkers))
    {
      Setting(env.maxWorkers, clientConfig, "max_workers", DefaultMaxWorkers)
    }
  }

  /** Without a nodes file, the one node there is is the default node. */
  lemma MissingNodesFile(env: Env)
    requires !IsSet(env.defaultNode) && !IsSet(env.host) && !IsSet(env.port)
    ensures EnvOverrides(LoadedNodes(None), env) == Overridden([LocalNode], None)
    ensures DefaultNode(LoadedNodes(None)) == LocalNode
  {
  }
}

=== FILE: direct_client.dfy ===
/** `EdgeLakeDirectClient`: runs an EdgeLake command in-process and turns what
    the command left behind (a NUL-terminated byte buffer and the text it
    printed) into one result value.

    The engine call itself, the UTF-8 decoder, `json.loads` and `json.dumps`
    are parameters: the buffer and the captured stdout are inputs, and so is
    the way the worker thread finished. */
module DirectClient {
  import opened Wrappers
  import opened Strings
  import opened Json

  newtype byte = x: int | 0 <= x < 256

  // ---------------------------------------------------------------------------
  // The byte buffer
  // ---------------------------------------------------------------------------

  /** `io_buff.find(b'\x00')`. */
  function FirstNul(buf: seq<byte>): (r: int)
    ensures -1 <= r < |buf|
    ensures r == -1 <==> 0 !in buf
    ensures r >= 0 ==> buf[r] == 0 && 0 !in buf[..r]
  {
    if buf == [] then -1
    else if buf[0] == 0 then 0
    else
      var r := FirstNul(buf[1..]);
      assert buf == [buf[0]] + buf[1..];
      if r == -1 then -1
      else
        assert buf[..r + 1] == [buf[0]] + buf[1..][..r];
        r + 1
  }

  /** `int(io_buff_size)` with the 32768-byte default for an unset parameter;
      `None` when `int` or `bytearray` raises. */
  function BufferSize(param: string): (r: Option<nat>)
    ensures param == "" ==> r == Some(32768)
    ensures param != "" ==> (r.Some? <==> PyInt(param).Some? && PyInt(param).value >= 0)
    ensures param != "" && r.Some? ==> r.value == PyInt(param).value
  {
    if param == "" then Some(32768)
    else match PyInt(param)
      case None => None
      case Some(n) => if n < 0 then None else Some(n)
  }

  /** The buffer half of `_extract_result`: the bytes before the first NUL,
      as JSON when they parse and as text otherwise. Nothing comes from a
      buffer without a NUL, with the NUL at 0, or whose bytes do not decode. */
  function FromBuffer(buf: seq<byte>, decode: seq<byte> -> Option<string>, parse: string -> Option<Json>): (r: Option<Json>)
    ensures r.Some? ==> FirstNul(buf) > 0
    ensures r.Some? ==> var text := decode(buf[..FirstNul(buf)]);
      text.Some? && text.value != [] &&
      r.value == (if parse(text.value).Some? then parse(text.value).value else Str(text.value))
    ensures FirstNul(buf) > 0 && decode(buf[..FirstNul(buf)]).Some? && decode(buf[..FirstNul(buf)]).value != [] ==> r.Some?
  {
    var n := FirstNul(buf);
    if n <= 0 then None
    else match decode(buf[..n])
      case None => None
      case Some(text) =>
        if text == [] then None
        else match parse(text)
          case Some(j) => Some(j)
          case None => Some(Str(text))
  }

  /** A buffer the command never wrote to (`bytearray(n)` is all zeros)
      contributes nothing, whatever its size. */
  lemma UntouchedBufferIgnored(n: nat, decode: seq<byte> -> Option<string>, parse: string -> Option<Json>)
    ensures FromBuffer(seq(n, _ => 0 as byte), decode, parse).None?
  {
    var buf := seq(n, _ => 0 as byte);
    if n > 0 {
      assert buf[0] == 0;
    }
  }

  // ---------------------------------------------------------------------------
  // Where the JSON in stdout starts
  // ---------------------------------------------------------------------------

  /** The result patterns, tried in this order. */
  const Markers: seq<string> := ["{\"Query\"", "{\"Statistics\"", "{\"result\"", "{\"data\""]

  function MarkerFrom(t: string, k: nat): (r: int)
    requires k <= |Markers|
    ensures r == -1 <==> forall j :: k <= j < |Markers| ==> !Contains(t, Markers[j])
    ensures r >= 0 ==> exists j :: (k <= j < |Markers| && r == IndexOf(t, Markers[j]) &&
      forall i :: k <= i < j ==> !Contains(t, Markers[i]))
    decreases |Markers| - k
  {
    if k == |Markers| then -1
    else if IndexOf(t, Markers[k]) >= 0 then IndexOf(t, Markers[k])
    else MarkerFrom(t, k + 1)
  }

  /** The position of the first pattern, in list order, that occurs anywhere
      in `t`; -1 when none does. An earlier pattern wins even when a later
      one occurs further to the left. */
  function MarkerStart(t: string): (r: int)
    ensures r == -1 <==> forall j :: 0 <= j < |Markers| ==> !Contains(t, Markers[j])
    ensures r >= 0 ==> exists j :: (0 <= j < |Markers| && r == IndexOf(t, Markers[j]) &&
      forall i :: 0 <= i < j ==> !Contains(t, Markers[i]))
  {
    MarkerFrom(t, 0)
  }

  /** The first index of `c` in `t`, or -1. */
  function FirstIndex(t: string, c: char): (r: int)
    ensures -1 <= r < |t|
    ensures r == -1 <==> c !in t
    ensures r >= 0 ==> t[r] == c && c !in t[..r]
  {
    if t == [] then -1
    else if t[0] == c then 0
    else
      var r := FirstIndex(t[1..], c);
      assert t == [t[0]] + t[1..];
      if r == -1 then -1
      else
        assert t[..r + 1] == [t[0]] + t[1..][..r];
        r + 1
  }

  lemma MarkerStartsWithBrace(t: string, j: nat)
    requires j < |Markers| && Contains(t, Markers[j])
    ensures 0 <= IndexOf(t, Markers[j]) < |t| && t[IndexOf(t, Markers[j])] == '{'
  {
    var p := IndexOf(t, Markers[j]);
    assert t[p..p + |Markers[j]|][0] == Markers[j][0];
  }

  /** `json_start`: a pattern position if any pattern occurs; otherwise the
      first `[` (then the first `{`) for a command mentioning "blockchain",
      and the first `{` (then the first `[`) for any other command. */
  function JsonStart(t: string, command: string): (r: int)
    ensures -1 <= r < |t|
    ensures r >= 0 ==> t[r] == '{' || t[r] == '['
    ensures r == -1 <==> '{' !in t && '[' !in t
    ensures MarkerStart(t) >= 0 ==> r == MarkerStart(t)
    ensures MarkerStart(t) < 0 && Contains(Lower(command), "blockchain") ==>
      r == if '[' in t then FirstIndex(t, '[') else FirstIndex(t, '{')
    ensures MarkerStart(t) < 0 && !Contains(Lower(command), "blockchain") ==>
      r == if '{' in t then FirstIndex(t, '{') else FirstIndex(t, '[')
  {
    var m := MarkerStart(t);
    if m >= 0 then
      var j :| 0 <= j < |Markers| && m == IndexOf(t, Markers[j]) && forall i :: 0 <= i < j ==> !Contains(t, Markers[i]);
      MarkerStartsWithBrace(t, j);
      m
    else if Contains(Lower(command), "blockchain") then
      if FirstIndex(t, '[') >= 0 then FirstIndex(t, '[') else FirstIndex(t, '{')
    else
      if FirstIndex(t, '{') >= 0 then FirstIndex(t, '{') else FirstIndex(t, '[')
  }

  // ---------------------------------------------------------------------------
  // Matching the bracket
  // ---------------------------------------------------------------------------

  function Delta(c: char, open: char, close: char): int {
    if c == open then 1 else if c == close then -1 else 0
  }

  function Closer(open: char): char {
    if open == '{' then '}' else ']'
  }

  /** The count after reading `t[start..j]`: openers of the kind at `start`
      minus its closers; the other kind and quotes count for nothing. */
  function Depth(t: string, start: nat, j: nat): int
    requires start < |t| && start <= j <= |t|
    decreases j
  {
    if j == start then 0 else Depth(t, start, j - 1) + Delta(t[j - 1], t[start], Closer(t[start]))
  }

  /** Every span from `start` that ends before `j` leaves a bracket open. */
  predicate Open(t: string, start: nat, j: nat)
    requires start < |t| && j <= |t| + 1
    decreases j
  {
    j <= start + 1 || (Open(t, start, j - 1) && Depth(t, start, j - 1) > 0)
  }

  /** `Open` spelled out: every shorter span's count is positive. */
  lemma {:induction false} OpenMeans(t: string, start: nat, j: nat)
    requires start < |t| && j <= |t| + 1 && Open(t, start, j)
    ensures forall k :: start < k < j ==> Depth(t, start, k) > 0
    decreases j
  {
    if j > start + 1 {
      OpenMeans(t, start, j - 1);
    }
  }

  /** A span from `start` that does not close yet leaves the next span open
      as well. */
  lemma OpenStep(t: string, start: nat, j: nat)
    requires start < j <= |t| && (t[start] == '{' || t[start] == '[') && Open(t, start, j)
    requires Depth(t, start, j) != 0
    ensures Open(t, start, j + 1)
  {
  }

  function FirstBalanced(t: string, start: nat, j: nat): (r: int)
    requires start < |t| && start < j <= |t| + 1 && (t[start] == '{' || t[start] == '[')
    requires Open(t, start, j)
    ensures r == -1 || j <= r <= |t|
    ensures r == -1 ==> Open(t, start, |t| + 1)
    ensures r >= 0 ==> Depth(t, start, r) == 0 && Open(t, start, r)
    decreases |t| + 1 - j
  {
    if j > |t| then -1
    else if Depth(t, start, j) == 0 then j
    else
      OpenStep(t, start, j);
      FirstBalanced(t, start, j + 1)
  }

  /** `json_end`: one past the first position where the count of the
      starting bracket kind drops back to 0, or -1 when it never does. Every
      shorter span from `start` has a positive count. */
  function SpanEnd(t: string, start: nat): (r: int)
    requires start < |t| && (t[start] == '{' || t[start] == '[')
    ensures r == -1 ==> forall k :: start < k <= |t| ==> Depth(t, start, k) > 0
    ensures r >= 0 ==> (start < r <= |t| && Depth(t, start, r) == 0 &&
      forall k :: start < k < r ==> Depth(t, start, k) > 0)
  {
    var r := FirstBalanced(t, start, start + 1);
    OpenMeans(t, start, if r == -1 then |t| + 1 else r);
    r
  }

  // ---------------------------------------------------------------------------
  // The whole of `_extract_result`
  // ---------------------------------------------------------------------------

  /** The stdout half, on stripped, non-blank text: the whole text if it
      parses, else the bracketed span found from `JsonStart` if it parses,
      else the text itself. */
  function FromStdout(t: string, command: string, parse: string -> Option<Json>): (r: Json)
    ensures parse(t).Some? ==> r == parse(t).value
    ensures parse(t).None? && JsonStart(t, command) < 0 ==> r == Str(t)
    ensures parse(t).None? && JsonStart(t, command) >= 0 ==>
      var start := JsonStart(t, command);
      var end := SpanEnd(t, start);
      r == if end > start && parse(t[start..end]).Some? then parse(t[start..end]).value else Str(t)
  {
    match parse(t)
    case Some(j) => j
    case None =>
      var start := JsonStart(t, command);
      if start < 0 then Str(t)
      else
        var end := SpanEnd(t, start);
        if end > start then
          match parse(t[start..end])
          case Some(j) => j
          case None => Str(t)
        else Str(t)
  }

  /** `_extract_result`: the buffer first; the stripped stdout only when the
      buffer gave nothing; the empty string when both are empty. */
  function Extract(buf: seq<byte>, command: string, stdout: string, decode: seq<byte> -> Option<string>, parse: string -> Option<Json>): (r: Json)
    ensures FromBuffer(buf, decode, parse).Some? ==> r == FromBuffer(buf, decode, parse).value
    ensures FromBuffer(buf, decode, parse).None? && Blank(stdout) ==> r == Str("")
    ensures FromBuffer(buf, decode, parse).None? && !Blank(stdout) ==> r == FromStdout(Strip(stdout), command, parse)
  {
    match FromBuffer(buf, decode, parse)
    case Some(j) => j
    case None =>
      var t := Strip(stdout);
      if t == [] then Str("") else FromStdout(t, command, parse)
  }

  /** The pattern loop: `start` is where the first pattern in list order occurs. */
  method FindMarker(t: string) returns (start: int)
    ensures start == MarkerStart(t)
  {
    start := -1;
    var k := 0;
    while k < |Markers|
      invariant 0 <= k <= |Markers|
      invariant MarkerStart(t) == MarkerFrom(t, k)
    {
      var pos := IndexOf(t, Markers[k]);
      if pos >= 0 {
        start := pos;
        return;
      }
      k := k + 1;
    }
  }

  /** `for i, char in enumerate(t): if char == c: ...; break`. */
  method Scan(t: string, c: char) returns (i: int)
    ensures i == FirstIndex(t, c)
  {
    var k := 0;
    while k < |t|
      invariant 0 <= k <= |t| && c !in t[..k]
    {
      if t[k] == c {
        return k;
      }
      assert t[..k + 1] == t[..k] + [t[k]];
      k := k + 1;
    }
    assert t[..k] == t;
    return -1;
  }

  /** The bracket-counting loop from `start`. */
  method MatchSpan(t: string, start: nat) returns (end: int)
    requires start < |t| && (t[start] == '{' || t[start] == '[')
    ensures end == SpanEnd(t, start)
  {
    var open := t[start];
    var close := Closer(open);
    var count := 0;
    var i := start;
    while i < |t|
      invariant start <= i <= |t|
      invariant count == Depth(t, start, i)
      invariant Open(t, start, i + 1)
      invariant SpanEnd(t, start) == FirstBalanced(t, start, i + 1)
    {
      if Depth(t, start, i + 1) != 0 {
        OpenStep(t, start, i + 1);
      }
      if t[i] == open {
        count := count + 1;
      } else if t[i] == close {
        count := count - 1;
        if count == 0 {
          return i + 1;
        }
      }
      i := i + 1;
    }
    return -1;
  }

  /** `_extract_result`, step by step as the source scans. */
  method ExtractResult(buf: seq<byte>, command: string, stdout: string, decode: seq<byte> -> Option<string>, parse: string -> Option<Json>)
    returns (r: Json)
    ensures r == Extract(buf, command, stdout, decode, parse)
  {
    var nul := FirstNul(buf);
    if nul > 0 {
      var text := decode(buf[..nul]);
      if text.Some? && text.value != [] {
        var parsed := parse(text.value);
        if parsed.Some? {
          return parsed.value;
        }
        return Str(text.value);
      }
    }
    var t := Strip(stdout);
    if t == [] {
      return Str("");
    }
    r := ExtractFromStdout(t, command, parse);
  }

  /** The choice of `json_start` once the patterns are tried. */
  method FindStart(t: string, command: string) returns (start: int)
    ensures start == JsonStart(t, command)
  {
    start := FindMarker(t);
    if start < 0 {
      if Contains(Lower(command), "blockchain") {
        start := Scan(t, '[');
        if start < 0 {
          start := Scan(t, '{');
        }
      } else {
        start := Scan(t, '{');
        if start < 0 {
          start := Scan(t, '[');
        }
      }
    }
  }

  /** The stdout half of `_extract_result` on the stripped, non-blank text. */
  method ExtractFromStdout(t: string, command: string, parse: string -> Option<Json>) returns (r: Json)
    ensures r == FromStdout(t, command, parse)
  {
    var whole := parse(t);
    if whole.Some? {
      return whole.value;
    }
    var start := FindStart(t, command);
    if start >= 0 {
      var end := MatchSpan(t, start);
      if end > start {
        var span := parse(t[start..end]);
        if span.Some? {
          return span.value;
        }
      }
    }
    return Str(t);
  }

  // ---------------------------------------------------------------------------
  // Return codes, timeouts and shutdown
  // ---------------------------------------------------------------------------

  /** The branches of `_sync_execute` after the engine returned `retVal`:
      SUCCESS gives the extracted result, 141 (engine not ready) the empty
      string, anything else an error with the saved message or the code.
      `success` is the engine's SUCCESS code, which lives outside this model. */
  function SyncOutcome(retVal: int, success: int, savedError: string, extracted: Json): (r: Result<Json>)
    ensures retVal == success ==> r == Ok(extracted)
    ensures retVal != success && retVal == 141 ==> r == Ok(Str(""))
    ensures retVal != success && retVal != 141 ==> r.Err?
    ensures r.Err? && savedError != "" ==> r.error == savedError
    ensures r.Err? && savedError == "" ==> r.error == "Command failed with code " + IntToString(retVal)
  {
    if retVal == success then Ok(extracted)
    else if retVal == 141 then Ok(Str(""))
    else Err(if savedError != "" then savedError else "Command failed with code " + IntToString(retVal))
  }

  /** What `member_cmd.process_cmd` did with the zero-filled buffer it was
      handed: it returned a code, leaving a saved error, the buffer's new
      bytes and the text it printed; or it raised, with a flag telling a
      `RuntimeError` from any other exception. */
  datatype Answer =
    | Returned(retVal: int, savedError: string, buffer: seq<byte>, stdout: string)
    | Raised(message: string, runtimeError: bool)

  /** The engine as `_sync_execute` sees it: the `io_buff_size` parameter
      (empty when unset), its SUCCESS code, `process_cmd` for the command at
      hand, the UTF-8 decoder and `json.loads`. */
  datatype Engine = Engine(ioBuffSize: string, success: int, process: seq<byte> -> Answer,
                           decode: seq<byte> -> Option<string>, parse: string -> Option<Json>)

  /** The message of the `ValueError` a bad `io_buff_size` raises: from `int`
      when the text is not an integer, from `bytearray` when it is negative. */
  function SizeError(param: string): string {
    match ToInt(param)
    case Err(e) => e
    case Ok(_) => "negative count"
  }

  /** The `TypeError` of `'destination' in headers`: only a truthy value
      `in` cannot search (a number or a bool) raises; a mapping, a list, a
      string or a falsy value (None included) does not. */
  function HeadersError(headers: Option<Json>): (e: Option<string>)
    ensures e.Some? <==> headers.Some? && Truthy(headers.value) && (headers.value.Num? || headers.value.Bool?)
    ensures e.Some? ==> e.value == NotIterable(headers.value)
  {
    match headers
    case Some(h) => if Truthy(h) && (h.Num? || h.Bool?) then Some(NotIterable(h)) else None
    case None => None
  }

  /** `_sync_execute`: a buffer of `BufferSize` zero bytes is made, the
      headers are searched for a destination, and the buffer goes to the
      engine; what it returns is settled by `SyncOutcome` over `Extract`, and
      what it raises is re-raised. */
  function SyncExecute(command: string, headers: Option<Json>, engine: Engine): (r: Result<Json>)
    ensures BufferSize(engine.ioBuffSize).None? ==> r == Err(SizeError(engine.ioBuffSize))
    ensures BufferSize(engine.ioBuffSize).Some? && HeadersError(headers).Some? ==> r == Err(HeadersError(headers).value)
    ensures BufferSize(engine.ioBuffSize).Some? && HeadersError(headers).None? ==>
      match engine.process(seq(BufferSize(engine.ioBuffSize).value, _ => 0 as byte))
      case Raised(message, _) => r == Err(message)
      case Returned(retVal, savedError, buffer, stdout) =>
        r == SyncOutcome(retVal, engine.success, savedError, Extract(buffer, command, stdout, engine.decode, engine.parse))
  {
    match BufferSize(engine.ioBuffSize)
    case None => Err(SizeError(engine.ioBuffSize))
    case Some(n) =>
      if HeadersError(headers).Some? then Err(HeadersError(headers).value)
      else match engine.process(seq(n, _ => 0 as byte))
      case Raised(message, _) => Err(message)
      case Returned(retVal, savedError, buffer, stdout) =>
        SyncOutcome(retVal, engine.success, savedError, Extract(buffer, command, stdout, engine.decode, engine.parse))
  }

  /** Code 141 (engine not ready) gives the empty string whatever the buffer
      and stdout hold, unless 141 is the SUCCESS code itself. */
  lemma NotReadyIsEmpty(command: string, headers: Option<Json>, engine: Engine, n: nat, savedError: string, buffer: seq<byte>, stdout: string)
    requires BufferSize(engine.ioBuffSize) == Some(n) && engine.success != 141
    requires engine.process(seq(n, _ => 0 as byte)) == Returned(141, savedError, buffer, stdout)
    requires HeadersError(headers).None?
    ensures SyncExecute(command, headers, engine) == Ok(Str(""))
  {
  }

  /** A failing code is an error, and never an empty result. */
  lemma FailureIsError(command: string, headers: Option<Json>, engine: Engine, n: nat, retVal: int, savedError: string, buffer: seq<byte>, stdout: string)
    requires BufferSize(engine.ioBuffSize) == Some(n) && retVal != engine.success && retVal != 141
    requires engine.process(seq(n, _ => 0 as byte)) == Returned(retVal, savedError, buffer, stdout)
    requires HeadersError(headers).None?
    ensures SyncExecute(command, headers, engine).Err?
    ensures SyncExecute(command, headers, engine).error ==
      if savedError != "" then savedError else "Command failed with code " + IntToString(retVal)
  {
  }

  /** The `RuntimeError` `_sync_execute` lets out of the worker, if any (the
      headers' `TypeError` is not one). */
  function RaisedRuntimeError(headers: Option<Json>, engine: Engine): (r: Option<string>)
    ensures r.Some? ==> SyncExecute("", headers, engine) == Err(r.value)
    ensures HeadersError(headers).Some? ==> r.None?
  {
    match BufferSize(engine.ioBuffSize)
    case None => None
    case Some(n) =>
      if HeadersError(headers).Some? then None
      else match engine.process(seq(n, _ => 0 as byte))
      case Raised(message, true) => Some(message)
      case _ => None
  }

  /** A number given as headers stops `_sync_execute` with the `TypeError`
      before the engine runs, whatever the engine would have done. */
  lemma NumberHeadersRaise(command: string, n: int, engine: Engine)
    requires n != 0 && BufferSize(engine.ioBuffSize).Some?
    ensures SyncExecute(command, Some(Num(n)), engine) == Err("argument of type 'int' is not iterable")
  {
    NumberNotIterable(n);
    assert SyncExecute(command, Some(Num(n)), engine) == Err(NotIterable(Num(n)));
  }

  /** `execute_command` lets the headers' `TypeError` through: it is not caught
      as a `RuntimeError`. */
  lemma NumberHeadersFail(command: string, n: int, seconds: nat, engine: Engine)
    requires n != 0 && BufferSize(engine.ioBuffSize).Some?
    ensures Complete(command, Some(Num(n)), seconds, engine, Finished) == Err("argument of type 'int' is not iterable")
  {
    NumberHeadersRaise(command, n, engine);
    assert RaisedRuntimeError(Some(Num(n)), engine).None?;
  }

  /** How the worker running `_sync_execute` ended, seen from
      `execute_command`: it finished (with whatever `SyncExecute` gives), the
      timeout passed first, or the thread pool refused it with a
      `RuntimeError`. */
  datatype Run = Finished | TimedOut | PoolFailure(message: string)

  /** The `except RuntimeError` handler of `execute_command`, which sees both
      the pool's errors and those re-raised from inside `_sync_execute`: a
      message mentioning shutdown gives the empty string, any other is
      raised again. */
  function OnRuntimeError(message: string): (r: Result<Json>)
    ensures r == Ok(Str("")) <==> Contains(Lower(message), "shutdown")
    ensures r != Ok(Str("")) ==> r == Err(message)
  {
    ContainsLonger(Lower(message), "interpreter shutdown", "shutdown");
    if Contains(Lower(message), "shutdown") || Contains(Lower(message), "interpreter shutdown") then Ok(Str(""))
    else Err(message)
  }

  /** `str(timeout)` for a whole number of seconds held in a float. */
  function SecondsText(seconds: nat): string {
    IntToString(seconds) + ".0"
  }

  function TimeoutMessage(command: string, seconds: nat): (m: string)
    ensures Contains(m, command)
  {
    var prefix := "Command execution timed out after " + SecondsText(seconds) + " seconds: ";
    var m := prefix + command;
    assert m[|prefix|..|prefix| + |command|] == command;
    assert OccursAt(m, command, |prefix|);
    m
  }

  /** `execute_command` on a client that is not shutting down. */
  function Complete(command: string, headers: Option<Json>, seconds: nat, engine: Engine, run: Run): (r: Result<Json>)
    ensures run.Finished? && RaisedRuntimeError(headers, engine).None? ==> r == SyncExecute(command, headers, engine)
    ensures run.Finished? && RaisedRuntimeError(headers, engine).Some? ==>
      r == OnRuntimeError(RaisedRuntimeError(headers, engine).value)
    ensures run.TimedOut? ==> r.Err? && Contains(r.error, command)
    ensures run.PoolFailure? ==> r == OnRuntimeError(run.message)
  {
    match run
    case Finished =>
      (match RaisedRuntimeError(headers, engine)
       case Some(message) => OnRuntimeError(message)
       case None => SyncExecute(command, headers, engine))
    case TimedOut => Err(TimeoutMessage(command, seconds))
    case PoolFailure(message) => OnRuntimeError(message)
  }

  /** Any text containing "interpreter shutdown" contains "shutdown". */
  lemma ContainsLonger(s: string, longer: string, shorter: string)
    requires longer == "interpreter shutdown" && shorter == "shutdown"
    ensures Contains(s, longer) ==> Contains(s, shorter)
  {
    if Contains(s, longer) {
      var k :| OccursAt(s, longer, k);
      assert s[k + 12..k + 20] == s[k..k + |longer|][12..20] == shorter;
      assert OccursAt(s, shorter, k + 12);
    }
  }

  /** `{"destination": "network"}`, the headers `execute_query` sends. */
  const QueryHeaders := Obj([("destination", Str("network"))])

  /** `sql {database} format = {output_format} "{query}"`. */
  function QueryCommand(database: string, query: string, outputFormat: string): string {
    "sql " + database + " format = " + outputFormat + " \"" + query + "\""
  }

  /** `execute_query`'s formatting of the command's value: a dict is
      serialised, a string returned as is, anything else serialised inside
      `{"result": ...}`. */
  function FormatQueryResult(result: Json, dumps: Json -> string): (r: string)
    ensures result.Obj? ==> r == dumps(result)
    ensures result.Str? ==> r == result.s
    ensures !result.Obj? && !result.Str? ==> r == dumps(Obj([("result", result)]))
  {
    match result
    case Obj(_) => dumps(result)
    case Str(s) => s
    case _ => dumps(Obj([("result", result)]))
  }

  class Client {
    var shutdown: bool

    constructor ()
      ensures !shutdown
    {
      shutdown := false;
    }

    /** `close`: later commands return the empty string without running. */
    method Close()
      modifies this
      ensures shutdown
    {
      shutdown := true;
    }

    /** `execute_command`: nothing is dispatched once the client is closed. */
    method ExecuteCommand(command: string, headers: Option<Json>, seconds: nat, engine: Engine, run: Run) returns (r: Result<Json>)
      ensures shutdown ==> r == Ok(Str(""))
      ensures !shutdown ==> r == Complete(command, headers, seconds, engine, run)
    {
      if shutdown {
        return Ok(Str(""));
      }
      r := Complete(command, headers, seconds, engine, run);
    }

    /** `execute_query`: the SQL command for `database`, run with the
        network destination header and the default 30-second timeout, then
        formatted. Errors pass through unchanged. */
    method ExecuteQuery(database: string, query: string, outputFormat: string, engine: Engine, run: Run, dumps: Json -> string)
      returns (r: Result<string>)
      ensures shutdown ==> r == Ok("")
      ensures !shutdown ==> match Complete(QueryCommand(database, query, outputFormat), Some(QueryHeaders), 30, engine, run)
        case Ok(v) => r == Ok(FormatQueryResult(v, dumps))
        case Err(e) => r == Err(e)
    {
      var result := ExecuteCommand(QueryCommand(database, query, outputFormat), Some(QueryHeaders), 30, engine, run);
      match result
      case Ok(v) => r := Ok(FormatQueryResult(v, dumps));
      case Err(e) => r := Err(e);
    }
  }
}

=== FILE: format_tests.dfy ===
/** `FormatTests`: the decision logic of the format-change test suite. Each
    test case sends one command to a node and judges the reply: by its
    expected format, and against a baseline collected earlier from a working
    node when one exists.

    The node's replies (the REST call) are a parameter, one per command
    sent, and `json.loads` is the function `parse`. */
module FormatTests {
  import opened Wrappers
  import opened Strings
  import opened Json

  /** One case: a named command, the format its output must have, whether
      it must succeed, and the fields an MCP reply must carry (None or an
      empty list: none). */
  datatype TestCase = TestCase(name: string, command: string, description: string, expectedFormat: string,
                               shouldSucceed: bool, minResponseFields: Option<seq<string>>)

  /** What `execute_command` returns: whether the call succeeded, the output
      (the decoded JSON, or the raw text as a string; None on failure) and
      the error message. */
  datatype Reply = Reply(success: bool, output: Json, error: string)

  /** The record of one run (the elapsed time is not modelled). */
  datatype TestResult = TestResult(testName: string, command: string, passed: bool, actualOutput: Json,
                                   expectedOutput: Json, errorMessage: Option<string>)

  // ---------------------------------------------------------------------------
  // Validators
  // ---------------------------------------------------------------------------

  /** Every one of `names` is a key of the dict `fields`, checked in order
      and stopping at the first missing one. */
  function AllPresent(names: seq<string>, fields: seq<(string, Json)>): (r: bool)
    ensures r <==> forall i :: 0 <= i < |names| ==> names[i] in Keys(fields)
  {
    if names == [] then true
    else if names[0] !in Keys(fields) then false
    else
      var rest := AllPresent(names[1..], fields);
      assert forall i :: 0 < i < |names| ==> names[i] == names[1..][i - 1];
      rest
  }

  /** `_validate_json_format`: a string must parse; any other output is
      already decoded. */
  predicate ValidJson(output: Json, parse: string -> Option<Json>) {
    output.Str? ==> parse(output.s).Some?
  }

  /** The fields the case requires, when `min_response_fields` is truthy. */
  function RequiredFields(tc: TestCase): seq<string> {
    if tc.minResponseFields.Some? then tc.minResponseFields.value else []
  }

  /** The output as `_validate_mcp_format` sees it: a string is decoded (None
      when it does not parse), anything else is taken as is. */
  function Decoded(output: Json, parse: string -> Option<Json>): Option<Json> {
    if output.Str? then parse(output.s) else Some(output)
  }

  /** `_validate_mcp_format`: the output must decode, and when the case
      requires fields it must be a dict holding every one of them. */
  function ValidMcp(output: Json, tc: TestCase, parse: string -> Option<Json>): (r: bool)
    ensures r <==> Decoded(output, parse).Some? &&
                   (RequiredFields(tc) != [] ==>
                      Decoded(output, parse).value.Obj? &&
                      forall i :: 0 <= i < |RequiredFields(tc)| ==> RequiredFields(tc)[i] in Keys(Decoded(output, parse).value.fields))
  {
    match Decoded(output, parse)
    case None => false
    case Some(value) =>
      if RequiredFields(tc) == [] then true
      else if !value.Obj? then false
      else AllPresent(RequiredFields(tc), value.fields)
  }

  /** Output valid for MCP is valid JSON. */
  lemma McpIsJson(output: Json, tc: TestCase, parse: string -> Option<Json>)
    ensures ValidMcp(output, tc, parse) ==> ValidJson(output, parse)
  {
  }

  /** With no required fields the two validators agree. */
  lemma McpWithoutFields(output: Json, tc: TestCase, parse: string -> Option<Json>)
    requires RequiredFields(tc) == []
    ensures ValidMcp(output, tc, parse) <==> ValidJson(output, parse)
  {
  }

  /** `_compare_with_baseline`: the same type, and a dict keeps every
      baseline key, a list is at least as long as the baseline; other
      values of the same type always match. */
  function MatchesBaseline(actual: Json, baseline: Json): (r: bool)
    ensures r ==> TypeName(actual) == TypeName(baseline)
    ensures actual.Obj? && baseline.Obj? ==>
              (r <==> forall i :: 0 <= i < |baseline.fields| ==> baseline.fields[i].0 in Keys(actual.fields))
    ensures actual.Arr? && baseline.Arr? ==> (r <==> |actual.items| >= |baseline.items|)
    ensures TypeName(actual) == TypeName(baseline) && !actual.Obj? && !actual.Arr? ==> r
  {
    if TypeName(actual) != TypeName(baseline) then false
    else if actual.Obj? then
      assert baseline.Obj?;
      AllPresent(Keys(baseline.fields), actual.fields)
    else if actual.Arr? then
      assert baseline.Arr?;
      |actual.items| >= |baseline.items|
    else true
  }

  /** A baseline matches itself. */
  lemma MatchesReflexive(x: Json)
    ensures MatchesBaseline(x, x)
  {
    if x.Obj? {
      assert forall i :: 0 <= i < |x.fields| ==> x.fields[i].0 == Keys(x.fields)[i];
    }
  }

  /** Matching is transitive: an output that matches a node matching the
      baseline matches the baseline. */
  lemma MatchesTransitive(a: Json, b: Json, c: Json)
    requires MatchesBaseline(a, b) && MatchesBaseline(b, c)
    ensures MatchesBaseline(a, c)
  {
    if a.Obj? {
      assert b.Obj? && c.Obj?;
      forall i | 0 <= i < |c.fields|
        ensures c.fields[i].0 in Keys(a.fields)
      {
        var j :| 0 <= j < |b.fields| && Keys(b.fields)[j] == c.fields[i].0;
        assert b.fields[j].0 in Keys(a.fields);
      }
    }
  }

  // ---------------------------------------------------------------------------
  // run_test
  // ---------------------------------------------------------------------------

  const McpMismatch := "Output doesn't match MCP format expectations"
  const NotJson := "Output is not valid JSON"
  const BaselineMismatch := "Output differs from baseline"

  /** The format check of a successful command: `mcp` and `json` cases are
      validated, any other format passes. */
  function FormatVerdict(tc: TestCase, output: Json, parse: string -> Option<Json>): (v: (bool, Option<string>))
    ensures v.0 <==> v.1.None?
    ensures v.0 <==> (tc.expectedFormat == "mcp" ==> ValidMcp(output, tc, parse)) &&
                     (tc.expectedFormat == "json" ==> ValidJson(output, parse))
  {
    if tc.expectedFormat == "mcp" then
      if ValidMcp(output, tc, parse) then (true, None) else (false, Some(McpMismatch))
    else if tc.expectedFormat == "json" then
      if ValidJson(output, parse) then (true, None) else (false, Some(NotJson))
    else (true, None)
  }

  /** Whether the case passed, and the error message of a failure. A failed
      command passes exactly when it was expected to fail; a successful one
      must pass the format check and then, when a baseline exists, match
      it. */
  function Verdict(tc: TestCase, reply: Reply, baselineOutput: Json, parse: string -> Option<Json>): (v: (bool, Option<string>))
    ensures v.0 <==> v.1.None?
    ensures !reply.success ==> (v.0 <==> !tc.shouldSucceed)
    ensures reply.success ==>
              (v.0 <==> FormatVerdict(tc, reply.output, parse).0 &&
                        (baselineOutput != Null ==> MatchesBaseline(reply.output, baselineOutput)))
  {
    if !reply.success then
      if tc.shouldSucceed then (false, Some("Command failed: " + reply.error)) else (true, None)
    else
      var format := FormatVerdict(tc, reply.output, parse);
      if format.0 && baselineOutput != Null && !MatchesBaseline(reply.output, baselineOutput) then
        (false, Some(BaselineMismatch))
      else format
  }

  /** The baseline is consulted only for a successful command that passed
      its format check: in every other case the verdict is the same without
      it. */
  lemma BaselineOnlyAfterFormat(tc: TestCase, reply: Reply, baselineOutput: Json, parse: string -> Option<Json>)
    requires !reply.success || !FormatVerdict(tc, reply.output, parse).0
    ensures Verdict(tc, reply, baselineOutput, parse) == Verdict(tc, reply, Null, parse)
  {
  }

  /** A successful command judged against a baseline of its own output gets
      the format verdict. */
  lemma OwnBaselinePasses(tc: TestCase, reply: Reply, parse: string -> Option<Json>)
    requires reply.success
    ensures Verdict(tc, reply, reply.output, parse) == FormatVerdict(tc, reply.output, parse)
  {
    MatchesReflexive(reply.output);
  }

  /** `self.baseline.get(name)`: None when there is no baseline. */
  function BaselineOf(baseline: map<string, Json>, name: string): Json {
    if name in baseline then baseline[name] else Null
  }

  /** The result `run_test` records. */
  function Judged(tc: TestCase, reply: Reply, baseline: map<string, Json>, parse: string -> Option<Json>): (r: TestResult)
    ensures r.testName == tc.name && r.command == tc.command
    ensures r.actualOutput == reply.output && r.expectedOutput == BaselineOf(baseline, tc.name)
    ensures (r.passed, r.errorMessage) == Verdict(tc, reply, BaselineOf(baseline, tc.name), parse)
  {
    var baselineOutput := BaselineOf(baseline, tc.name);
    var v := Verdict(tc, reply, baselineOutput, parse);
    TestResult(tc.name, tc.command, v.0, reply.output, baselineOutput, v.1)
  }

  /** The results of running `cases` in order, the i-th getting `replies[i]`. */
  function JudgedAll(cases: seq<TestCase>, replies: seq<Reply>, baseline: map<string, Json>,
                     parse: string -> Option<Json>): (rs: seq<TestResult>)
    requires |replies| == |cases|
    ensures |rs| == |cases|
    ensures forall i :: 0 <= i < |cases| ==> rs[i] == Judged(cases[i], replies[i], baseline, parse)
    decreases |cases|
  {
    if cases == [] then []
    else
      var n := |cases| - 1;
      var front := JudgedAll(cases[..n], replies[..n], baseline, parse);
      front + [Judged(cases[n], replies[n], baseline, parse)]
  }

  /** How many results passed. */
  function PassedCount(rs: seq<TestResult>): (n: nat)
    ensures n <= |rs|
    ensures n == |rs| <==> forall k :: 0 <= k < |rs| ==> rs[k].passed
    decreases |rs|
  {
    if rs == [] then 0
    else
      var n := |rs| - 1;
      assert forall k :: 0 <= k < n ==> rs[k] == rs[..n][k];
      PassedCount(rs[..n]) + (if rs[n].passed then 1 else 0)
  }

  // ---------------------------------------------------------------------------
  // The suite
  // ---------------------------------------------------------------------------

  /** The suite: the baselines by case name and the results so far. */
  class Suite {
    var baseline: map<string, Json>
    var results: seq<TestResult>

    /** `baseline or {}`: no baseline and an empty one are the same. */
    constructor (baseline: Option<map<string, Json>>)
      ensures this.baseline == (if baseline.Some? then baseline.value else map[])
      ensures results == []
    {
      this.baseline := if baseline.Some? then baseline.value else map[];
      results := [];
    }

    /** `run_test`: judge the reply to the case's command and record the
        result. */
    method RunTest(tc: TestCase, reply: Reply, parse: string -> Option<Json>) returns (result: TestResult)
      modifies this
      ensures result == Judged(tc, reply, old(baseline), parse)
      ensures results == old(results) + [result] && baseline == old(baseline)
    {
      var baselineOutput := if tc.name in baseline then baseline[tc.name] else Null;
      var passed := true;
      var errorMessage: Option<string> := None;
      if !reply.success {
        if tc.shouldSucceed {
          passed := false;
          errorMessage := Some("Command failed: " + reply.error);
        } else {
          passed := true;
        }
      } else {
        if tc.expectedFormat == "mcp" {
          if !ValidMcp(reply.output, tc, parse) {
            passed := false;
            errorMessage := Some(McpMismatch);
          }
        } else if tc.expectedFormat == "json" {
          if !ValidJson(reply.output, parse) {
            passed := false;
            errorMessage := Some(NotJson);
          }
        }
        if passed && baselineOutput != Null {
          if !MatchesBaseline(reply.output, baselineOutput) {
            passed := false;
            errorMessage := Some(BaselineMismatch);
          }
        }
      }
      result := TestResult(tc.name, tc.command, passed, reply.output, baselineOutput, errorMessage);
      results := results + [result];
    }

    /** `run_all_tests`: run every case, then succeed exactly when no
        recorded result (earlier runs included) failed. */
    method RunAllTests(cases: seq<TestCase>, replies: seq<Reply>, parse: string -> Option<Json>) returns (ok: bool)
      requires |replies| == |cases|
      modifies this
      ensures results == old(results) + JudgedAll(cases, replies, old(baseline), parse) && baseline == old(baseline)
      ensures ok <==> forall k :: 0 <= k < |results| ==> results[k].passed
    {
      ghost var before := results;
      for i := 0 to |cases|
        invariant baseline == old(baseline)
        invariant results == before + JudgedAll(cases[..i], replies[..i], baseline, parse)
      {
        assert cases[..i + 1][..i] == cases[..i] && replies[..i + 1][..i] == replies[..i];
        var _ := RunTest(cases[i], replies[i], parse);
      }
      assert cases[..|cases|] == cases && replies[..|replies|] == replies;
      var passed := PassedCount(results);
      var failed := |results| - passed;
      ok := failed == 0;
    }
  }

  // ---------------------------------------------------------------------------
  // collect_baselines
  // ---------------------------------------------------------------------------

  /** The cases a baseline is collected for: those whose name does not
      mention "mcp", in order. */
  function BaselineCases(cases: seq<TestCase>): (r: seq<TestCase>)
    ensures forall tc :: tc in r <==> tc in cases && !Contains(tc.name, "mcp")
    ensures |r| <= |cases|
  {
    if cases == [] then []
    else (if Contains(cases[0].name, "mcp") then [] else [cases[0]]) + BaselineCases(cases[1..])
  }

  /** The baselines the replies give, a later case overwriting an earlier
      one of the same name. */
  function Collected(cases: seq<TestCase>, replies: seq<Reply>): map<string, Json>
    requires |replies| == |cases|
    decreases |cases|
  {
    if cases == [] then map[]
    else
      var n := |cases| - 1;
      var m := Collected(cases[..n], replies[..n]);
      if replies[n].success then m[cases[n].name := replies[n].output] else m
  }

  /** A name has a baseline exactly when some case of that name succeeded,
      and the baseline is the output of one such case. */
  lemma {:induction false} CollectedEntries(cases: seq<TestCase>, replies: seq<Reply>)
    requires |replies| == |cases|
    ensures forall name :: name in Collected(cases, replies) <==>
              exists i :: 0 <= i < |cases| && cases[i].name == name && replies[i].success
    ensures forall name :: name in Collected(cases, replies) ==>
              exists i :: 0 <= i < |cases| && cases[i].name == name && replies[i].success &&
                          replies[i].output == Collected(cases, replies)[name]
    decreases |cases|
  {
    if cases != [] {
      var n := |cases| - 1;
      CollectedEntries(cases[..n], replies[..n]);
      assert forall i :: 0 <= i < n ==> cases[..n][i] == cases[i] && replies[..n][i] == replies[i];
    }
  }

  /** One more reply: a success records its output under the case's name. */
  lemma CollectedStep(cases: seq<TestCase>, replies: seq<Reply>, i: nat)
    requires i < |cases| == |replies|
    ensures Collected(cases[..i + 1], replies[..i + 1]) ==
      if replies[i].success then Collected(cases[..i], replies[..i])[cases[i].name := replies[i].output]
      else Collected(cases[..i], replies[..i])
  {
    assert cases[..i + 1][..i] == cases[..i] && replies[..i + 1][..i] == replies[..i];
  }

  /** `collect_baselines`: send each baseline case's command, the i-th
      getting `replies[i]`, and keep the outputs of the successful ones. */
  method CollectBaselines(cases: seq<TestCase>, replies: seq<Reply>) returns (baselines: map<string, Json>)
    requires |replies| == |BaselineCases(cases)|
    ensures baselines == Collected(BaselineCases(cases), replies)
  {
    baselines := map[];
    var baselineCases := BaselineCases(cases);
    for i := 0 to |baselineCases|
      invariant baselines == Collected(baselineCases[..i], replies[..i])
    {
      CollectedStep(baselineCases, replies, i);
      if replies[i].success {
        baselines := baselines[baselineCases[i].name := replies[i].output];
      }
    }
    assert baselineCases[..|baselineCases|] == baselineCases && replies[..|replies|] == replies;
  }

  /** No case whose name mentions "mcp" has a baseline collected, and every
      collected baseline belongs to a case that succeeded. */
  lemma BaselinesSkipMcp(cases: seq<TestCase>, replies: seq<Reply>, name: string)
    requires |replies| == |BaselineCases(cases)|
    requires name in Collected(BaselineCases(cases), replies)
    ensures !Contains(name, "mcp")
    ensures exists tc :: tc in cases && tc.name == name
  {
    CollectedEntries(BaselineCases(cases), replies);
    var i :| 0 <= i < |BaselineCases(cases)| && BaselineCases(cases)[i].name == name && replies[i].success;
    assert BaselineCases(cases)[i] in BaselineCases(cases);
  }
}

=== FILE: json.dfy ===
/** An abstract JSON / Python value as the bridge sees it after `json.loads`.
    Objects keep their key order (Python dicts are ordered), so `Obj` holds a
    sequence of key/value pairs. Parsing and serialising text are never
    implemented: every module that needs them takes them as function parameters. */
module Json {
  import opened Wrappers
  import opened Strings

  datatype Json =
    | Null
    | Bool(b: bool)
    | Num(n: int)
    | Str(s: string)
    | Arr(items: seq<Json>)
    | Obj(fields: seq<(string, Json)>)

  /** `bool(v)` in Python. */
  predicate Truthy(j: Json) {
    match j
    case Null => false
    case Bool(b) => b
    case Num(n) => n != 0
    case Str(s) => s != []
    case Arr(xs) => xs != []
    case Obj(fs) => fs != []
  }

  function Keys(fields: seq<(string, Json)>): (ks: seq<string>)
    ensures |ks| == |fields|
    ensures forall i :: 0 <= i < |fields| ==> ks[i] == fields[i].0
  {
    seq(|fields|, i requires 0 <= i < |fields| => fields[i].0)
  }

  /** `key in d` followed by `d[key]`: the value of the first field named `key`. */
  function Lookup(fields: seq<(string, Json)>, key: string): (r: Option<Json>)
    ensures r.None? <==> key !in Keys(fields)
    ensures r.Some? ==> (key, r.value) in fields
  {
    if fields == [] then None
    else if fields[0].0 == key then Some(fields[0].1)
    else
      var r := Lookup(fields[1..], key);
      assert Keys(fields) == [fields[0].0] + Keys(fields[1..]);
      r
  }

  /** The first field named `key` is at position `i`: `Lookup` finds its
      value. */
  lemma {:induction false} LookupAt(fields: seq<(string, Json)>, i: nat, key: string)
    requires i < |fields| && fields[i].0 == key
    requires forall j :: 0 <= j < i ==> fields[j].0 != key
    ensures Lookup(fields, key) == Some(fields[i].1)
    decreases i
  {
    if i > 0 {
      assert forall j :: 0 <= j < i - 1 ==> fields[1..][j] == fields[j + 1];
      LookupAt(fields[1..], i - 1, key);
    }
  }

  /** `d.get(key, default)`. */
  function GetOr(fields: seq<(string, Json)>, key: string, default: Json): Json {
    match Lookup(fields, key)
    case Some(v) => v
    case None => default
  }

  /** `d.get(key)`: `None` both for a missing key and for an explicit null. */
  function Get(fields: seq<(string, Json)>, key: string): (r: Option<Json>)
    ensures r.Some? <==> Lookup(fields, key).Some? && Lookup(fields, key).value != Null
    ensures r.Some? ==> r == Lookup(fields, key)
  {
    match GetOr(fields, key, Null)
    case Null => None
    case v => Some(v)
  }

  /** The TypeError of `x in v` for a value `in` cannot search (a number,
      a bool or None). */
  function NotIterable(j: Json): string {
    "argument of type '" + TypeName(j) + "' is not iterable"
  }

  /** The message for a number: its type name is "int". */
  lemma NumberNotIterable(n: int)
    ensures NotIterable(Num(n)) == "argument of type 'int' is not iterable"
  {
  }

  /** `isinstance(v, dict) and key in v`. */
  predicate HasKey(j: Json, key: string) {
    j.Obj? && key in Keys(j.fields)
  }

  /** `repr(v)`: strings in single quotes, containers with ", " between items. */
  function Repr(j: Json): string {
    match j
    case Null => "None"
    case Bool(b) => if b then "True" else "False"
    case Num(n) => IntToString(n)
    case Str(s) => "'" + s + "'"
    case Arr(xs) => "[" + Join(", ", seq(|xs|, i requires 0 <= i < |xs| => Repr(xs[i]))) + "]"
    case Obj(fs) =>
      "{" + Join(", ", seq(|fs|, i requires 0 <= i < |fs| => "'" + fs[i].0 + "': " + Repr(fs[i].1))) + "}"
  }

  /** `str(v)`: a string is itself, everything else its `repr`. */
  function Show(j: Json): string {
    if j.Str? then j.s else Repr(j)
  }

  /** `type(v).__name__`. */
  function TypeName(j: Json): string {
    match j
    case Null => "NoneType"
    case Bool(_) => "bool"
    case Num(_) => "int"
    case Str(_) => "str"
    case Arr(_) => "list"
    case Obj(_) => "dict"
  }

  /** The first item that is not a string, or `|items|`. */
  function FirstNonText(items: seq<Json>): (k: nat)
    ensures k <= |items|
    ensures forall i :: 0 <= i < k ==> items[i].Str?
    ensures k < |items| ==> !items[k].Str?
  {
    if items == [] || !items[0].Str? then 0
    else 1 + FirstNonText(items[1..])
  }

  /** `sep.join(items)`: the strings joined, or the `TypeError` naming the
      first item that is not a string. */
  function JoinText(sep: string, items: seq<Json>): (r: Result<string>)
    ensures r.Ok? <==> forall i :: 0 <= i < |items| ==> items[i].Str?
    ensures r.Ok? ==> r.value == Join(sep, seq(|items|, i requires 0 <= i < |items| => items[i].s))
  {
    var k := FirstNonText(items);
    if k < |items| then
      Err("sequence item " + IntToString(k) + ": expected str instance, " + TypeName(items[k]) + " found")
    else Ok(Join(sep, seq(|items|, i requires 0 <= i < |items| => items[i].s)))
  }
}

=== FILE: mcp_server.dfy ===
/** `McpServer`: the MCP server object the EdgeLake HTTP server hosts. It
    answers JSON-RPC 2.0 requests (`tools/list`, `tools/call`) with the tool
    generator and the tool executor, and starts and stops the SSE transport.

    Whether the MCP library could be imported is the constant
    `mcpAvailable`; the engine, `json.dumps`, the environment and the package
    version reach the tool executor as parameters, as in `ToolExecutor`. */
module McpServer {
  import opened Wrappers
  import opened Json
  import Config
  import DirectClient
  import SseTransport
  import ToolGenerator
  import ToolExecutor
  import Seqs

  // ---------------------------------------------------------------------------
  // JSON-RPC replies
  // ---------------------------------------------------------------------------

  /** A JSON-RPC 2.0 reply: a result or an error object, for request `id`. */
  datatype Reply = Success(id: Json, result: Json) | Failure(id: Json, code: int, message: string)

  /** The error code for an unknown method (section 5.1 of JSON-RPC 2.0). */
  const MethodNotFound := -32601
  /** The error code for an internal error (section 5.1 of JSON-RPC 2.0). */
  const InternalError := -32603

  /** The reply as the dict `process_message` returns. */
  function Encode(r: Reply): Json {
    match r
    case Success(id, result) => Obj([("jsonrpc", Str("2.0")), ("id", id), ("result", result)])
    case Failure(id, code, message) =>
      Obj([("jsonrpc", Str("2.0")), ("id", id), ("error", Obj([("code", Num(code)), ("message", Str(message))]))])
  }

  /** Every encoded reply carries `jsonrpc: "2.0"` and the request id, and
      exactly one of `result` and `error`; the fields read back give the reply. */
  lemma EncodeFields(r: Reply)
    ensures Encode(r).Obj?
    ensures GetOr(Encode(r).fields, "jsonrpc", Null) == Str("2.0")
    ensures GetOr(Encode(r).fields, "id", Null) == r.id
    ensures r.Success? ==> Keys(Encode(r).fields) == ["jsonrpc", "id", "result"] &&
                           GetOr(Encode(r).fields, "result", Null) == r.result
    ensures r.Failure? ==> Keys(Encode(r).fields) == ["jsonrpc", "id", "error"] &&
                           GetOr(Encode(r).fields, "error", Null) == Obj([("code", Num(r.code)), ("message", Str(r.message))])
  {
    ThreeFields(Encode(r).fields, "jsonrpc", "id", if r.Success? then "result" else "error");
  }

  /** A dict of three distinct keys: its keys in order, each giving its value. */
  lemma ThreeFields(fields: seq<(string, Json)>, a: string, b: string, c: string)
    requires |fields| == 3 && fields[0].0 == a && fields[1].0 == b && fields[2].0 == c
    requires a != b && a != c && b != c
    ensures Keys(fields) == [a, b, c]
    ensures GetOr(fields, a, Null) == fields[0].1 && GetOr(fields, b, Null) == fields[1].1 &&
      GetOr(fields, c, Null) == fields[2].1
  {
    LookupAt(fields, 0, a);
    LookupAt(fields, 1, b);
    LookupAt(fields, 2, c);
  }

  // ---------------------------------------------------------------------------
  // Subscripting
  // ---------------------------------------------------------------------------

  /** Python's `j[key]` for a string key: the value, KeyError for a missing
      key, TypeError for anything that is not a dict. */
  function Subscript(j: Json, key: string): (r: Result<Json>)
    ensures j.Obj? && key in Keys(j.fields) ==> r == Ok(GetOr(j.fields, key, Null))
    ensures !(j.Obj? && key in Keys(j.fields)) ==> r.Err?
  {
    match j
    case Obj(fields) =>
      (match Lookup(fields, key)
       case Some(v) => Ok(v)
       case None => Err("'" + key + "'"))
    case Arr(_) => Err("list indices must be integers or slices, not str")
    case Str(_) => Err("string indices must be integers")
    case _ => Err("'" + TypeName(j) + "' object is not subscriptable")
  }

  /** The dict `_call_list_tools` builds from one generated tool. */
  function ListEntry(tool: Json): Result<Json> {
    match (Subscript(tool, "name"), Subscript(tool, "description"), Subscript(tool, "inputSchema"))
    case (Ok(name), Ok(description), Ok(schema)) =>
      Ok(Obj([("name", name), ("description", description), ("inputSchema", schema)]))
    case (Err(e), _, _) => Err(e)
    case (_, Err(e), _) => Err(e)
    case (_, _, Err(e)) => Err(e)
  }

  /** Rebuilding a generated tool gives it back unchanged. */
  lemma ListEntryOfGenerated(config: Config.ToolConfig)
    ensures ListEntry(ToolGenerator.GenerateTool(config)) == Ok(ToolGenerator.GenerateTool(config))
  {
    ToolGenerator.GenerateToolFields(config);
  }

  /** Every generated tool survives rebuilding unchanged. */
  lemma GeneratedEntries(configs: seq<Config.ToolConfig>, enabledTools: Option<seq<string>>)
    ensures var tools := ToolGenerator.Generated(configs, enabledTools);
      forall k :: 0 <= k < |tools| ==> ListEntry(tools[k]) == Ok(tools[k])
  {
    var tools := ToolGenerator.Generated(configs, enabledTools);
    ToolGenerator.GeneratedMembers(configs, enabledTools);
    forall k | 0 <= k < |tools|
      ensures ListEntry(tools[k]) == Ok(tools[k])
    {
      var t := tools[k];
      assert t in tools;
      var j :| 0 <= j < |configs| && ToolGenerator.Enabled(configs[j], enabledTools) &&
               t == ToolGenerator.GenerateTool(configs[j]);
      ListEntryOfGenerated(configs[j]);
    }
  }

  /** The dict `_call_tool` builds from one content item. */
  function TextContent(item: Json): Result<Json> {
    match Subscript(item, "text")
    case Ok(text) => Ok(Obj([("type", Str("text")), ("text", text)]))
    case Err(e) => Err(e)
  }

  /** Rebuilding a text item gives it back unchanged. */
  lemma TextContentOfItem(text: string)
    ensures TextContent(ToolExecutor.TextItem(text)) == Ok(ToolExecutor.TextItem(text))
  {
    var fields := ToolExecutor.TextItem(text).fields;
    assert "type"[1] != "text"[1];
    assert Lookup(fields[1..], "text") == Some(Str(text));
    assert Keys(fields) == ["type", "text"];
  }

  /** What `execute_tool` answers is one text item. */
  lemma ExecutedItem(config: Config.Config, env: Config.Env, version: string, name: string, args: seq<(string, Json)>,
                     run: (string, Option<Json>) -> Result<Json>, parsers: seq<(string, Json)>, dumps: Json -> string)
    ensures var items := ToolExecutor.ExecuteTool(config, env, version, name, args, run, parsers, dumps);
      items == [ToolExecutor.TextItem(ToolExecutor.ItemText(items[0]).value)]
  {
    var o := ToolExecutor.Outcome(config, env, version, name, args, run, parsers, dumps);
    var items := ToolExecutor.ExecuteTool(config, env, version, name, args, run, parsers, dumps);
    if o.Ok? {
      assert items == ToolExecutor.FormatResponse(o.value);
    } else {
      assert items == ToolExecutor.FormatError(o.error);
    }
  }

  // ---------------------------------------------------------------------------
  // The server
  // ---------------------------------------------------------------------------

  /** The item list `tools/call` answers: the executor's items for a string
      tool name and object arguments. A name that is not a string names no
      tool; arguments that are not an object fail on their first `.get`. */
  function CallItems(config: Config.Config, env: Config.Env, version: string, name: Json, arguments: Json,
                     run: (string, Option<Json>) -> Result<Json>, parsers: seq<(string, Json)>,
                     dumps: Json -> string): (items: seq<Json>)
    reads config
  {
    if !name.Str? then ToolExecutor.FormatError("Unknown tool: " + Show(name))
    else if !arguments.Obj? then ToolExecutor.FormatError("'" + TypeName(arguments) + "' object has no attribute 'get'")
    else ToolExecutor.ExecuteTool(config, env, version, name.s, arguments.fields, run, parsers, dumps)
  }

  /** `tools/call` always answers exactly one text item. */
  lemma CallItemsSingle(config: Config.Config, env: Config.Env, version: string, name: Json, arguments: Json,
                        run: (string, Option<Json>) -> Result<Json>, parsers: seq<(string, Json)>, dumps: Json -> string)
    ensures var items := CallItems(config, env, version, name, arguments, run, parsers, dumps);
      |items| == 1 && ToolExecutor.ItemText(items[0]).Some? &&
      items == [ToolExecutor.TextItem(ToolExecutor.ItemText(items[0]).value)]
  {
    if name.Str? && arguments.Obj? {
      ExecutedItem(config, env, version, name.s, arguments.fields, run, parsers, dumps);
    }
  }

  class Server {
    /** Whether the MCP library was importable (`MCP_AVAILABLE`); the protocol
        server exists exactly then. */
    const mcpAvailable: bool
    const enabledTools: Option<seq<string>>
    const config: Config.Config
    const client: DirectClient.Client
    var transport: SseTransport.Transport?

    /** The fields `__init__` sets once `get_max_workers` has succeeded. */
    constructor (config: Config.Config, enabledTools: Option<seq<string>>, mcpAvailable: bool)
      ensures this.config == config && this.enabledTools == enabledTools && this.mcpAvailable == mcpAvailable
      ensures transport == null && fresh(client) && !client.shutdown
    {
      this.config := config;
      this.enabledTools := enabledTools;
      this.mcpAvailable := mcpAvailable;
      client := new DirectClient.Client();
      transport := null;
    }

    /** `MCPServer(...)` with the configuration already loaded: the client's
        pool size comes from `get_max_workers`, whose `ValueError` on a
        non-integer `EDGELAKE_MAX_WORKERS` makes construction fail. */
    static method Create(config: Config.Config, env: Config.Env, enabledTools: Option<seq<string>>, mcpAvailable: bool)
      returns (s: Result<Server>)
      ensures s.Err? <==> config.MaxWorkers(env).Err?
      ensures s.Err? ==> s.error == config.MaxWorkers(env).error
      ensures s.Ok? ==> fresh(s.value) && s.value.config == config && s.value.enabledTools == enabledTools &&
                        s.value.mcpAvailable == mcpAvailable && s.value.transport == null && !s.value.client.shutdown
    {
      var workers := config.MaxWorkers(env);
      if workers.Err? {
        return Err(workers.error);
      }
      var server := new Server(config, enabledTools, mcpAvailable);
      return Ok(server);
    }

    /** `start`: fails without the MCP library, otherwise attaches to the
        (possibly already running) SSE transport. */
    method Start(runtime: SseTransport.Runtime) returns (error: Option<string>)
      requires runtime.Valid()
      modifies this, runtime
      ensures runtime.Valid()
      ensures !mcpAvailable ==> error == Some("MCP library not available - install with: pip install mcp") &&
                                transport == old(transport) && runtime.instance == old(runtime.instance)
      ensures mcpAvailable ==> error.None? && transport == runtime.instance && transport != null
      ensures mcpAvailable && old(runtime.instance) != null ==> transport == old(runtime.instance)
    {
      if !mcpAvailable {
        return Some("MCP library not available - install with: pip install mcp");
      }
      transport := runtime.Initialize();
      error := None;
    }

    /** `stop`: shut the SSE transport down if this server started one, then
        close the client. */
    method Stop(runtime: SseTransport.Runtime)
      requires runtime.Valid()
      modifies this, client, runtime, runtime.instance,
        if runtime.instance == null then {} else runtime.instance.connections.Values
      ensures runtime.Valid() && transport == null && client.shutdown
      ensures old(transport) != null ==> runtime.instance == null
      ensures old(transport) == null ==> runtime.instance == old(runtime.instance)
    {
      if transport != null {
        runtime.Shutdown();
        transport := null;
      }
      client.Close();
    }

    /** What `process_message` answers: the AttributeError of `.get` on a
        message that is not an object; otherwise a reply echoing the id. */
    function Response(message: Json, env: Config.Env, version: string, run: (string, Option<Json>) -> Result<Json>,
                      parsers: seq<(string, Json)>, dumps: Json -> string): Result<Reply>
      reads this, config
    {
      if !message.Obj? then Err("'" + TypeName(message) + "' object has no attribute 'get'")
      else
        var id := GetOr(message.fields, "id", Null);
        var name := GetOr(message.fields, "method", Null);
        var params := GetOr(message.fields, "params", Obj([]));
        if !mcpAvailable then Ok(Failure(id, InternalError, "MCP server not initialized"))
        else if name == Str("tools/list") then Ok(Success(id, Arr(ToolGenerator.Generated(config.tools, enabledTools))))
        else if name == Str("tools/call") then
          if !params.Obj? then
            Ok(Failure(id, InternalError, "Internal error: '" + TypeName(params) + "' object has no attribute 'get'"))
          else
            var items := CallItems(config, env, version, GetOr(params.fields, "name", Null),
                                   GetOr(params.fields, "arguments", Obj([])), run, parsers, dumps);
            Ok(Success(id, Arr(items)))
        else Ok(Failure(id, MethodNotFound, "Method not found: " + Show(name)))
    }

    /** A request that is an object always gets a reply, and the reply
        echoes its `id` (None when absent); anything else raises. */
    lemma ReplyEchoesId(message: Json, env: Config.Env, version: string, run: (string, Option<Json>) -> Result<Json>,
                        parsers: seq<(string, Json)>, dumps: Json -> string)
      ensures Response(message, env, version, run, parsers, dumps).Ok? <==> message.Obj?
      ensures message.Obj? ==> Response(message, env, version, run, parsers, dumps).value.id == GetOr(message.fields, "id", Null)
    {
    }

    /** Without the MCP library every request is refused with an internal
        error, whatever its method. */
    lemma UninitializedRefuses(message: Json, env: Config.Env, version: string, run: (string, Option<Json>) -> Result<Json>,
                               parsers: seq<(string, Json)>, dumps: Json -> string)
      requires !mcpAvailable && message.Obj?
      ensures var r := Response(message, env, version, run, parsers, dumps);
        r.Ok? && r.value.Failure? && r.value.code == InternalError && r.value.message == "MCP server not initialized"
    {
    }

    /** `tools/list` answers the generated tools; with no filter, one entry
        per configured tool, in configuration order. */
    lemma ToolsListReply(message: Json, env: Config.Env, version: string, run: (string, Option<Json>) -> Result<Json>,
                         parsers: seq<(string, Json)>, dumps: Json -> string)
      requires mcpAvailable && message.Obj? && GetOr(message.fields, "method", Null) == Str("tools/list")
      ensures var r := Response(message, env, version, run, parsers, dumps);
        r.Ok? && r.value.Success? && r.value.result.Arr? &&
        (enabledTools.None? ==>
           (|r.value.result.items| == |config.tools| &&
            forall i :: 0 <= i < |config.tools| ==> r.value.result.items[i] == ToolGenerator.GenerateTool(config.tools[i])))
    {
      ToolGenerator.GeneratedUnfiltered(config.tools);
    }

    /** `tools/call` with object parameters answers exactly one text item:
        for a known tool the executor's text, otherwise an "Error: " text. */
    lemma ToolsCallReply(message: Json, env: Config.Env, version: string, run: (string, Option<Json>) -> Result<Json>,
                         parsers: seq<(string, Json)>, dumps: Json -> string)
      requires mcpAvailable && message.Obj? && GetOr(message.fields, "method", Null) == Str("tools/call")
      requires GetOr(message.fields, "params", Obj([])).Obj?
      ensures var r := Response(message, env, version, run, parsers, dumps);
        var params := GetOr(message.fields, "params", Obj([])).fields;
        var name := GetOr(params, "name", Null);
        var arguments := GetOr(params, "arguments", Obj([]));
        r.Ok? && r.value.Success? && r.value.result.Arr? && |r.value.result.items| == 1 &&
        ToolExecutor.ItemText(r.value.result.items[0]).Some? &&
        (name.Str? && arguments.Obj? ==>
          var o := ToolExecutor.Outcome(config, env, version, name.s, arguments.fields, run, parsers, dumps);
          ToolExecutor.ItemText(r.value.result.items[0]).value == if o.Ok? then o.value else "Error: " + o.error)
    {
      var params := GetOr(message.fields, "params", Obj([])).fields;
      CallItemsSingle(config, env, version, GetOr(params, "name", Null), GetOr(params, "arguments", Obj([])), run, parsers, dumps);
    }

    /** Any other method is refused as not found, naming the method. */
    lemma UnknownMethodReply(message: Json, env: Config.Env, version: string, run: (string, Option<Json>) -> Result<Json>,
                             parsers: seq<(string, Json)>, dumps: Json -> string)
      requires mcpAvailable && message.Obj?
      requires GetOr(message.fields, "method", Null) != Str("tools/list") && GetOr(message.fields, "method", Null) != Str("tools/call")
      ensures var r := Response(message, env, version, run, parsers, dumps);
        r.Ok? && r.value.Failure? && r.value.code == MethodNotFound &&
        r.value.message == "Method not found: " + Show(GetOr(message.fields, "method", Null))
    {
    }

    /** `_call_list_tools`: one `{name, description, inputSchema}` dict per
        generated tool, in order. */
    method CallListTools() returns (result: seq<Json>)
      ensures result == ToolGenerator.Generated(config.tools, enabledTools)
    {
      var tools := ToolGenerator.GenerateTools(config.tools, enabledTools);
      GeneratedEntries(config.tools, enabledTools);
      result := [];
      for i := 0 to |tools|
        invariant result == tools[..i]
      {
        result := result + [ListEntry(tools[i]).value];
        Seqs.TakeNext(tools, i);
      }
      assert tools[..|tools|] == tools;
    }

    /** `_call_tool`: the executor's items, each rebuilt as a text dict. */
    method CallTool(name: Json, arguments: Json, env: Config.Env, version: string,
                    run: (string, Option<Json>) -> Result<Json>, parsers: seq<(string, Json)>, dumps: Json -> string)
      returns (result: seq<Json>)
      ensures result == CallItems(config, env, version, name, arguments, run, parsers, dumps)
    {
      var items := CallItems(config, env, version, name, arguments, run, parsers, dumps);
      CallItemsSingle(config, env, version, name, arguments, run, parsers, dumps);
      TextContentOfItem(ToolExecutor.ItemText(items[0]).value);
      result := [];
      for i := 0 to |items|
        invariant result == items[..i]
      {
        result := result + [TextContent(items[i]).value];
        Seqs.TakeNext(items, i);
      }
      assert items[..|items|] == items;
    }

    /** `process_message`: route one JSON-RPC request. */
    method ProcessMessage(message: Json, env: Config.Env, version: string, run: (string, Option<Json>) -> Result<Json>,
                          parsers: seq<(string, Json)>, dumps: Json -> string)
      returns (r: Result<Json>)
      ensures var reply := Response(message, env, version, run, parsers, dumps);
        r == if reply.Ok? then Ok(Encode(reply.value)) else Err(reply.error)
    {
      if !message.Obj? {
        return Err("'" + TypeName(message) + "' object has no attribute 'get'");
      }
      var id := GetOr(message.fields, "id", Null);
      if !mcpAvailable {
        return Ok(Encode(Failure(id, InternalError, "MCP server not initialized")));
      }
      var name := GetOr(message.fields, "method", Null);
      var params := GetOr(message.fields, "params", Obj([]));
      if name == Str("tools/list") {
        var result := CallListTools();
        r := Ok(Encode(Success(id, Arr(result))));
      } else if name == Str("tools/call") {
        if !params.Obj? {
          return Ok(Encode(Failure(id, InternalError, "Internal error: '" + TypeName(params) + "' object has no attribute 'get'")));
        }
        var result := CallTool(GetOr(params.fields, "name", Null), GetOr(params.fields, "arguments", Obj([])),
                               env, version, run, parsers, dumps);
        r := Ok(Encode(Success(id, Arr(result))));
      } else {
        r := Ok(Encode(Failure(id, MethodNotFound, "Method not found: " + Show(name))));
      }
    }

    /** `get_info`: the version, whether MCP is available, the connection
        count and ids, the enabled tools ("all" when none are set) and the
        transport name. */
    method GetInfo(version: string) returns (info: Json)
      ensures info.Obj? && Keys(info.fields) ==
        ["version", "mcp_available", "active_connections", "connection_ids", "enabled_tools", "transport"]
      ensures info.fields[0].1 == Str(version) && info.fields[1].1 == Bool(mcpAvailable)
      ensures info.fields[2].1 == Num(if transport == null then 0 else |transport.connections|)
      ensures info.fields[3].1.Arr? &&
        (forall sid :: Str(sid) in info.fields[3].1.items <==> transport != null && sid in transport.connections)
      ensures info.fields[4].1 == EnabledToolsField(enabledTools)
      ensures info.fields[5].1 == Str("SSE over http_server.py")
    {
      var ids: seq<string> := [];
      if transport != null {
        ids := transport.ActiveConnections();
      }
      var idList := seq(|ids|, i requires 0 <= i < |ids| => Str(ids[i]));
      forall sid
        ensures Str(sid) in idList <==> sid in ids
      {
        if sid in ids {
          var i :| 0 <= i < |ids| && ids[i] == sid;
          assert idList[i] == Str(sid);
        }
      }
      info := Obj([("version", Str(version)), ("mcp_available", Bool(mcpAvailable)),
                   ("active_connections", Num(|ids|)), ("connection_ids", Arr(idList)),
                   ("enabled_tools", EnabledToolsField(enabledTools)), ("transport", Str("SSE over http_server.py"))]);
    }
  }

  /** `self.enabled_tools or "all"`: the list when it has names, else "all". */
  function EnabledToolsField(enabledTools: Option<seq<string>>): (j: Json)
    ensures j == Str("all") <==> enabledTools.None? || enabledTools.value == []
  {
    if enabledTools.None? || enabledTools.value == [] then Str("all")
    else Arr(seq(|enabledTools.value|, i requires 0 <= i < |enabledTools.value| => Str(enabledTools.value[i])))
  }
}

=== FILE: node_query.dfy ===
/** `NodeQuery`: the node's status, read from its name. The node name
    (`name@ip:port`) comes from the engine and is a parameter. */
module NodeQuery {
  import opened Wrappers
  import opened Json
  import opened Strings

  /** `node_name.split('@', 1)` when it has an '@', else the whole name and
      "unknown". */
  function SplitName(nodeName: string): (r: (string, string)) {
    var i := FindChar(nodeName, '@');
    if i >= 0 then (nodeName[..i], nodeName[i + 1..]) else (nodeName, "unknown")
  }

  /** With an '@' the name is split at the first one: the parts rejoin to the
      whole and the name part has no '@'. Without one the name is whole and
      the id "unknown". */
  lemma SplitNameParts(nodeName: string)
    ensures var (name, nodeId) := SplitName(nodeName);
      '@' !in name &&
      ('@' in nodeName ==> name + "@" + nodeId == nodeName) &&
      ('@' !in nodeName ==> name == nodeName && nodeId == "unknown")
  {
    var i := FindChar(nodeName, '@');
    if i >= 0 {
      assert nodeName == nodeName[..i] + [nodeName[i]] + nodeName[i + 1..];
    }
  }

  /** `get_node_status`: the name, its two parts and the status "running". */
  function NodeStatus(nodeName: string): (status: Json)
    ensures status.Obj? && Keys(status.fields) == ["node_name", "name", "node_id", "status"]
    ensures status.fields[0].1 == Str(nodeName) && status.fields[3].1 == Str("running")
    ensures status.fields[1].1 == Str(SplitName(nodeName).0) && status.fields[2].1 == Str(SplitName(nodeName).1)
  {
    var (name, nodeId) := SplitName(nodeName);
    Obj([("node_name", Str(nodeName)), ("name", Str(name)), ("node_id", Str(nodeId)), ("status", Str("running"))])
  }

  /** `execute_query`: only `get_node_status` exists, and it takes no
      arguments. */
  function ExecuteQuery(nodeName: string, queryType: string, kwargs: seq<(string, Json)>): (r: Result<Json>)
    ensures queryType != "get_node_status" ==> r == Err("Unknown node query type: " + queryType)
    ensures queryType == "get_node_status" && kwargs == [] ==> r == Ok(NodeStatus(nodeName))
    ensures queryType == "get_node_status" && kwargs != [] ==> r.Err?
  {
    if queryType != "get_node_status" then Err("Unknown node query type: " + queryType)
    else if kwargs != [] then Err("NodeQuery.get_node_status() got an unexpected keyword argument '" + kwargs[0].0 + "'")
    else Ok(NodeStatus(nodeName))
  }
}

=== FILE: query_builder.dfy ===
/** `QueryBuilder`: builds a SQL statement clause by clause from structured
    arguments (a dict, kept as its ordered fields) and wraps it in an
    EdgeLake `sql` command. A clause whose argument is missing or falsy is
    left out; the clauses are joined with single spaces. */
module QueryBuilder {
  import opened Wrappers
  import opened Strings
  import opened Json
  import CommandBuilder
  import DirectClient
  import Seqs

  /** `x` itself for a list, `[x]` otherwise: how `extend`/`append` are chosen. */
  function AsList(v: Json): seq<Json> {
    if v.Arr? then v.items else [v]
  }

  /** `[x]` for a clause that is present, nothing for `None`. */
  function Present(clause: Option<string>): seq<string> {
    if clause.Some? then [clause.value] else []
  }

  // ---------------------------------------------------------------------------
  // SELECT
  // ---------------------------------------------------------------------------

  /** `all_cols`: the `select` columns (default `['*']`), then the
      `extend_fields` when they are truthy. */
  function SelectColumns(args: seq<(string, Json)>): (cols: seq<Json>)
    ensures Lookup(args, "select").None? && !Truthy(GetOr(args, "extend_fields", Arr([]))) ==> cols == [Str("*")]
    ensures AsList(GetOr(args, "select", Arr([Str("*")]))) <= cols
  {
    var select := GetOr(args, "select", Arr([Str("*")]));
    var extend := GetOr(args, "extend_fields", Arr([]));
    if Truthy(extend) then AsList(select) + AsList(extend) else AsList(select)
  }

  /** `_build_select_clause`: joining raises unless every column is a string. */
  function SelectClause(args: seq<(string, Json)>): (r: Result<string>)
    ensures r.Ok? <==> forall i :: 0 <= i < |SelectColumns(args)| ==> SelectColumns(args)[i].Str?
  {
    match JoinText(", ", SelectColumns(args))
    case Ok(text) => Ok("SELECT " + text)
    case Err(e) => Err(e)
  }

  // ---------------------------------------------------------------------------
  // FROM
  // ---------------------------------------------------------------------------

  /** What the `include_tables` loop appends: `", " + str(t)` per table. */
  function Appended(tables: seq<Json>): string
    decreases |tables|
  {
    if tables == [] then ""
    else Appended(tables[..|tables| - 1]) + ", " + Show(tables[|tables| - 1])
  }

  /** `_build_from_clause`. */
  function FromClause(args: seq<(string, Json)>): string {
    var includes := GetOr(args, "include_tables", Arr([]));
    "FROM " + Show(GetOr(args, "table", Null)) +
      (if !Truthy(includes) then "" else if includes.Arr? then Appended(includes.items) else ", " + Show(includes))
  }

  /** `str(t)` of each table, in order. */
  function Shown(tables: seq<Json>): (shown: seq<string>)
    ensures |shown| == |tables|
    ensures forall i :: 0 <= i < |tables| ==> shown[i] == Show(tables[i])
    decreases |tables|
  {
    if tables == [] then [] else Shown(tables[..|tables| - 1]) + [Show(tables[|tables| - 1])]
  }

  /** One more table appends one more `", " + str(t)`. */
  lemma AppendedStep(tables: seq<Json>, i: nat)
    requires i < |tables|
    ensures Appended(tables[..i + 1]) == Appended(tables[..i]) + ", " + Show(tables[i])
  {
    assert tables[..i + 1][..i] == tables[..i];
  }

  /** The FROM clause lists the table and then every included table,
      separated by commas. */
  lemma {:induction false} AppendedIsJoin(head: string, tables: seq<Json>)
    ensures head + Appended(tables) == Join(", ", [head] + Shown(tables))
    decreases |tables|
  {
    if tables == [] {
      assert [head] + Shown(tables) == [head];
    } else {
      var n := |tables| - 1;
      var prefix := tables[..n];
      var last := Show(tables[n]);
      AppendedIsJoin(head, prefix);
      Seqs.AppendAssoc([head], Shown(prefix), [last]);
      JoinAppend(", ", [head] + Shown(prefix), last);
      Seqs.AppendAssoc(head, Appended(prefix), ", " + last);
      Seqs.AppendAssoc(Appended(prefix), ", ", last);
      Seqs.AppendAssoc(head + Appended(prefix), ", ", last);
    }
  }

  /** The loop of `_build_from_clause`: `", " + str(t)` per included table. */
  method AppendTables(head: string, tables: seq<Json>) returns (fromPart: string)
    ensures fromPart == head + Appended(tables)
  {
    fromPart := head;
    for i := 0 to |tables|
      invariant fromPart == head + Appended(tables[..i])
    {
      AppendedStep(tables, i);
      fromPart := fromPart + ", " + Show(tables[i]);
    }
    assert tables[..|tables|] == tables;
  }

  /** `_build_from_clause` as written. */
  method BuildFromClause(args: seq<(string, Json)>) returns (fromPart: string)
    ensures fromPart == FromClause(args)
  {
    var head := "FROM " + Show(GetOr(args, "table", Null));
    fromPart := head;
    var includes := GetOr(args, "include_tables", Arr([]));
    if Truthy(includes) {
      if includes.Arr? {
        fromPart := AppendTables(head, includes.items);
      } else {
        fromPart := fromPart + ", " + Show(includes);
      }
    }
  }

  // ---------------------------------------------------------------------------
  // WHERE and GROUP BY
  // ---------------------------------------------------------------------------

  /** `_build_where_clause`. */
  function WhereClause(args: seq<(string, Json)>): (r: Option<string>)
    ensures r.Some? <==> Truthy(GetOr(args, "where", Null))
  {
    var where := GetOr(args, "where", Null);
    if Truthy(where) then Some("WHERE " + Show(where)) else None
  }

  /** `_build_group_by_clause`: a list is joined (which raises on a
      non-string), anything else is used as its `str`. */
  function GroupByClause(args: seq<(string, Json)>): (r: Result<Option<string>>)
    ensures r.Ok? && r.value.Some? <==> Truthy(GetOr(args, "group_by", Arr([]))) && r.Ok?
    ensures r.Err? ==> GetOr(args, "group_by", Arr([])).Arr?
  {
    GroupBy(GetOr(args, "group_by", Arr([])))
  }

  /** The GROUP BY clause of one `group_by` value. */
  function GroupBy(groupBy: Json): Result<Option<string>> {
    if !Truthy(groupBy) then Ok(None)
    else if groupBy.Arr? then
      match JoinText(", ", groupBy.items)
      case Ok(text) => Ok(Some("GROUP BY " + text))
      case Err(e) => Err(e)
    else Ok(Some("GROUP BY " + Show(groupBy)))
  }

  // ---------------------------------------------------------------------------
  // ORDER BY
  // ---------------------------------------------------------------------------

  /** `order_item.get('direction', 'ASC')` has an `upper` method. */
  predicate DirectionOk(item: Json) {
    !item.Obj? || GetOr(item.fields, "direction", Str("ASC")).Str?
  }

  /** One `order_by` list item: a dict with a truthy column becomes
      "column DIRECTION" (the direction upper-cased, upper-casing happening
      before the column is looked at), a string is kept, anything else is
      skipped. */
  function OrderPart(item: Json): (r: Result<Option<string>>)
    ensures r.Ok? <==> DirectionOk(item)
    ensures item.Str? ==> r == Ok(Some(item.s))
    ensures !item.Str? && !item.Obj? ==> r == Ok(None)
    ensures item.Obj? && r.Ok? ==> (r.value.Some? <==> Truthy(GetOr(item.fields, "column", Null)))
    ensures r.Err? ==> |r.error| > 0 && r.error[0] == '\''
  {
    if item.Obj? then
      var direction := GetOr(item.fields, "direction", Str("ASC"));
      if !direction.Str? then Err("'" + TypeName(direction) + "' object has no attribute 'upper'")
      else
        var column := GetOr(item.fields, "column", Null);
        if Truthy(column) then Ok(Some(Show(column) + " " + Upper(direction.s))) else Ok(None)
    else if item.Str? then Ok(Some(item.s))
    else Ok(None)
  }

  /** One more turn of the `order_parts` loop: an earlier error stands,
      else this item's error, else its part (if any) is appended. */
  function Extend(acc: Result<seq<string>>, part: Result<Option<string>>): (r: Result<seq<string>>)
    ensures r.Ok? <==> acc.Ok? && part.Ok?
    ensures r.Ok? ==> |acc.value| <= |r.value| <= |acc.value| + 1 && acc.value <= r.value
    ensures r.Err? ==> r.error == if acc.Err? then acc.error else part.error
  {
    match acc
    case Err(e) => Err(e)
    case Ok(parts) =>
      match part
      case Err(e) => Err(e)
      case Ok(None) => Ok(parts)
      case Ok(Some(p)) => Ok(parts + [p])
  }

  /** `order_parts` after the loop over a list, or the first error it raises. */
  function OrderParts(items: seq<Json>): (r: Result<seq<string>>)
    ensures r.Ok? <==> forall i :: 0 <= i < |items| ==> DirectionOk(items[i])
    ensures r.Ok? ==> |r.value| <= |items|
    ensures r.Err? ==> |r.error| > 0 && r.error[0] == '\''
    decreases |items|
  {
    if items == [] then Ok([])
    else
      var n := |items| - 1;
      assert forall i :: 0 <= i < n ==> items[..n][i] == items[i];
      Extend(OrderParts(items[..n]), OrderPart(items[n]))
  }

  /** The strings held by a list of strings. */
  function Texts(items: seq<Json>): (texts: seq<string>)
    requires forall i :: 0 <= i < |items| ==> items[i].Str?
    ensures |texts| == |items|
    ensures forall i :: 0 <= i < |items| ==> texts[i] == items[i].s
  {
    seq(|items|, i requires 0 <= i < |items| => items[i].s)
  }

  /** A list of plain strings is kept as it is. */
  lemma {:induction false} OrderPartsOfStrings(items: seq<Json>)
    requires forall i :: 0 <= i < |items| ==> items[i].Str?
    ensures OrderParts(items) == Ok(Texts(items))
    decreases |items|
  {
    if items != [] {
      var n := |items| - 1;
      var prefix := items[..n];
      OrderPartsOfStrings(prefix);
      assert OrderPart(items[n]) == Ok(Some(items[n].s));
      assert OrderParts(items) == Ok(Texts(prefix) + [items[n].s]);
      assert Texts(items) == Texts(prefix) + [items[n].s];
    } else {
      assert |Texts(items)| == 0;
    }
  }

  /** `_build_order_by_clause`: `None` when there is nothing to order by. */
  function OrderByClause(args: seq<(string, Json)>): (r: Result<Option<string>>)
    ensures r.Err? ==> GetOr(args, "order_by", Arr([])).Arr?
    ensures !Truthy(GetOr(args, "order_by", Arr([]))) ==> r == Ok(None)
    ensures r.Err? ==> |r.error| > 0 && r.error[0] == '\''
  {
    var orderBy := GetOr(args, "order_by", Arr([]));
    if !Truthy(orderBy) then Ok(None)
    else
      var parts := if orderBy.Arr? then OrderParts(orderBy.items)
        else if orderBy.Str? then Ok([orderBy.s])
        else Ok([]);
      match parts
      case Err(e) => Err(e)
      case Ok(ps) => if ps == [] then Ok(None) else Ok(Some("ORDER BY " + Join(", ", ps)))
  }

  /** The loop of `_build_order_by_clause` over a list. */
  method CollectOrderParts(items: seq<Json>) returns (r: Result<seq<string>>)
    ensures r == OrderParts(items)
  {
    var parts: seq<string> := [];
    for i := 0 to |items|
      invariant OrderParts(items[..i]) == Ok(parts)
    {
      assert items[..i + 1][..i] == items[..i];
      match OrderPart(items[i])
      case Err(e) =>
        assert OrderParts(items[..i + 1]) == Err(e);
        OrderPartsErrorPersists(items, i + 1);
        return Err(e);
      case Ok(p) =>
        if p.Some? {
          parts := parts + [p.value];
        }
    }
    assert items[..|items|] == items;
    return Ok(parts);
  }

  /** Once an item fails, the whole list fails with the same error. */
  lemma {:induction false} OrderPartsErrorPersists(items: seq<Json>, k: nat)
    requires k <= |items| && OrderParts(items[..k]).Err?
    ensures OrderParts(items) == OrderParts(items[..k])
    decreases |items| - k
  {
    if k < |items| {
      assert items[..k + 1][..k] == items[..k];
      OrderPartsErrorPersists(items, k + 1);
    } else {
      assert items[..k] == items;
    }
  }

  // ---------------------------------------------------------------------------
  // LIMIT
  // ---------------------------------------------------------------------------

  /** `int(v)`: an int is itself, a bool 0 or 1, a string is parsed, and
      anything else raises (`None`). */
  function IntValue(v: Json): (r: Option<int>)
    ensures v.Num? ==> r == Some(v.n)
    ensures v.Null? || v.Arr? || v.Obj? ==> r.None?
  {
    match v
    case Num(n) => Some(n)
    case Bool(b) => Some(if b then 1 else 0)
    case Str(s) => PyInt(s)
    case _ => None
  }

  /** `_build_limit_clause`: "LIMIT n" when the argument converts to a
      positive integer; the number written reads back as that integer. */
  function LimitClause(args: seq<(string, Json)>): (r: Option<string>)
    ensures r.Some? <==> IntValue(GetOr(args, "limit", Null)).Some? && IntValue(GetOr(args, "limit", Null)).value > 0
    ensures r.Some? ==> (|r.value| > 6 && r.value[..6] == "LIMIT " &&
      PyInt(r.value[6..]) == IntValue(GetOr(args, "limit", Null)))
  {
    var limit := GetOr(args, "limit", Null);
    if limit.Null? then None
    else match IntValue(limit)
      case Some(n) =>
        if n > 0 then
          var text := IntToString(n);
          PyIntOfIntToString(n);
          assert ("LIMIT " + text)[6..] == text;
          Some("LIMIT " + text)
        else None
      case None => None
  }

  // ---------------------------------------------------------------------------
  // The whole query
  // ---------------------------------------------------------------------------

  const TableRequired := "Table name is required"

  /** `" " + clause` for a clause that is present, nothing for `None`. */
  function Spaced(clause: Option<string>): string {
    if clause.Some? then " " + clause.value else ""
  }

  /** `' '.join(query_parts)`: the SELECT and FROM clauses, then each
      present clause, in order, each after one space. */
  function Assemble(select: string, fromPart: string, where: Option<string>, group: Option<string>,
                    order: Option<string>, limit: Option<string>): (r: string)
    ensures r == select + " " + fromPart + Spaced(where) + Spaced(group) + Spaced(order) + Spaced(limit)
  {
    var parts := [select, fromPart] + Present(where) + Present(group) + Present(order) + Present(limit);
    AssembleStep([select, fromPart], where);
    AssembleStep([select, fromPart] + Present(where), group);
    AssembleStep([select, fromPart] + Present(where) + Present(group), order);
    AssembleStep([select, fromPart] + Present(where) + Present(group) + Present(order), limit);
    assert Join(" ", [select, fromPart]) == select + " " + fromPart;
    Join(" ", parts)
  }

  lemma AssembleStep(parts: seq<string>, clause: Option<string>)
    requires parts != []
    ensures Join(" ", parts + Present(clause)) == Join(" ", parts) + Spaced(clause)
  {
    if clause.Some? {
      JoinAppend(" ", parts, clause.value);
    } else {
      assert parts + Present(clause) == parts;
    }
  }

  /** `build_query`: a falsy `table` is refused before anything else; then
      the first error a clause raises, in clause order; otherwise the present
      clauses joined by spaces. */
  function Query(args: seq<(string, Json)>): (r: Result<string>)
    ensures !Truthy(GetOr(args, "table", Null)) <==> r == Err(TableRequired)
  {
    if !Truthy(GetOr(args, "table", Null)) then Err(TableRequired)
    else match SelectClause(args)
      case Err(e) => SequenceItemError(SelectColumns(args)); Err(e)
      case Ok(select) =>
        match GroupByClause(args)
        case Err(e) => SequenceItemError(GetOr(args, "group_by", Arr([])).items); Err(e)
        case Ok(group) =>
          match OrderByClause(args)
          case Err(e) => assert e[0] != TableRequired[0]; Err(e)
          case Ok(order) =>
            Ok(Assemble(select, FromClause(args), WhereClause(args), group, order, LimitClause(args)))
  }

  /** A failed join never reports a missing table. */
  lemma SequenceItemError(items: seq<Json>)
    ensures JoinText(", ", items) != Err(TableRequired)
  {
    if JoinText(", ", items).Err? {
      assert JoinText(", ", items).error[0] == 's';
    }
  }

  /** The list of parts of `build_query`, grown clause by clause. */
  method QueryParts(select: string, fromPart: string, where: Option<string>, group: Option<string>,
                    order: Option<string>, limit: Option<string>) returns (parts: seq<string>)
    ensures parts == [select, fromPart] + Present(where) + Present(group) + Present(order) + Present(limit)
  {
    parts := [select, fromPart];
    if where.Some? {
      parts := parts + [where.value];
    }
    if group.Some? {
      parts := parts + [group.value];
    }
    if order.Some? {
      parts := parts + [order.value];
    }
    if limit.Some? {
      parts := parts + [limit.value];
    }
  }

  /** `build_query` as written. */
  method BuildQuery(args: seq<(string, Json)>) returns (r: Result<string>)
    ensures r == Query(args)
  {
    if !Truthy(GetOr(args, "table", Null)) {
      return Err(TableRequired);
    }
    var select := SelectClause(args);
    if select.Err? {
      return Err(select.error);
    }
    var fromPart := BuildFromClause(args);
    var where := WhereClause(args);
    var group := GroupByClause(args);
    if group.Err? {
      return Err(group.error);
    }
    var order := OrderByClause(args);
    if order.Err? {
      return Err(order.error);
    }
    var limit := LimitClause(args);
    var parts := QueryParts(select.value, fromPart, where, group.value, order.value, limit);
    return Ok(Join(" ", parts));
  }

  // ---------------------------------------------------------------------------
  // Agreement with the command builder's `build_sql_query`
  // ---------------------------------------------------------------------------

  /** Arguments both builders understand alike: a named table, a `select`
      and a `group_by` that are lists or single strings, no extra fields, no
      joined tables, no ordering, and a limit that is absent or a number. */
  predicate Plain(args: seq<(string, Json)>) {
    var table := GetOr(args, "table", Null);
    var select := GetOr(args, "select", Arr([Str("*")]));
    var groupBy := GetOr(args, "group_by", Arr([]));
    var limit := GetOr(args, "limit", Null);
    table.Str? && table.s != [] &&
    (select.Arr? || select.Str?) && (groupBy.Arr? || groupBy.Str?) &&
    Lookup(args, "extend_fields").None? && Lookup(args, "include_tables").None? &&
    Lookup(args, "order_by").None? && (limit.Null? || limit.Num?)
  }

  /** Joining a one-string list gives that string. */
  lemma JoinOne(v: Json)
    requires v.Str?
    ensures JoinText(", ", [v]) == Ok(v.s)
  {
    assert seq(1, i requires 0 <= i < 1 => [v][i].s) == [v.s];
  }

  /** `build_sql_query` joins a list and uses a single string as it is:
      the same as joining the one-item list. */
  lemma ListTextAsList(v: Json)
    requires v.Arr? || v.Str?
    ensures CommandBuilder.ListText(v) == JoinText(", ", AsList(v))
  {
    if v.Str? {
      JoinOne(v);
    }
  }

  /** Without `extend_fields` the columns are the `select` argument's. */
  lemma ColumnsWithoutExtend(args: seq<(string, Json)>, select: Json)
    requires Lookup(args, "extend_fields").None? && select == GetOr(args, "select", Arr([Str("*")]))
    ensures SelectColumns(args) == AsList(select)
  {
    assert GetOr(args, "extend_fields", Arr([])) == Arr([]);
  }

  lemma SelectAgrees(args: seq<(string, Json)>)
    requires Plain(args)
    ensures CommandBuilder.ListText(GetOr(args, "select", Arr([Str("*")]))) == JoinText(", ", SelectColumns(args))
  {
    var select := GetOr(args, "select", Arr([Str("*")]));
    ColumnsWithoutExtend(args, select);
    ListTextAsList(select);
  }

  /** The GROUP BY clauses of the two builders, for one `group_by` value. */
  lemma GroupValueAgrees(groupBy: Json)
    requires groupBy.Arr? || groupBy.Str?
    ensures CommandBuilder.GroupClause(groupBy) ==
      match GroupBy(groupBy) case Ok(g) => Ok(Spaced(g)) case Err(e) => Err(e)
  {
    if Truthy(groupBy) {
      if groupBy.Arr? {
        var j := JoinText(", ", groupBy.items);
        if j.Ok? {
          assert " " + ("GROUP BY " + j.value) == " GROUP BY " + j.value;
        }
      } else {
        assert " " + ("GROUP BY " + Show(groupBy)) == " GROUP BY " + Show(groupBy);
      }
    }
  }

  lemma GroupAgrees(args: seq<(string, Json)>)
    requires Plain(args)
    ensures CommandBuilder.GroupClause(GetOr(args, "group_by", Arr([]))) ==
      match GroupByClause(args) case Ok(g) => Ok(Spaced(g)) case Err(e) => Err(e)
  {
    GroupValueAgrees(GetOr(args, "group_by", Arr([])));
  }

  lemma WhereAgrees(args: seq<(string, Json)>)
    ensures Spaced(WhereClause(args)) == CommandBuilder.WhereClause(GetOr(args, "where", Null))
  {
    var where := GetOr(args, "where", Null);
    if Truthy(where) {
      assert " " + ("WHERE " + Show(where)) == " WHERE " + Show(where);
    }
  }

  lemma LimitAgrees(args: seq<(string, Json)>)
    requires GetOr(args, "limit", Null).Null? || GetOr(args, "limit", Null).Num?
    ensures GetOr(args, "limit", Null) == Null || GetOr(args, "limit", Null).n >= 0 ==>
      Spaced(LimitClause(args)) == CommandBuilder.LimitClause(GetOr(args, "limit", Null))
    ensures GetOr(args, "limit", Null).Num? && GetOr(args, "limit", Null).n < 0 ==>
      LimitClause(args).None? && CommandBuilder.LimitClause(GetOr(args, "limit", Null)) == " LIMIT " + IntToString(GetOr(args, "limit", Null).n)
  {
    var limit := GetOr(args, "limit", Null);
    if limit.Num? && limit.n > 0 {
      assert " " + ("LIMIT " + IntToString(limit.n)) == " LIMIT " + IntToString(limit.n);
    }
  }

  /** On plain arguments the two builders produce the same statement or the
      same error, except that only the command builder keeps a negative
      limit. */
  lemma BuildersAgree(args: seq<(string, Json)>)
    requires Plain(args)
    ensures GetOr(args, "limit", Null) == Null || GetOr(args, "limit", Null).n >= 0 ==>
      CommandBuilder.SqlQuery(args) == Query(args)
    ensures GetOr(args, "limit", Null).Num? && GetOr(args, "limit", Null).n < 0 ==>
      CommandBuilder.SqlQuery(args) == match Query(args)
        case Ok(q) => Ok(q + " LIMIT " + IntToString(GetOr(args, "limit", Null).n))
        case Err(e) => Err(e)
  {
    SelectAgrees(args);
    GroupAgrees(args);
    var select := JoinText(", ", SelectColumns(args));
    var group := GroupByClause(args);
    if select.Ok? && group.Ok? {
      PlainClauses(args);
      QueryShape(args, select.value, group.value);
      CommandShape(args, select.value, group.value);
      var body := Body(args, select.value, group.value);
      LimitAgrees(args);
      var l := CommandBuilder.LimitClause(GetOr(args, "limit", Null));
      if LimitClause(args).None? {
        assert body + "" == body;
        var limit := GetOr(args, "limit", Null);
        if limit.Num? && limit.n < 0 {
          assert body + l == body + " LIMIT " + IntToString(limit.n);
        }
      }
    } else if select.Err? {
      assert Query(args) == Err(select.error);
      assert CommandBuilder.SqlQuery(args) == Err(select.error);
    } else {
      assert Query(args) == Err(group.error);
      assert CommandBuilder.SqlQuery(args) == Err(group.error);
    }
  }

  /** The statement up to its LIMIT clause, on plain arguments. */
  function Body(args: seq<(string, Json)>, select: string, group: Option<string>): string {
    "SELECT " + select + " FROM " + Show(GetOr(args, "table", Null)) + Spaced(WhereClause(args)) + Spaced(group)
  }

  /** What plain arguments fix: a truthy table, no included tables and no
      ordering. */
  lemma PlainClauses(args: seq<(string, Json)>)
    requires Plain(args)
    ensures Truthy(GetOr(args, "table", Null))
    ensures FromClause(args) == "FROM " + Show(GetOr(args, "table", Null))
    ensures OrderByClause(args) == Ok(None)
    ensures CommandBuilder.OrderClause(GetOr(args, "order_by", Arr([]))) == ""
  {
    assert GetOr(args, "include_tables", Arr([])) == Arr([]);
    assert GetOr(args, "order_by", Arr([])) == Arr([]);
  }

  /** The parts joined without an ORDER BY clause. */
  lemma AssembleShape(select: string, table: string, where: Option<string>, group: Option<string>, limit: Option<string>)
    ensures Assemble("SELECT " + select, "FROM " + table, where, group, None, limit) ==
      "SELECT " + select + " FROM " + table + Spaced(where) + Spaced(group) + Spaced(limit)
  {
    var x := ("SELECT " + select) + " " + ("FROM " + table) + Spaced(where) + Spaced(group);
    assert x + "" == x;
    HeadsAgree(select, table);
  }

  lemma QueryShape(args: seq<(string, Json)>, select: string, group: Option<string>)
    requires Truthy(GetOr(args, "table", Null)) && OrderByClause(args) == Ok(None)
    requires FromClause(args) == "FROM " + Show(GetOr(args, "table", Null))
    requires JoinText(", ", SelectColumns(args)) == Ok(select) && GroupByClause(args) == Ok(group)
    ensures Query(args) == Ok(Body(args, select, group) + Spaced(LimitClause(args)))
  {
    var table := Show(GetOr(args, "table", Null));
    assert SelectClause(args) == Ok("SELECT " + select);
    assert Query(args) == Ok(Assemble("SELECT " + select, "FROM " + table, WhereClause(args), group, None, LimitClause(args)));
    AssembleShape(select, table, WhereClause(args), group, LimitClause(args));
  }

  lemma CommandShape(args: seq<(string, Json)>, select: string, group: Option<string>)
    requires CommandBuilder.OrderClause(GetOr(args, "order_by", Arr([]))) == ""
    requires CommandBuilder.ListText(GetOr(args, "select", Arr([Str("*")]))) == Ok(select)
    requires CommandBuilder.GroupClause(GetOr(args, "group_by", Arr([]))) == Ok(Spaced(group))
    ensures CommandBuilder.SqlQuery(args) == Ok(Body(args, select, group) + CommandBuilder.LimitClause(GetOr(args, "limit", Null)))
  {
    WhereAgrees(args);
    var head := "SELECT " + select + " FROM " + Show(GetOr(args, "table", Null)) + Spaced(WhereClause(args)) + Spaced(group);
    var l := CommandBuilder.LimitClause(GetOr(args, "limit", Null));
    assert CommandBuilder.SqlQuery(args) == Ok(head + "" + l);
    assert head + "" == head;
  }

  lemma HeadsAgree(select: string, table: string)
    ensures ("SELECT " + select) + " " + ("FROM " + table) == "SELECT " + select + " FROM " + table
  {
    assert " " + "FROM " == " FROM ";
  }

  /** `build_query_command`: the query, in double quotes, after the database
      and the output format; it is the command the direct client sends. */
  function QueryCommand(database: string, query: string, outputFormat: string): (r: string)
    ensures r == DirectClient.QueryCommand(database, query, outputFormat)
    ensures |r| >= |query| + 2 && r[|r| - |query| - 2..] == "\"" + query + "\""
  {
    var r := "sql " + database + " format = " + outputFormat + " \"" + query + "\"";
    var head := "sql " + database + " format = " + outputFormat + " ";
    assert |r| == |head| + |query| + 2;
    assert forall k :: 0 <= k < |query| + 2 ==> r[|head| + k] == ("\"" + query + "\"")[k];
    r
  }

  const DefaultFormat := "json"
}

=== FILE: query_executor.dfy ===
/** The query pipeline: validate through the engine's parser, pick streaming
    or batch execution, then fetch rows batch by batch through a cursor that
    is closed on every exit.

    The engine is an input: the return codes of `set_cursor` and
    `process_sql_stmt`, the saved error text, and the sequence of
    `(get_next, rows_data)` pairs `process_fetch_rows` hands back. Reading
    past the end of that sequence reads empty data. `json.loads` is the
    parameter `parse`, whose `Err` carries the decoder's message. */
module QueryExecutor {
  import opened Wrappers
  import opened Strings
  import opened Json

  // ---------------------------------------------------------------------------
  // Mode selection
  // ---------------------------------------------------------------------------

  const BatchIndicators: seq<string> := ["count(", "avg(", "sum(", "min(", "max(", "limit ", "group by"]

  /** `_select_mode`: "batch" exactly when the lower-cased query contains one
      of the indicators, "streaming" otherwise. */
  function SelectMode(sql: string): (mode: string)
    ensures mode == "batch" || mode == "streaming"
    ensures mode == "batch" <==> exists k :: 0 <= k < |BatchIndicators| && Contains(Lower(sql), BatchIndicators[k])
  {
    if exists k :: 0 <= k < |BatchIndicators| && Contains(Lower(sql), BatchIndicators[k]) then "batch" else "streaming"
  }

  lemma OccursIn(s: string, p: string, k: nat)
    requires k + |p| <= |s| && s[k..k + |p|] == p
    ensures Contains(s, p)
  {
    assert OccursAt(s, p, k);
  }

  /** A pattern with a character the text lacks does not occur in it. */
  lemma AbsentChar(s: string, p: string, j: nat)
    requires j < |p| && p[j] !in s
    ensures !Contains(s, p)
  {

  }

  /** An indicator found in the lower-cased query selects batch mode. */
  lemma BatchWhenFound(sql: string, k: nat, at: nat)
    requires k < |BatchIndicators|
    requires at + |BatchIndicators[k]| <= |Lower(sql)| && Lower(sql)[at..at + |BatchIndicators[k]|] == BatchIndicators[k]
    ensures SelectMode(sql) == "batch"
  {
    OccursIn(Lower(sql), BatchIndicators[k], at);
  }

  /** Lower-casing yields `c` only from `c` or its upper-case form. */
  lemma LowerLacks(s: string, c: char)
    requires c !in s && UpperChar(c) !in s
    ensures c !in Lower(s)
  {
    forall i | 0 <= i < |s|
      ensures Lower(s)[i] != c
    {
      assert s[i] != c && s[i] != UpperChar(c);
    }
  }

  const ScanQuery := "SELECT * FROM test_table"

  /** The full-scan query has no '(', 'i' or 'g' in either case, so neither
      has its lower-cased form. */
  lemma ScanLacksParen()
    ensures '(' !in Lower(ScanQuery)
  {
    assert '(' !in ScanQuery;
    LowerLacks(ScanQuery, '(');
  }

  lemma ScanLacksI()
    ensures 'i' !in Lower(ScanQuery)
  {
    assert 'i' !in ScanQuery && 'I' !in ScanQuery;
    LowerLacks(ScanQuery, 'i');
  }

  lemma ScanLacksG()
    ensures 'g' !in Lower(ScanQuery)
  {
    assert 'g' !in ScanQuery && 'G' !in ScanQuery;
    LowerLacks(ScanQuery, 'g');
  }

  /** Lower-casing works character by character, so it commutes with
      slicing. */
  lemma LowerSlice(s: string, i: nat, j: nat)
    requires i <= j <= |s|
    ensures Lower(s)[i..j] == Lower(s[i..j])
  {
  }

  /** The text between two parts of a three-part string is the middle part. */
  lemma MiddleSlice(a: string, b: string, c: string)
    ensures (a + b + c)[|a|..|a| + |b|] == b
  {
  }

  /** The aggregate and the LIMIT query of the auto-mode test, written as the
      text around the indicator they contain. */
  const CountQuery := "SELECT " + "COUNT(" + "*) FROM test_table"
  const LimitQuery := "SELECT * FROM test_table " + "LIMIT " + "10"

  lemma CountAt7()
    ensures Lower(CountQuery)[7..13] == "count("
  {
    MiddleSlice("SELECT ", "COUNT(", "*) FROM test_table");
    LowerSlice(CountQuery, 7, 13);
    var w := Lower("COUNT(");
    assert w[0] == 'c' && w[1] == 'o' && w[2] == 'u' && w[3] == 'n' && w[4] == 't' && w[5] == '(';
  }

  lemma LimitAt25()
    ensures Lower(LimitQuery)[25..31] == "limit "
  {
    MiddleSlice("SELECT * FROM test_table ", "LIMIT ", "10");
    LowerSlice(LimitQuery, 25, 31);
    var w := Lower("LIMIT ");
    assert w[0] == 'l' && w[1] == 'i' && w[2] == 'm' && w[3] == 'i' && w[4] == 't' && w[5] == ' ';
  }

  /** The three queries of the auto-mode test: an aggregate, a full scan and
      a LIMIT query. */
  lemma SelectModeCount()
    ensures SelectMode(CountQuery) == "batch"
  {
    CountAt7();
    BatchWhenFound(CountQuery, 0, 7);
  }

  lemma SelectModeLimit()
    ensures SelectMode(LimitQuery) == "batch"
  {
    LimitAt25();
    BatchWhenFound(LimitQuery, 5, 25);
  }

  lemma SelectModeScan()
    ensures SelectMode(ScanQuery) == "streaming"
  {
    var sql := ScanQuery;
    var q := Lower(sql);
    ScanLacksParen();
    ScanLacksI();
    ScanLacksG();
    forall k | 0 <= k < |BatchIndicators| ensures !Contains(q, BatchIndicators[k]) {
      if k < 5 {
        AbsentChar(q, BatchIndicators[k], |BatchIndicators[k]| - 1);
      } else if k == 5 {
        AbsentChar(q, BatchIndicators[k], 1);
      } else {
        AbsentChar(q, BatchIndicators[k], 0);
      }
    }
  }

  // ---------------------------------------------------------------------------
  // Validation
  // ---------------------------------------------------------------------------

  /** What `select_parser` did: returned a code, the table and the rewritten
      SQL (with the status object's saved error), or raised. */
  datatype ParserRun =
    | Returned(retVal: int, tableName: string, validatedSql: string, savedError: string)
    | Raised(message: string)

  /** The dictionary `validate_query` returns, without the parser object. */
  datatype Validation = Validated(tableName: string, validatedSql: string) | Invalid(error: string)

  /** `validate_query`: code 0 validates and carries the table and SQL; any
      other code gives the saved error or the code; an exception gives its text. */
  function ValidateQuery(run: ParserRun): (v: Validation)
    ensures run.Raised? ==> v == Invalid(run.message)
    ensures run.Returned? && run.retVal == 0 ==> v == Validated(run.tableName, run.validatedSql)
    ensures run.Returned? && run.retVal != 0 ==> (v.Invalid? &&
      v.error == if run.savedError != "" then run.savedError else "Query validation failed with code " + IntToString(run.retVal))
  {
    match run
    case Raised(message) => Invalid(message)
    case Returned(retVal, tableName, validatedSql, savedError) =>
      if retVal != 0 then
        Invalid(if savedError != "" then savedError else "Query validation failed with code " + IntToString(retVal))
      else Validated(tableName, validatedSql)
  }

  // ---------------------------------------------------------------------------
  // One fetched batch
  // ---------------------------------------------------------------------------

  datatype Fetch = Fetch(getNext: bool, data: string)

  datatype Engine = Engine(setCursor: int, sqlStmt: int, savedError: string, fetches: seq<Fetch>)

  /** `json.loads(rows_data).get("Query", [])`: an undecodable batch is the
      wrapped "Failed to parse query results" error; a decoded non-object has
      no `get`. */
  function QueryValue(data: string, parse: string -> Result<Json>): (r: Result<Json>)
    ensures parse(data).Err? ==> r == Err("Failed to parse query results: " + parse(data).error)
    ensures parse(data).Ok? && parse(data).value.Obj? ==> r == Ok(GetOr(parse(data).value.fields, "Query", Arr([])))
    ensures parse(data).Ok? && !parse(data).value.Obj? ==> r.Err?
  {
    match parse(data)
    case Err(e) => Err("Failed to parse query results: " + e)
    case Ok(j) =>
      if j.Obj? then Ok(GetOr(j.fields, "Query", Arr([])))
      else Err("'" + TypeName(j) + "' object has no attribute 'get'")
  }

  /** What iterating over `v` yields: the items of a list, the keys of a
      dict, the characters of a string; `None` for values with no length. */
  function Elements(v: Json): Option<seq<Json>> {
    match v
    case Arr(items) => Some(items)
    case Obj(fields) => Some(KeyStrings(fields))
    case Str(s) => Some(CharStrings(s))
    case _ => None
  }

  /** The keys of a dict, each as a string value. */
  function KeyStrings(fields: seq<(string, Json)>): (keys: seq<Json>)
    ensures |keys| == |fields|
    ensures forall i :: 0 <= i < |fields| ==> keys[i] == Str(fields[i].0)
  {
    if fields == [] then [] else [Str(fields[0].0)] + KeyStrings(fields[1..])
  }

  /** The characters of a string, each as a one-character string value. */
  function CharStrings(s: string): (chars: seq<Json>)
    ensures |chars| == |s|
    ensures forall i :: 0 <= i < |s| ==> chars[i] == Str([s[i]])
  {
    if s == [] then [] else [Str([s[0]])] + CharStrings(s[1..])
  }

  /** How one fetched batch is handled: the loop ends, raises, or has rows. */
  datatype Step = End | Fail(error: string) | Got(value: Json, elements: seq<Json>)

  /** The streaming loop's view of one batch: blank data and an empty row
      value both end the loop; a value without a length raises. */
  function StreamStep(data: string, parse: string -> Result<Json>): (r: Step)
    ensures r.Got? ==> |r.elements| > 0 && Elements(r.value) == Some(r.elements)
    ensures Blank(data) ==> r == End
  {
    if Blank(data) then End
    else match QueryValue(data, parse)
      case Err(e) => Fail(e)
      case Ok(v) =>
        if !Truthy(v) then End
        else match Elements(v)
          case None => Fail("object of type '" + TypeName(v) + "' has no len()")
          case Some(es) => Got(v, es)
  }

  // ---------------------------------------------------------------------------
  // Streaming
  // ---------------------------------------------------------------------------

  /** What the streaming generator yields. */
  datatype Unit = Data(rows: Json, rowCount: nat) | Complete(totalRows: nat)

  /** Everything yielded, then the exception that ended the stream if any. */
  datatype Stream = Stream(units: seq<Unit>, failure: Option<string>)

  function Prepend(u: Unit, s: Stream): Stream {
    Stream([u] + s.units, s.failure)
  }

  /** `units` already yielded, followed by the stream `s`. */
  function After(units: seq<Unit>, s: Stream): Stream {
    Stream(units + s.units, s.failure)
  }

  function FetchAt(fs: seq<Fetch>, i: nat): Fetch {
    if i < |fs| then fs[i] else Fetch(false, "")
  }

  /** The step of fetch `i` among `steps`; past the last fetch the data is
      blank, which ends either loop. */
  function StepAt(steps: seq<Step>, i: nat): Step {
    if i < |steps| then steps[i] else End
  }

  /** How the streaming loop reads each fetched batch. */
  function StreamSteps(fs: seq<Fetch>, parse: string -> Result<Json>): (steps: seq<Step>)
    ensures |steps| == |fs|
    ensures forall i :: 0 <= i < |fs| ==> steps[i] == StreamStep(fs[i].data, parse)
    ensures StreamedSteps(steps)
  {
    seq(|fs|, i requires 0 <= i < |fs| => StreamStep(fs[i].data, parse))
  }

  lemma StreamStepAt(fs: seq<Fetch>, parse: string -> Result<Json>, i: nat)
    ensures StepAt(StreamSteps(fs, parse), i) == StreamStep(FetchAt(fs, i).data, parse)
  {
    if i >= |fs| {
      assert Blank("");
    }
  }

  /** The fetch loop of `execute_streaming` from fetch `i`, with `total` rows
      counted so far; `steps` are the fetches as the loop reads them. */
  function StreamFrom(fs: seq<Fetch>, steps: seq<Step>, i: nat, total: nat): Stream
    decreases |fs| - i
  {
    match StepAt(steps, i)
    case End => Stream([Complete(total)], None)
    case Fail(e) => Stream([], Some(e))
    case Got(v, es) =>
      if !FetchAt(fs, i).getNext || i >= |fs| then Stream([Data(v, |es|), Complete(total + |es|)], None)
      else Prepend(Data(v, |es|), StreamFrom(fs, steps, i + 1, total + |es|))
  }

  /** `set_cursor` / `process_sql_stmt` failures. */
  function CursorError(e: Engine): Option<string> {
    if e.setCursor != 0 then
      Some(if e.savedError != "" then e.savedError else "Failed to set cursor (code " + IntToString(e.setCursor) + ")")
    else if e.sqlStmt != 0 then
      Some(if e.savedError != "" then e.savedError else "Query execution failed (code " + IntToString(e.sqlStmt) + ")")
    else None
  }

  /** `execute_streaming`, consumed to the end. */
  function Streaming(e: Engine, parse: string -> Result<Json>): Stream {
    match CursorError(e)
    case Some(msg) => Stream([], Some(msg))
    case None => StreamFrom(e.fetches, StreamSteps(e.fetches, parse), 0, 0)
  }

  function RowTotal(units: seq<Unit>): nat {
    if units == [] then 0 else RowTotal(units[..|units| - 1]) + (if units[|units| - 1].Data? then units[|units| - 1].rowCount else 0)
  }

  predicate DataUnits(units: seq<Unit>) {
    forall k :: 0 <= k < |units| ==> units[k].Data? && units[k].rowCount > 0
  }

  lemma RowTotalCons(u: Unit, units: seq<Unit>)
    ensures RowTotal([u] + units) == (if u.Data? then u.rowCount else 0) + RowTotal(units)
    decreases |units|
  {
    if units != [] {
      assert ([u] + units)[..|units|] == [u] + units[..|units| - 1];
      RowTotalCons(u, units[..|units| - 1]);
    }
  }

  /** A stream that ends normally is non-empty data units followed by one
      `complete` unit whose total is `total` plus their row counts; a stream
      that fails yields non-empty data units only. */
  predicate WellShaped(s: Stream, total: nat) {
    (s.failure.None? ==>
       |s.units| > 0 && DataUnits(s.units[..|s.units| - 1]) &&
       s.units[|s.units| - 1] == Complete(total + RowTotal(s.units[..|s.units| - 1]))) &&
    (s.failure.Some? ==> DataUnits(s.units))
  }

  /** A non-empty data unit in front of a well-shaped stream keeps it so. */
  lemma ShapePrepend(u: Unit, rest: Stream, total: nat)
    requires u.Data? && u.rowCount > 0 && WellShaped(rest, total + u.rowCount)
    ensures WellShaped(Prepend(u, rest), total)
  {
    var s := Prepend(u, rest);
    if s.failure.None? {
      var body := rest.units[..|rest.units| - 1];
      assert s.units[..|s.units| - 1] == [u] + body;
      RowTotalCons(u, body);
    }
  }

  /** Steps as the streaming loop reads them: every step with rows has at
      least one, and they are the elements of its value. */
  predicate StreamedSteps(steps: seq<Step>) {
    forall k :: 0 <= k < |steps| && steps[k].Got? ==>
      |steps[k].elements| > 0 && Elements(steps[k].value) == Some(steps[k].elements)
  }

  /** One turn of the streaming loop, as `StreamFrom` takes it. */
  lemma StreamFromStep(fs: seq<Fetch>, steps: seq<Step>, i: nat, total: nat)
    ensures var step := StepAt(steps, i);
      (step.End? ==> StreamFrom(fs, steps, i, total) == Stream([Complete(total)], None)) &&
      (step.Fail? ==> StreamFrom(fs, steps, i, total) == Stream([], Some(step.error))) &&
      (step.Got? && (!FetchAt(fs, i).getNext || i >= |fs|) ==>
        StreamFrom(fs, steps, i, total) ==
        Stream([Data(step.value, |step.elements|), Complete(total + |step.elements|)], None)) &&
      (step.Got? && FetchAt(fs, i).getNext && i < |fs| ==>
        StreamFrom(fs, steps, i, total) ==
        Prepend(Data(step.value, |step.elements|), StreamFrom(fs, steps, i + 1, total + |step.elements|)))
  {
  }

  /** The fetch loop yields a well-shaped stream. */
  lemma {:induction false} StreamShape(fs: seq<Fetch>, steps: seq<Step>, i: nat, total: nat)
    requires StreamedSteps(steps)
    ensures WellShaped(StreamFrom(fs, steps, i, total), total)
    decreases |fs| - i
  {
    var step := StepAt(steps, i);
    StreamFromStep(fs, steps, i, total);
    if step.Got? {
      var n := |step.elements|;
      var unit := Data(step.value, n);
      if !FetchAt(fs, i).getNext || i >= |fs| {
        var last := Stream([Complete(total + n)], None);
        assert last.units[..0] == [];
        ShapePrepend(unit, last, total);
        assert Prepend(unit, last) == StreamFrom(fs, steps, i, total);
      } else {
        StreamShape(fs, steps, i + 1, total + n);
        ShapePrepend(unit, StreamFrom(fs, steps, i + 1, total + n), total);
      }
    }
  }

  /** Whatever the engine returns, `execute_streaming` yields non-empty data
      units and, unless it raises, one final `complete` unit carrying the sum
      of their row counts. */
  lemma StreamingShape(e: Engine, parse: string -> Result<Json>)
    ensures WellShaped(Streaming(e, parse), 0)
  {
    if CursorError(e).None? {
      StreamShape(e.fetches, StreamSteps(e.fetches, parse), 0, 0);
    }
  }

  /** A closable `CursorInfo`; `closes` counts calls to `close_cursor`. */
  class Cursor {
    var closes: nat

    constructor ()
      ensures closes == 0
    {
      closes := 0;
    }

    /** `close_cursor`, whose failure the executors swallow. */
    method Close()
      modifies this
      ensures closes == old(closes) + 1
    {
      closes := closes + 1;
    }
  }

  /** `execute_streaming`: the fetch loop yields one data unit per non-empty
      batch, counting rows as it goes; the cursor is closed exactly once
      however the loop ends. */
  method ExecuteStreaming(e: Engine, parse: string -> Result<Json>) returns (s: Stream, cursor: Cursor)
    ensures s == Streaming(e, parse)
    ensures fresh(cursor) && cursor.closes == 1
  {
    cursor := new Cursor();
    var failed := CursorError(e);
    if failed.Some? {
      s := Stream([], failed);
      cursor.Close();
      return;
    }
    s := FetchStream(e.fetches, parse);
    cursor.Close();
  }

  /** `whole` is the stream `units` already yielded followed by the rest
      of the loop from fetch `i`. */
  predicate Yielded(whole: Stream, units: seq<Unit>, fs: seq<Fetch>, steps: seq<Step>, i: nat, total: nat) {
    whole == After(units, StreamFrom(fs, steps, i, total))
  }

  // One turn of the streaming loop, by the step of fetch `i`.

  lemma TurnEnd(fs: seq<Fetch>, steps: seq<Step>, i: nat, total: nat, units: seq<Unit>, whole: Stream)
    requires Yielded(whole, units, fs, steps, i, total) && StepAt(steps, i).End?
    ensures whole == Stream(units + [Complete(total)], None)
  {
  }

  lemma TurnFail(fs: seq<Fetch>, steps: seq<Step>, i: nat, total: nat, units: seq<Unit>, whole: Stream, error: string)
    requires Yielded(whole, units, fs, steps, i, total) && StepAt(steps, i) == Fail(error)
    ensures whole == Stream(units, Some(error))
  {
    assert units + [] == units;
  }

  lemma TurnLast(fs: seq<Fetch>, steps: seq<Step>, i: nat, total: nat, units: seq<Unit>, whole: Stream, step: Step)
    requires Yielded(whole, units, fs, steps, i, total)
    requires StepAt(steps, i) == step && step.Got? && (!FetchAt(fs, i).getNext || i >= |fs|)
    ensures whole == Stream(units + [Data(step.value, |step.elements|)] + [Complete(total + |step.elements|)], None)
  {
    var d, c := Data(step.value, |step.elements|), Complete(total + |step.elements|);
    assert units + [d, c] == units + [d] + [c];
  }

  lemma TurnMore(fs: seq<Fetch>, steps: seq<Step>, i: nat, total: nat, units: seq<Unit>, whole: Stream, step: Step)
    requires Yielded(whole, units, fs, steps, i, total)
    requires StepAt(steps, i) == step && step.Got? && FetchAt(fs, i).getNext && i < |fs|
    ensures Yielded(whole, units + [Data(step.value, |step.elements|)], fs, steps, i + 1, total + |step.elements|)
  {
    var d := Data(step.value, |step.elements|);
    var rest := StreamFrom(fs, steps, i + 1, total + |step.elements|);
    assert units + ([d] + rest.units) == (units + [d]) + rest.units;
  }

  /** The `while True` fetch loop of `execute_streaming`. */
  method FetchStream(fs: seq<Fetch>, parse: string -> Result<Json>) returns (s: Stream)
    ensures s == StreamFrom(fs, StreamSteps(fs, parse), 0, 0)
  {
    ghost var steps := StreamSteps(fs, parse);
    ghost var whole := StreamFrom(fs, steps, 0, 0);
    var units: seq<Unit> := [];
    var total: nat := 0;
    var i := 0;
    assert units + whole.units == whole.units;
    while true
      invariant Yielded(whole, units, fs, steps, i, total)
      decreases |fs| - i
    {
      var f := FetchAt(fs, i);
      var step := StreamStep(f.data, parse);
      StreamStepAt(fs, parse, i);
      if step.End? {
        TurnEnd(fs, steps, i, total, units, whole);
        return Stream(units + [Complete(total)], None);
      }
      if step.Fail? {
        TurnFail(fs, steps, i, total, units, whole, step.error);
        return Stream(units, Some(step.error));
      }
      if !f.getNext || i >= |fs| {
        TurnLast(fs, steps, i, total, units, whole, step);
        return Stream(units + [Data(step.value, |step.elements|)] + [Complete(total + |step.elements|)], None);
      }
      TurnMore(fs, steps, i, total, units, whole, step);
      units := units + [Data(step.value, |step.elements|)];
      total := total + |step.elements|;
      i := i + 1;
    }
  }

  // ---------------------------------------------------------------------------
  // Batch
  // ---------------------------------------------------------------------------

  /** The batch loop's view of one batch: blank data ends the loop; an empty
      row value is skipped (no rows, loop goes on); a value that cannot be
      iterated raises. */
  function BatchStep(data: string, parse: string -> Result<Json>): (r: Step)
    ensures r.Got? ==> (Truthy(r.value) ==> Elements(r.value) == Some(r.elements)) && (!Truthy(r.value) ==> r.elements == [])
    ensures Blank(data) ==> r == End
  {
    if Blank(data) then End
    else match QueryValue(data, parse)
      case Err(e) => Fail(e)
      case Ok(v) =>
        if !Truthy(v) then Got(v, [])
        else match Elements(v)
          case None => Fail("'" + TypeName(v) + "' object is not iterable")
          case Some(es) => Got(v, es)
  }

  /** How the batch loop reads each fetched batch. */
  function BatchSteps(fs: seq<Fetch>, parse: string -> Result<Json>): (steps: seq<Step>)
    ensures |steps| == |fs|
    ensures forall i :: 0 <= i < |fs| ==> steps[i] == BatchStep(fs[i].data, parse)
  {
    seq(|fs|, i requires 0 <= i < |fs| => BatchStep(fs[i].data, parse))
  }

  /** The fetch loop of `execute_batch` from fetch `i`, with `rows` collected
      so far; `steps` are the fetches as the loop reads them. */
  function BatchFrom(fs: seq<Fetch>, steps: seq<Step>, i: nat, rows: seq<Json>): Result<seq<Json>>
    decreases |fs| - i
  {
    match StepAt(steps, i)
    case End => Ok(rows)
    case Fail(e) => Err(e)
    case Got(_, es) =>
      if !FetchAt(fs, i).getNext || i >= |fs| then Ok(rows + es)
      else BatchFrom(fs, steps, i + 1, rows + es)
  }

  /** The dictionary `execute_batch` returns. */
  function BatchReply(rows: seq<Json>): (j: Json)
    ensures j.Obj? && Lookup(j.fields, "success") == Some(Bool(true))
    ensures Lookup(j.fields, "rows") == Some(Arr(rows))
    ensures Lookup(j.fields, "total_rows") == Some(Num(|rows|))
  {
    var fields := [("success", Bool(true)), ("rows", Arr(rows)), ("total_rows", Num(|rows|))];
    LookupAt(fields, 0, "success");
    LookupAt(fields, 1, "rows");
    LookupAt(fields, 2, "total_rows");
    Obj(fields)
  }

  /** The rows `execute_batch` collects, or the error it raises. */
  function BatchRows(e: Engine, parse: string -> Result<Json>): Result<seq<Json>> {
    match CursorError(e)
    case Some(msg) => Err(msg)
    case None => BatchFrom(e.fetches, BatchSteps(e.fetches, parse), 0, [])
  }

  /** `execute_batch`. */
  function Batch(e: Engine, parse: string -> Result<Json>): Result<Json> {
    match BatchRows(e, parse)
    case Err(msg) => Err(msg)
    case Ok(rows) => Ok(BatchReply(rows))
  }

  /** One turn of the batch loop, as `BatchFrom` takes it. */
  lemma BatchFromStep(fs: seq<Fetch>, steps: seq<Step>, i: nat, rows: seq<Json>)
    ensures var step := StepAt(steps, i);
      (step.End? ==> BatchFrom(fs, steps, i, rows) == Ok(rows)) &&
      (step.Fail? ==> BatchFrom(fs, steps, i, rows) == Err(step.error)) &&
      (step.Got? && (!FetchAt(fs, i).getNext || i >= |fs|) ==> BatchFrom(fs, steps, i, rows) == Ok(rows + step.elements)) &&
      (step.Got? && FetchAt(fs, i).getNext && i < |fs| ==>
        BatchFrom(fs, steps, i, rows) == BatchFrom(fs, steps, i + 1, rows + step.elements))
  {
  }

  /** Batches only ever add rows after those already collected. */
  lemma {:induction false} BatchExtends(fs: seq<Fetch>, steps: seq<Step>, i: nat, rows: seq<Json>)
    ensures BatchFrom(fs, steps, i, rows).Ok? ==> rows <= BatchFrom(fs, steps, i, rows).value
    decreases |fs| - i
  {
    var step := StepAt(steps, i);
    BatchFromStep(fs, steps, i, rows);
    if step.Got? && FetchAt(fs, i).getNext && i < |fs| {
      BatchExtends(fs, steps, i + 1, rows + step.elements);
    }
  }

  /** The rows of one unit. */
  function UnitRows(u: Unit): seq<Json> {
    if u.Data? && Elements(u.rows).Some? then Elements(u.rows).value else []
  }

  /** The rows of the data units, in order. */
  function StreamedRows(units: seq<Unit>): seq<Json> {
    if units == [] then [] else UnitRows(units[0]) + StreamedRows(units[1..])
  }

  lemma StreamedRowsCons(u: Unit, units: seq<Unit>)
    ensures StreamedRows([u] + units) == UnitRows(u) + StreamedRows(units)
  {
    assert ([u] + units)[1..] == units;
  }

  /** How the two loops read the same fetch: a batch the streaming loop takes
      rows from, the batch loop takes the same rows from; where the streaming
      loop stops, the batch loop stops or skips an empty batch. */
  predicate Agree(s: Step, b: Step) {
    (s.Got? ==> b == s) && (s.End? ==> b.End? || (b.Got? && b.elements == []))
  }

  predicate AllAgree(ss: seq<Step>, bs: seq<Step>) {
    |ss| == |bs| && forall k :: 0 <= k < |ss| ==> Agree(ss[k], bs[k])
  }

  lemma StepsAgree(fs: seq<Fetch>, parse: string -> Result<Json>)
    ensures AllAgree(StreamSteps(fs, parse), BatchSteps(fs, parse))
  {
  }

  /** A stream that ends normally ends in a `complete` unit counting exactly
      the rows it streamed. */
  predicate CountsRows(units: seq<Unit>, total: nat) {
    |units| > 0 && units[|units| - 1] == Complete(total + |StreamedRows(units)|)
  }

  /** A data unit in front of units that end in the count of their own
      rows: the count then covers the unit's rows as well. */
  lemma CompleteCons(u: Unit, units: seq<Unit>, total: nat)
    requires CountsRows(units, total + |UnitRows(u)|)
    ensures CountsRows([u] + units, total)
  {
    StreamedRowsCons(u, units);
  }

  lemma CountsEnd(fs: seq<Fetch>, steps: seq<Step>, i: nat, total: nat)
    requires StepAt(steps, i).End?
    ensures CountsRows(StreamFrom(fs, steps, i, total).units, total)
  {
    assert StreamFrom(fs, steps, i, total).units == [Complete(total)];
    StreamedRowsCons(Complete(total), []);
    assert [Complete(total)] + [] == [Complete(total)];
  }

  lemma CountsLast(fs: seq<Fetch>, steps: seq<Step>, i: nat, total: nat)
    requires StreamedSteps(steps)
    requires StepAt(steps, i).Got? && (!FetchAt(fs, i).getNext || i >= |fs|)
    ensures CountsRows(StreamFrom(fs, steps, i, total).units, total)
  {
    var step := StepAt(steps, i);
    var es := step.elements;
    var unit, last := Data(step.value, |es|), Complete(total + |es|);
    assert StreamFrom(fs, steps, i, total).units == [unit] + [last];
    assert UnitRows(unit) == es;
    StreamedRowsCons(last, []);
    assert [last] + [] == [last];
    CompleteCons(unit, [last], total);
  }

  lemma CountsMore(fs: seq<Fetch>, steps: seq<Step>, i: nat, total: nat)
    requires StreamedSteps(steps)
    requires StepAt(steps, i).Got? && FetchAt(fs, i).getNext && i < |fs|
    requires CountsRows(StreamFrom(fs, steps, i + 1, total + |StepAt(steps, i).elements|).units, total + |StepAt(steps, i).elements|)
    ensures CountsRows(StreamFrom(fs, steps, i, total).units, total)
  {
    var step := StepAt(steps, i);
    var es := step.elements;
    var unit := Data(step.value, |es|);
    var rest := StreamFrom(fs, steps, i + 1, total + |es|).units;
    assert UnitRows(unit) == es;
    StreamFromMore(fs, steps, i, total);
    CompleteCons(unit, rest, total);
  }

  lemma {:induction false} StreamCountsRows(fs: seq<Fetch>, steps: seq<Step>, i: nat, total: nat)
    requires StreamedSteps(steps)
    requires StreamFrom(fs, steps, i, total).failure.None?
    ensures CountsRows(StreamFrom(fs, steps, i, total).units, total)
    decreases |fs| - i
  {
    var step := StepAt(steps, i);
    if step.End? {
      CountsEnd(fs, steps, i, total);
    } else if step.Fail? {
      assert false;
    } else if !FetchAt(fs, i).getNext || i >= |fs| {
      CountsLast(fs, steps, i, total);
    } else {
      assert StreamFrom(fs, steps, i, total).failure == StreamFrom(fs, steps, i + 1, total + |step.elements|).failure;
      StreamCountsRows(fs, steps, i + 1, total + |step.elements|);
      CountsMore(fs, steps, i, total);
    }
  }

  // The turns of `StreamFromPrefixOfBatchFrom`, one lemma per step of fetch `i`.

  lemma PrefixEnd(fs: seq<Fetch>, ss: seq<Step>, bs: seq<Step>, i: nat, total: nat, rows: seq<Json>)
    requires AllAgree(ss, bs) && StepAt(ss, i).End? && BatchFrom(fs, bs, i, rows).Ok?
    ensures rows + StreamedRows(StreamFrom(fs, ss, i, total).units) <= BatchFrom(fs, bs, i, rows).value
  {
    StreamFromStep(fs, ss, i, total);
    BatchExtends(fs, bs, i, rows);
    StreamedRowsCons(Complete(total), []);
    assert [Complete(total)] + [] == [Complete(total)];
    assert rows + [] == rows;
  }

  lemma PrefixLast(fs: seq<Fetch>, ss: seq<Step>, bs: seq<Step>, i: nat, total: nat, rows: seq<Json>)
    requires StreamedSteps(ss) && AllAgree(ss, bs)
    requires StepAt(ss, i).Got? && (!FetchAt(fs, i).getNext || i >= |fs|)
    ensures BatchFrom(fs, bs, i, rows) == Ok(rows + StepAt(ss, i).elements)
    ensures rows + StreamedRows(StreamFrom(fs, ss, i, total).units) == rows + StepAt(ss, i).elements
  {
    var step := StepAt(ss, i);
    var es := step.elements;
    assert StepAt(bs, i) == step;
    StreamFromStep(fs, ss, i, total);
    BatchFromStep(fs, bs, i, rows);
    var unit, last := Data(step.value, |es|), Complete(total + |es|);
    assert UnitRows(unit) == es;
    StreamedRowsCons(last, []);
    StreamedRowsCons(unit, [last]);
    assert [last] + [] == [last];
    assert es + [] == es;
  }

  lemma PrefixMore(fs: seq<Fetch>, ss: seq<Step>, bs: seq<Step>, i: nat, total: nat, rows: seq<Json>)
    requires StreamedSteps(ss) && AllAgree(ss, bs)
    requires StepAt(ss, i).Got? && FetchAt(fs, i).getNext && i < |fs|
    requires var es := StepAt(ss, i).elements;
      BatchFrom(fs, bs, i + 1, rows + es).Ok? &&
      (rows + es) + StreamedRows(StreamFrom(fs, ss, i + 1, total + |es|).units) <= BatchFrom(fs, bs, i + 1, rows + es).value
    ensures BatchFrom(fs, bs, i, rows).Ok?
    ensures rows + StreamedRows(StreamFrom(fs, ss, i, total).units) <= BatchFrom(fs, bs, i, rows).value
  {
    var step := StepAt(ss, i);
    var es := step.elements;
    assert StepAt(bs, i) == step;
    var unit := Data(step.value, |es|);
    var rest := StreamFrom(fs, ss, i + 1, total + |es|);
    StreamFromMore(fs, ss, i, total);
    BatchFromMore(fs, bs, i, rows);
    assert UnitRows(unit) == es;
    StreamedRowsCons(unit, rest.units);
    AppendPrefix(rows, es, StreamedRows(rest.units), BatchFrom(fs, bs, i + 1, rows + es).value);
  }

  lemma StreamFromMore(fs: seq<Fetch>, steps: seq<Step>, i: nat, total: nat)
    requires StepAt(steps, i).Got? && FetchAt(fs, i).getNext && i < |fs|
    ensures var step := StepAt(steps, i);
      StreamFrom(fs, steps, i, total).units ==
      [Data(step.value, |step.elements|)] + StreamFrom(fs, steps, i + 1, total + |step.elements|).units
  {
  }

  lemma BatchFromMore(fs: seq<Fetch>, steps: seq<Step>, i: nat, rows: seq<Json>)
    requires StepAt(steps, i).Got? && FetchAt(fs, i).getNext && i < |fs|
    ensures BatchFrom(fs, steps, i, rows) == BatchFrom(fs, steps, i + 1, rows + StepAt(steps, i).elements)
  {
  }

  lemma AppendPrefix(rows: seq<Json>, es: seq<Json>, more: seq<Json>, batch: seq<Json>)
    requires (rows + es) + more <= batch
    ensures rows + (es + more) <= batch
  {
    assert rows + (es + more) == (rows + es) + more;
  }

  /** Streaming and batch loops over agreeing steps: the rows streamed
      extend the rows collected so far to a prefix of the batch result. */
  lemma {:induction false} StreamFromPrefixOfBatchFrom(fs: seq<Fetch>, ss: seq<Step>, bs: seq<Step>, i: nat, total: nat, rows: seq<Json>)
    requires StreamedSteps(ss) && AllAgree(ss, bs)
    requires StreamFrom(fs, ss, i, total).failure.None? && BatchFrom(fs, bs, i, rows).Ok?
    ensures rows + StreamedRows(StreamFrom(fs, ss, i, total).units) <= BatchFrom(fs, bs, i, rows).value
    decreases |fs| - i
  {
    var step := StepAt(ss, i);
    StreamFromStep(fs, ss, i, total);
    if step.End? {
      PrefixEnd(fs, ss, bs, i, total, rows);
    } else if step.Fail? {
      assert false;
    } else if !FetchAt(fs, i).getNext || i >= |fs| {
      PrefixLast(fs, ss, bs, i, total, rows);
    } else {
      var es := step.elements;
      assert StepAt(bs, i) == step;
      BatchFromStep(fs, bs, i, rows);
      StreamFromPrefixOfBatchFrom(fs, ss, bs, i + 1, total + |es|, rows + es);
      PrefixMore(fs, ss, bs, i, total, rows);
    }
  }

  /** On the same engine, when neither executor raises, the rows streaming
      delivers are a prefix of the rows batch mode returns (streaming stops at
      the first empty batch, batch mode skips it), and the final `complete`
      unit counts exactly the rows streamed. */
  lemma StreamingIsPrefixOfBatch(e: Engine, parse: string -> Result<Json>)
    requires Streaming(e, parse).failure.None? && BatchRows(e, parse).Ok?
    ensures StreamedRows(Streaming(e, parse).units) <= BatchRows(e, parse).value
    ensures var u := Streaming(e, parse).units; |u| > 0 && u[|u| - 1] == Complete(|StreamedRows(u)|)
  {
    var ss, bs := StreamSteps(e.fetches, parse), BatchSteps(e.fetches, parse);
    StepsAgree(e.fetches, parse);
    StreamFromPrefixOfBatchFrom(e.fetches, ss, bs, 0, 0, []);
    assert [] + StreamedRows(Streaming(e, parse).units) == StreamedRows(Streaming(e, parse).units);
    StreamCountsRows(e.fetches, ss, 0, 0);
  }

  /** `execute_batch`: every non-empty batch's rows are appended in order and
      empty batches are skipped; the cursor is closed exactly once. */
  method ExecuteBatch(e: Engine, parse: string -> Result<Json>) returns (r: Result<Json>, cursor: Cursor)
    ensures r == Batch(e, parse)
    ensures fresh(cursor) && cursor.closes == 1
  {
    cursor := new Cursor();
    var failed := CursorError(e);
    if failed.Some? {
      r := Err(failed.value);
      cursor.Close();
      return;
    }
    var rows := FetchBatches(e.fetches, parse);
    r := if rows.Ok? then Ok(BatchReply(rows.value)) else Err(rows.error);
    cursor.Close();
  }

  /** The `while True` fetch loop of `execute_batch`. */
  method FetchBatches(fs: seq<Fetch>, parse: string -> Result<Json>) returns (r: Result<seq<Json>>)
    ensures r == BatchFrom(fs, BatchSteps(fs, parse), 0, [])
  {
    ghost var steps := BatchSteps(fs, parse);
    var allRows: seq<Json> := [];
    var i := 0;
    while true
      invariant BatchFrom(fs, steps, 0, []) == BatchFrom(fs, steps, i, allRows)
      decreases |fs| - i
    {
      var f := FetchAt(fs, i);
      var step := BatchStep(f.data, parse);
      assert step == StepAt(steps, i);
      BatchFromStep(fs, steps, i, allRows);
      if step.End? {
        break;
      }
      if step.Fail? {
        return Err(step.error);
      }
      allRows := allRows + step.elements;
      if !f.getNext || i >= |fs| {
        break;
      }
      i := i + 1;
    }
    r := Ok(allRows);
  }

  // ---------------------------------------------------------------------------
  // The orchestrator
  // ---------------------------------------------------------------------------

  /** What `execute_query` ends with: an error raised before any executor,
      the whole stream, or the batch outcome. */
  datatype QueryOutcome = Rejected(error: string) | Streamed(stream: Stream) | Batched(result: Result<Json>)

  /** The mode actually run: "auto" is replaced by `SelectMode`. */
  function EffectiveMode(mode: string, sql: string): (m: string)
    ensures mode != "auto" ==> m == mode
    ensures mode == "auto" ==> m == SelectMode(sql)
  {
    if mode == "auto" then SelectMode(sql) else mode
  }

  /** `execute_query`: validation first; on failure no executor runs and no
      cursor is opened. "streaming" streams, every other mode batches. */
  method ExecuteQuery(sql: string, mode: string, validation: ParserRun, e: Engine, parse: string -> Result<Json>)
    returns (r: QueryOutcome, cursor: Cursor?)
    ensures ValidateQuery(validation).Invalid? ==>
      r == Rejected("Query validation failed: " + ValidateQuery(validation).error) && cursor == null
    ensures ValidateQuery(validation).Validated? ==> cursor != null && fresh(cursor) && cursor.closes == 1
    ensures ValidateQuery(validation).Validated? && EffectiveMode(mode, sql) == "streaming" ==> r == Streamed(Streaming(e, parse))
    ensures ValidateQuery(validation).Validated? && EffectiveMode(mode, sql) != "streaming" ==> r == Batched(Batch(e, parse))
  {
    var v := ValidateQuery(validation);
    if v.Invalid? {
      return Rejected("Query validation failed: " + v.error), null;
    }
    var m := EffectiveMode(mode, sql);
    if m == "streaming" {
      var s, c := ExecuteStreaming(e, parse);
      r, cursor := Streamed(s), c;
    } else {
      var b, c := ExecuteBatch(e, parse);
      r, cursor := Batched(b), c;
    }
  }
}

=== FILE: seqs.dfy ===
/** Facts about sequences in general that the loops over lists use. */
module Seqs {
  /** The first `i + 1` items are the first `i` and then item `i`. */
  lemma TakeNext<T>(s: seq<T>, i: nat)
    requires i < |s|
    ensures s[..i + 1] == s[..i] + [s[i]]
  {
  }

  lemma AppendAssoc<T>(x: seq<T>, y: seq<T>, z: seq<T>)
    ensures (x + y) + z == x + (y + z)
  {
  }

  /** `r` holds `f` of each element of `s`, in order. */
  ghost predicate Mapped<T, U>(s: seq<T>, f: T -> U, r: seq<U>) {
    |r| == |s| && forall i :: 0 <= i < |s| ==> r[i] == f(s[i])
  }

  /** Mapping one more element appends its image. */
  lemma MappedNext<T, U>(s: seq<T>, f: T -> U, r: seq<U>, i: nat)
    requires i < |s| && Mapped(s[..i], f, r)
    ensures Mapped(s[..i + 1], f, r + [f(s[i])])
  {
  }
}

=== FILE: sorting.dfy ===
/** `sorted(set_of_strings)`: Python orders strings by code point, lexicographically.
    A sorted list of distinct strings is characterised by `SortedListOf`, which
    determines it uniquely (`SortedListUnique`). */
module Sorting {

  /** `a < b` for Python strings. */
  predicate Less(a: string, b: string)
    decreases |a|
  {
    if a == [] then b != []
    else if b == [] then false
    else if a[0] != b[0] then a[0] < b[0]
    else Less(a[1..], b[1..])
  }

  lemma {:induction false} LessIrreflexive(a: string)
    ensures !Less(a, a)
    decreases |a|
  {
    if a != [] { LessIrreflexive(a[1..]); }
  }

  lemma {:induction false} LessTransitive(a: string, b: string, c: string)
    requires Less(a, b) && Less(b, c)
    ensures Less(a, c)
    decreases |a|
  {
    if a != [] && b != [] && c != [] && a[0] == b[0] && b[0] == c[0] {
      LessTransitive(a[1..], b[1..], c[1..]);
    }
  }

  lemma {:induction false} LessTotal(a: string, b: string)
    ensures a == b || Less(a, b) || Less(b, a)
    decreases |a|
  {
    if a != [] && b != [] && a[0] == b[0] {
      LessTotal(a[1..], b[1..]);
      if a[1..] == b[1..] { assert a == [a[0]] + a[1..] && b == [b[0]] + b[1..]; }
    }
  }

  lemma LessAsymmetric(a: string, b: string)
    requires Less(a, b)
    ensures !Less(b, a)
  {
    if Less(b, a) {
      LessTransitive(a, b, a);
      LessIrreflexive(a);
    }
  }

  /** Strictly increasing, hence also free of duplicates. */
  predicate StrictlySorted(xs: seq<string>) {
    forall i, j :: 0 <= i < j < |xs| ==> Less(xs[i], xs[j])
  }

  /** `xs == sorted(s)` for a set `s` of strings. */
  ghost predicate SortedListOf(xs: seq<string>, s: set<string>) {
    StrictlySorted(xs) && forall z :: z in xs <==> z in s
  }

  /** Every element of a strictly sorted list after the head is above the head. */
  lemma HeadBelowRest(xs: seq<string>, z: string)
    requires StrictlySorted(xs) && |xs| > 0 && z in xs[1..]
    ensures Less(xs[0], z) && z in xs
  {
    var j :| 0 <= j < |xs[1..]| && xs[1..][j] == z;
    assert xs[j + 1] == z;
  }

  lemma ElementsOfCons(xs: seq<string>)
    requires |xs| > 0
    ensures forall z :: z in xs <==> z == xs[0] || z in xs[1..]
  {
    assert xs == [xs[0]] + xs[1..];
  }

  /** Inserting into a strictly sorted list keeps it strictly sorted and adds exactly `x`. */
  function Insert(xs: seq<string>, x: string): (r: seq<string>)
    requires StrictlySorted(xs)
    ensures StrictlySorted(r)
    ensures forall y :: y in r <==> y in xs || y == x
    ensures |r| == if x in xs then |xs| else |xs| + 1
  {
    if xs == [] then [x]
    else if x == xs[0] then xs
    else if Less(x, xs[0]) then
      assert forall i :: 0 <= i < |xs| ==> Less(x, xs[i]) by {
        forall i | 0 <= i < |xs| ensures Less(x, xs[i]) {
          if i > 0 { LessTransitive(x, xs[0], xs[i]); }
        }
      }
      LessIrreflexive(x);
      var r := [x] + xs;
      assert forall i, j :: 0 <= i < j < |r| ==> Less(r[i], r[j]) by {
        forall i, j | 0 <= i < j < |r| ensures Less(r[i], r[j]) {
          if i > 0 { assert r[i] == xs[i - 1] && r[j] == xs[j - 1]; }
        }
      }
      r
    else
      LessTotal(x, xs[0]);
      ElementsOfCons(xs);
      var rest := Insert(xs[1..], x);
      assert forall k :: 0 <= k < |rest| ==> Less(xs[0], rest[k]) by {
        forall k | 0 <= k < |rest| ensures Less(xs[0], rest[k]) {
          assert rest[k] in rest;
          if rest[k] != x {
            HeadBelowRest(xs, rest[k]);
          }
        }
      }
      var r := [xs[0]] + rest;
      ElementsOfCons(r);
      assert r[1..] == rest;
      assert forall i, j :: 0 <= i < j < |r| ==> Less(r[i], r[j]) by {
        forall i, j | 0 <= i < j < |r| ensures Less(r[i], r[j]) {
          if i > 0 { assert r[i] == rest[i - 1] && r[j] == rest[j - 1]; }
        }
      }
      r
  }

  /** `sorted(s)`: the elements of `s` in increasing order, each once. */
  method SortedList(s: set<string>) returns (xs: seq<string>)
    ensures SortedListOf(xs, s)
    ensures |xs| == |s|
  {
    xs := [];
    var rest := s;
    while rest != {}
      invariant StrictlySorted(xs)
      invariant rest <= s && forall z :: z in xs <==> z in s - rest
      invariant |xs| == |s - rest|
      decreases |rest|
    {
      var x :| x in rest;
      xs := Insert(xs, x);
      rest := rest - {x};
    }
  }

  /** `sorted(set(xs))` for a list of strings: its distinct elements in
      increasing order. */
  function SortedOf(xs: seq<string>): (r: seq<string>)
    ensures StrictlySorted(r)
    ensures forall z :: z in r <==> z in xs
  {
    if xs == [] then []
    else
      var n := |xs| - 1;
      assert xs == xs[..n] + [xs[n]];
      Insert(SortedOf(xs[..n]), xs[n])
  }

  lemma HeadIsMember(xs: seq<string>)
    ensures xs != [] ==> xs[0] in xs
  {
  }

  /** Two strictly sorted lists with the same elements are the same list. */
  lemma {:induction false} SortedListUnique(xs: seq<string>, ys: seq<string>)
    requires StrictlySorted(xs) && StrictlySorted(ys)
    requires forall z :: z in xs <==> z in ys
    ensures xs == ys
    decreases |xs|
  {
    if xs != [] && ys != [] {
      ElementsOfCons(xs);
      ElementsOfCons(ys);
      assert xs[0] == ys[0] by {
        if xs[0] != ys[0] {
          HeadBelowRest(ys, xs[0]);
          HeadBelowRest(xs, ys[0]);
          LessAsymmetric(ys[0], xs[0]);
        }
      }
      LessIrreflexive(xs[0]);
      forall z ensures z in xs[1..] <==> z in ys[1..] {
        if z in xs[1..] { HeadBelowRest(xs, z); }
        if z in ys[1..] { HeadBelowRest(ys, z); }
      }
      SortedListUnique(xs[1..], ys[1..]);
      assert xs == [xs[0]] + xs[1..] && ys == [ys[0]] + ys[1..];
    } else {
      HeadIsMember(xs);
      HeadIsMember(ys);
    }
  }
}

=== FILE: sse_client.dfy ===
/** `SseClient`: the client side of the SSE session in the end-to-end test
    client (`MCPSSETester`). It frames the event stream line by line into
    events (section 9.2 of the WHATWG HTML Living Standard, as far as the
    client follows it), learns the message endpoint from the `endpoint`
    event, queues the replies of `message` events, and builds the JSON-RPC
    payload of a request.

    The stream is the sequence of lines already decoded; `json.loads` is the
    function `parse`; the request id (a clock reading) is a parameter. */
module SseClient {
  import opened Wrappers
  import opened Strings
  import opened Json

  // ---------------------------------------------------------------------------
  // One line
  // ---------------------------------------------------------------------------

  datatype Field = EventField | DataField

  /** `_parse_sse_event`: an `event: ` or `data: ` line gives its field and
      the stripped rest; any other line gives nothing. */
  function ParseSseEvent(line: string): Option<(Field, string)> {
    if |line| >= 7 && line[..7] == "event: " then Some((EventField, Strip(line[7..])))
    else if |line| >= 6 && line[..6] == "data: " then Some((DataField, Strip(line[6..])))
    else None
  }

  /** An `event: ` line gives the stripped event type. */
  lemma EventLine(v: string)
    ensures ParseSseEvent("event: " + v) == Some((EventField, Strip(v)))
  {
    assert ("event: " + v)[..7] == "event: " && ("event: " + v)[7..] == v;
  }

  /** A `data: ` line gives the stripped data. */
  lemma DataLine(v: string)
    ensures ParseSseEvent("data: " + v) == Some((DataField, Strip(v)))
  {
    var line := "data: " + v;
    if |line| >= 7 {
      assert line[..7][0] == 'd' != "event: "[0];
    }
    assert line[..6] == "data: " && line[6..] == v;
  }

  /** Comment lines (such as `:keepalive`) and `id:` lines are ignored. */
  lemma IgnoredLines(rest: string)
    ensures ParseSseEvent(":" + rest) == None
    ensures ParseSseEvent("id:" + rest) == None
  {
    var comment := ":" + rest;
    if |comment| >= 7 { assert comment[..7][0] != "event: "[0]; }
    if |comment| >= 6 { assert comment[..6][0] != "data: "[0]; }
    var id := "id:" + rest;
    if |id| >= 7 { assert id[..7][0] != "event: "[0]; }
    if |id| >= 6 { assert id[..6][0] != "data: "[0]; }
  }

  /** `line.rstrip('\n\r')`. */
  function RStripNewlines(line: string): (r: string)
    ensures |r| <= |line| && r == line[..|r|]
    ensures r != [] ==> r[|r| - 1] != '\n' && r[|r| - 1] != '\r'
    ensures forall k :: |r| <= k < |line| ==> line[k] == '\n' || line[k] == '\r'
  {
    if line != [] && (line[|line| - 1] == '\n' || line[|line| - 1] == '\r') then RStripNewlines(line[..|line| - 1])
    else line
  }

  // ---------------------------------------------------------------------------
  // The listener
  // ---------------------------------------------------------------------------

  /** What the listener shares with the requests: the message endpoint (None
      until learnt), whether the session is active, and the queued replies. */
  datatype Session = Session(endpoint: Json, active: bool, responses: seq<Json>)

  /** The listener between two lines: the session and the event being
      collected (no type is the empty string, both being falsy). */
  datatype Listener = Listener(session: Session, eventType: string, eventData: seq<string>)

  /** The endpoint an `endpoint` event announces: the `endpoint` field of a
      JSON object, else the raw data (a parse error or a value without
      `.get`). */
  function EndpointValue(data: string, parse: string -> Option<Json>): Json {
    match parse(data)
    case Some(Obj(fields)) => GetOr(fields, "endpoint", Null)
    case _ => Str(data)
  }

  /** A complete event: `endpoint` sets the endpoint and activates the
      session, `message` queues its parsed data (None when the data does not
      parse, which ends the listener), any other type is ignored. */
  function Dispatch(s: Session, eventType: string, data: string, parse: string -> Option<Json>): (r: Option<Session>)
    ensures eventType == "endpoint" ==> r == Some(s.(endpoint := EndpointValue(data, parse), active := true))
    ensures eventType == "message" && parse(data).Some? ==> r == Some(s.(responses := s.responses + [parse(data).value]))
    ensures eventType == "message" && parse(data).None? ==> r.None?
    ensures eventType != "endpoint" && eventType != "message" ==> r == Some(s)
  {
    if eventType == "endpoint" then Some(s.(endpoint := EndpointValue(data, parse), active := true))
    else if eventType == "message" then
      match parse(data)
      case Some(message) => Some(s.(responses := s.responses + [message]))
      case None => None
    else Some(s)
  }

  /** One line of the stream; None when it raises. A blank line ends the
      event: it is dispatched if it has a type and data, and both are reset. */
  function Step(l: Listener, line: string, parse: string -> Option<Json>): Option<Listener> {
    var text := RStripNewlines(line);
    if text == [] then
      var reset := l.(eventType := "", eventData := []);
      if l.eventType != "" && l.eventData != [] then
        match Dispatch(l.session, l.eventType, Join("\n", l.eventData), parse)
        case Some(s) => Some(reset.(session := s))
        case None => None
      else Some(reset)
    else
      match ParseSseEvent(text)
      case Some((EventField, v)) => Some(l.(eventType := v))
      case Some((DataField, v)) => Some(l.(eventData := l.eventData + [v]))
      case None => Some(l)
  }

  /** The listener over the rest of the stream. An exception ends it and
      marks the session inactive. */
  function Run(l: Listener, lines: seq<string>, parse: string -> Option<Json>): Listener
    decreases |lines|
  {
    if lines == [] then l
    else
      match Step(l, lines[0], parse)
      case Some(next) => Run(next, lines[1..], parse)
      case None => l.(session := l.session.(active := false))
  }

  /** A blank line always clears the pending event; without a type or
      without data it dispatches nothing. */
  lemma BlankLineResets(l: Listener, parse: string -> Option<Json>)
    ensures Step(l, "", parse).Some? ==> Step(l, "", parse).value.eventType == "" && Step(l, "", parse).value.eventData == []
    ensures l.eventType == "" || l.eventData == [] ==> Step(l, "", parse) == Some(l.(eventType := "", eventData := []))
  {
  }

  /** The run after a line that does not raise is the run from the next
      listener. */
  lemma RunFirst(l: Listener, lines: seq<string>, next: Listener, parse: string -> Option<Json>)
    requires lines != [] && Step(l, lines[0], parse) == Some(next)
    ensures Run(l, lines, parse) == Run(next, lines[1..], parse)
  {
  }

  /** A data line whose value has no edge whitespace adds the value. */
  lemma StepDataLine(l: Listener, v: string, parse: string -> Option<Json>)
    requires v != [] && !IsSpace(v[0]) && !IsSpace(v[|v| - 1])
    ensures Step(l, "data: " + v, parse) == Some(l.(eventData := l.eventData + [v]))
  {
    var line := "data: " + v;
    assert line[|line| - 1] == v[|v| - 1];
    assert RStripNewlines(line) == line;
    DataLine(v);
    StripNoEdgeSpace(v);
  }

  /** The lines `data: v` for each value, in order. */
  function DataLines(values: seq<string>): (lines: seq<string>)
    ensures |lines| == |values|
    ensures forall i :: 0 <= i < |values| ==> lines[i] == "data: " + values[i]
  {
    if values == [] then [] else ["data: " + values[0]] + DataLines(values[1..])
  }

  /** Appending the first value and then the others appends them all. */
  lemma AppendFirst(a: seq<string>, values: seq<string>)
    requires values != []
    ensures a + [values[0]] + values[1..] == a + values
  {
    assert values == [values[0]] + values[1..];
  }

  /** The data lines of one event are collected in arrival order. */
  lemma {:induction false} DataLinesCollected(l: Listener, values: seq<string>, parse: string -> Option<Json>)
    requires forall i :: 0 <= i < |values| ==> values[i] != [] && !IsSpace(values[i][0]) && !IsSpace(values[i][|values[i]| - 1])
    ensures Run(l, DataLines(values), parse) == l.(eventData := l.eventData + values)
    decreases |values|
  {
    if values == [] {
      assert l.eventData + values == l.eventData;
    } else {
      var v, rest := values[0], values[1..];
      var lines := DataLines(values);
      assert lines == ["data: " + v] + DataLines(rest);
      StepDataLine(l, v, parse);
      var next := l.(eventData := l.eventData + [v]);
      RunFirst(l, lines, next, parse);
      assert lines[1..] == DataLines(rest);
      assert forall i :: 0 <= i < |rest| ==> rest[i] == values[i + 1];
      DataLinesCollected(next, rest, parse);
      AppendFirst(l.eventData, values);
    }
  }

  /** An event line whose value has no edge whitespace sets the pending
      event type. */
  lemma StepEventLine(l: Listener, v: string, parse: string -> Option<Json>)
    requires v != [] && !IsSpace(v[0]) && !IsSpace(v[|v| - 1])
    ensures Step(l, "event: " + v, parse) == Some(l.(eventType := v))
  {
    var line := "event: " + v;
    assert line[|line| - 1] == v[|v| - 1];
    assert RStripNewlines(line) == line;
    EventLine(v);
    StripNoEdgeSpace(v);
  }

  /** A blank line after a `message` event of one data line that parses
      queues the parsed data and resets the event. */
  lemma StepMessageDispatch(s: Session, data: string, parse: string -> Option<Json>)
    requires parse(data).Some?
    ensures Step(Listener(s, "message", [data]), "", parse) ==
            Some(Listener(s.(responses := s.responses + [parse(data).value]), "", []))
  {
    assert Join("\n", [data]) == data;
  }

  /** After `event: message`, the data line and the blank line queue the
      parsed data. */
  lemma MessageDataQueued(s: Session, data: string, parse: string -> Option<Json>)
    requires data != [] && !IsSpace(data[0]) && !IsSpace(data[|data| - 1])
    requires parse(data).Some?
    ensures Run(Listener(s, "message", []), ["data: " + data, ""], parse) ==
            Listener(s.(responses := s.responses + [parse(data).value]), "", [])
  {
    var l1, l2 := Listener(s, "message", []), Listener(s, "message", [data]);
    var l3 := Listener(s.(responses := s.responses + [parse(data).value]), "", []);
    StepDataLine(l1, data, parse);
    assert l1.(eventData := l1.eventData + [data]) == l2;
    RunFirst(l1, ["data: " + data, ""], l2, parse);
    StepMessageDispatch(s, data, parse);
    assert ["data: " + data, ""][1..] == [""];
    RunFirst(l2, [""], l3, parse);
  }

  /** A `message` event of one data line queues the parsed data at the back. */
  lemma MessageEventQueued(s: Session, data: string, parse: string -> Option<Json>)
    requires data != [] && !IsSpace(data[0]) && !IsSpace(data[|data| - 1])
    requires parse(data).Some?
    ensures Run(Listener(s, "", []), ["event: message", "data: " + data, ""], parse) ==
            Listener(s.(responses := s.responses + [parse(data).value]), "", [])
  {
    var lines := ["event: message", "data: " + data, ""];
    var l0 := Listener(s, "", []);
    assert "event: message" == "event: " + "message";
    StepEventLine(l0, "message", parse);
    RunFirst(l0, lines, Listener(s, "message", []), parse);
    assert lines[1..] == ["data: " + data, ""];
    MessageDataQueued(s, data, parse);
  }

  /** The tester: the session state the listener thread updates. */
  class Tester {
    var messageEndpoint: Json
    var sessionActive: bool
    var responseQueue: seq<Json>

    function State(): Session
      reads this
    {
      Session(messageEndpoint, sessionActive, responseQueue)
    }

    constructor ()
      ensures State() == Session(Null, false, [])
    {
      messageEndpoint := Null;
      sessionActive := false;
      responseQueue := [];
    }

    /** The loop of `_sse_listener` over the lines of the stream. */
    method Listen(lines: seq<string>, parse: string -> Option<Json>)
      modifies this
      ensures State() == Run(Listener(old(State()), "", []), lines, parse).session
    {
      var eventType := "";
      var eventData: seq<string> := [];
      ghost var start := Listener(State(), "", []);
      for i := 0 to |lines|
        invariant Run(Listener(State(), eventType, eventData), lines[i..], parse) == Run(start, lines, parse)
      {
        ghost var before := Listener(State(), eventType, eventData);
        assert lines[i..][0] == lines[i] && lines[i..][1..] == lines[i + 1..];
        var line := RStripNewlines(lines[i]);
        if line == [] {
          if eventType != "" && eventData != [] {
            var data := Join("\n", eventData);
            if eventType == "endpoint" {
              messageEndpoint := EndpointValue(data, parse);
              sessionActive := true;
            } else if eventType == "message" {
              var message := parse(data);
              if message.None? {
                sessionActive := false;
                return;
              }
              responseQueue := responseQueue + [message.value];
            }
          }
          eventType := "";
          eventData := [];
        } else {
          var field := ParseSseEvent(line);
          if field.Some? && field.value.0 == EventField {
            eventType := field.value.1;
          } else if field.Some? && field.value.0 == DataField {
            eventData := eventData + [field.value.1];
          }
        }
        assert Step(before, lines[i], parse) == Some(Listener(State(), eventType, eventData));
      }
    }
  }

  // ---------------------------------------------------------------------------
  // send_mcp_request
  // ---------------------------------------------------------------------------

  /** The JSON-RPC payload: version, id and method, and `params` only when
      it is truthy. */
  function Payload(rpcMethod: string, id: int, params: Json): (j: Json)
    ensures j.Obj? && |j.fields| == if Truthy(params) then 4 else 3
    ensures j.fields[0] == ("jsonrpc", Str("2.0")) && j.fields[1] == ("id", Num(id)) && j.fields[2] == ("method", Str(rpcMethod))
    ensures Truthy(params) ==> j.fields[3] == ("params", params)
  {
    Obj([("jsonrpc", Str("2.0")), ("id", Num(id)), ("method", Str(rpcMethod))] + (if Truthy(params) then [("params", params)] else []))
  }

  /** What `send_mcp_request` posts: the message URL and the payload; nothing
      without an endpoint. */
  function Request(baseUrl: string, endpoint: Json, rpcMethod: string, id: int, params: Json): (r: Option<(string, Json)>)
    ensures r.None? <==> !Truthy(endpoint)
    ensures r.Some? ==> r.value == (baseUrl + Show(endpoint), Payload(rpcMethod, id, params))
  {
    if !Truthy(endpoint) then None else Some((baseUrl + Show(endpoint), Payload(rpcMethod, id, params)))
  }
}

=== FILE: sse_transport.dfy ===
/** The server side of MCP over server-sent events: one `Connection` per
    client event stream, and a `Transport` holding the session registry.

    Each handler call and each keepalive sweep is one sequential step. The
    clock is a `nat` parameter, fresh session ids are parameters, and every
    socket write is a boolean oracle (true: the write went through). A
    successful write appends a `Frame` to the connection's `wire`, the model
    of the event stream the client reads. */
module SseTransport {
  import opened Wrappers
  import opened Strings
  import opened Json

  /** An entry of a connection's message queue. */
  datatype Message = Message(id: nat, event: string, data: Json, timestamp: nat)

  /** What one successful write puts on the event stream. */
  datatype Frame = EventFrame(data: Json, event: string, id: nat) | KeepaliveFrame

  /** The text of a frame on the stream, given the JSON serialiser: an event
      is `data:`, `event:` and `id:` lines and a blank line; a keepalive is a
      comment line. */
  function FrameText(f: Frame, dumps: Json -> string): (t: string)
    ensures |t| >= 3 && t[|t| - 2..] == "\n\n"
    ensures f.KeepaliveFrame? <==> t[0] == ':'
  {
    match f
    case EventFrame(data, event, id) =>
      "data: " + dumps(data) + "\n" + "event: " + event + "\n" + "id: " + IntToString(id) + "\n\n"
    case KeepaliveFrame => ":keepalive\n\n"
  }

  /** The fields of one connection, as a value. */
  datatype ConnectionState = ConnectionState(
    queue: seq<Message>,
    lastActivity: nat,
    connected: bool,
    counter: nat,
    wire: seq<Frame>)

  /** Queued ids strictly increase and none exceeds the counter. */
  predicate IdsIncreasing(s: ConnectionState) {
    (forall i :: 0 <= i < |s.queue| ==> s.queue[i].id <= s.counter) &&
    (forall i, j :: 0 <= i < j < |s.queue| ==> s.queue[i].id < s.queue[j].id)
  }

  /** A connection just created at time `now`. */
  function Fresh(now: nat): ConnectionState {
    ConnectionState([], now, true, 0, [])
  }

  /** `queue_message`. */
  function Enqueue(s: ConnectionState, event: string, data: Json, now: nat): ConnectionState {
    if !s.connected then s
    else
      var id := s.counter + 1;
      s.(counter := id, queue := s.queue + [Message(id, event, data, now)], lastActivity := now)
  }

  /** A connection state with the result of a write attempt. */
  datatype Sent = Sent(state: ConnectionState, ok: bool)

  /** `send_event`; `eventId` is `None` when the caller gives no id. The
      counter is raised before the write, so a failed write still uses up an id. */
  function Send(s: ConnectionState, event: string, data: Json, eventId: Option<nat>, now: nat, writeOk: bool): Sent {
    if !s.connected then Sent(s, false)
    else
      var counter := if eventId.None? then s.counter + 1 else s.counter;
      var id := if eventId.None? then counter else eventId.value;
      if writeOk then
        Sent(s.(counter := counter, wire := s.wire + [EventFrame(data, event, id)], lastActivity := now), true)
      else
        Sent(s.(counter := counter, connected := false), false)
  }

  /** `send_keepalive`: unlike `send_event` it does not look at `connected`. */
  function Keepalive(s: ConnectionState, now: nat, writeOk: bool): Sent {
    if writeOk then Sent(s.(wire := s.wire + [KeepaliveFrame], lastActivity := now), true)
    else Sent(s.(connected := false), false)
  }

  lemma EnqueueKeepsIdsIncreasing(s: ConnectionState, event: string, data: Json, now: nat)
    requires IdsIncreasing(s)
    ensures IdsIncreasing(Enqueue(s, event, data, now))
    ensures !s.connected ==> Enqueue(s, event, data, now) == s
    ensures s.connected ==>
      var r := Enqueue(s, event, data, now);
      r.counter == s.counter + 1 && r.queue == s.queue + [Message(r.counter, event, data, now)] &&
      forall i :: 0 <= i < |s.queue| ==> s.queue[i].id < r.counter
  {
  }

  lemma SendKeepsIdsIncreasing(s: ConnectionState, event: string, data: Json, eventId: Option<nat>, now: nat, writeOk: bool)
    requires IdsIncreasing(s)
    ensures IdsIncreasing(Send(s, event, data, eventId, now, writeOk).state)
  {
  }

  /** A write attempt succeeds exactly when the connection is open and the
      socket accepts it; a failed write closes the connection; a successful
      one adds exactly one frame, and an explicit id leaves the counter alone. */
  lemma SendOutcome(s: ConnectionState, event: string, data: Json, eventId: Option<nat>, now: nat, writeOk: bool)
    ensures var r := Send(s, event, data, eventId, now, writeOk);
      r.ok == (s.connected && writeOk) &&
      (!r.ok ==> !r.state.connected && r.state.wire == s.wire) &&
      (r.ok ==> |r.state.wire| == |s.wire| + 1 && r.state.wire[..|s.wire|] == s.wire) &&
      (eventId.Some? ==> r.state.counter == s.counter) &&
      (s.connected && eventId.None? ==> r.state.counter == s.counter + 1) &&
      (r.ok ==> r.state.wire[|s.wire|].id == if eventId.Some? then eventId.value else s.counter + 1) &&
      r.state.queue == s.queue
  {
  }

  lemma KeepaliveOutcome(s: ConnectionState, now: nat, writeOk: bool)
    ensures var r := Keepalive(s, now, writeOk);
      r.ok == writeOk &&
      (!r.ok ==> !r.state.connected && r.state.wire == s.wire) &&
      (r.ok ==> r.state.wire == s.wire + [KeepaliveFrame] && r.state.connected == s.connected) &&
      r.state.queue == s.queue && r.state.counter == s.counter
  {
  }

  /** The payload of the `connected` event that opens every stream. */
  function ConnectedPayload(sessionId: string): Json {
    Obj([("session_id", Str(sessionId)), ("message", Str("MCP SSE connection established"))])
  }

  /** The `connected` event carries the explicit id 0 and leaves the counter at
      0, so the first message queued after it gets id 1. */
  lemma FirstQueuedIdIsOne(sessionId: string, now: nat, writeOk: bool, event: string, data: Json, later: nat)
    ensures var s := Send(Fresh(now), "connected", ConnectedPayload(sessionId), Some(0), now, writeOk).state;
      s.counter == 0 &&
      s.wire == (if writeOk then [EventFrame(ConnectedPayload(sessionId), "connected", 0)] else []) &&
      Enqueue(s, event, data, later).queue == (if writeOk then [Message(1, event, data, later)] else [])
  {
  }

  /** The frames that sending `ms` in order writes. */
  function Frames(ms: seq<Message>): (fs: seq<Frame>)
    ensures |fs| == |ms|
    ensures forall i :: 0 <= i < |ms| ==> fs[i] == EventFrame(ms[i].data, ms[i].event, ms[i].id)
  {
    seq(|ms|, i requires 0 <= i < |ms| => EventFrame(ms[i].data, ms[i].event, ms[i].id))
  }

  /** The drain loop of `handle_sse_endpoint` over what is already queued:
      pop the oldest message and send it with its stored id, while the
      connection stays open. `writeOk(k)` is the outcome of the k-th write. */
  function Drain(s: ConnectionState, now: nat, writeOk: nat -> bool, k: nat): ConnectionState
    decreases |s.queue|
  {
    if !s.connected || s.queue == [] then s
    else
      var m := s.queue[0];
      var r := Send(s.(queue := s.queue[1..]), m.event, m.data, Some(m.id), now, writeOk(k));
      Drain(r.state, now, writeOk, k + 1)
  }

  /** How many messages the drain loop takes off the queue. */
  function Popped(s: ConnectionState, now: nat, writeOk: nat -> bool, k: nat): nat
    decreases |s.queue|
  {
    if !s.connected || s.queue == [] then 0
    else
      var m := s.queue[0];
      var r := Send(s.(queue := s.queue[1..]), m.event, m.data, Some(m.id), now, writeOk(k));
      1 + Popped(r.state, now, writeOk, k + 1)
  }

  /** One turn of the drain loop: the oldest message leaves the queue and, if
      the write goes through, its frame is appended with its stored id. */
  lemma DrainStep(s: ConnectionState, now: nat, writeOk: nat -> bool, k: nat)
    requires s.connected && s.queue != []
    ensures var m := s.queue[0];
      var t := Send(s.(queue := s.queue[1..]), m.event, m.data, Some(m.id), now, writeOk(k)).state;
      Drain(s, now, writeOk, k) == Drain(t, now, writeOk, k + 1) &&
      Popped(s, now, writeOk, k) == 1 + Popped(t, now, writeOk, k + 1) &&
      t.queue == s.queue[1..] && t.counter == s.counter && t.connected == writeOk(k) &&
      t.wire == if writeOk(k) then s.wire + [EventFrame(m.data, m.event, m.id)] else s.wire
  {
  }

  /** Draining takes a prefix of the queue, leaves the counter alone, and
      stops only with an empty queue or a closed connection. */
  lemma {:induction false} DrainTakesPrefix(s: ConnectionState, now: nat, writeOk: nat -> bool, k: nat)
    ensures var r := Drain(s, now, writeOk, k);
      var n := Popped(s, now, writeOk, k);
      n <= |s.queue| && r.queue == s.queue[n..] && r.counter == s.counter &&
      (!s.connected ==> r == s) &&
      (r.connected ==> n == |s.queue|) &&
      (s.connected && !r.connected ==> n >= 1)
    decreases |s.queue|
  {
    if s.connected && s.queue != [] {
      DrainStep(s, now, writeOk, k);
      var m := s.queue[0];
      var t := Send(s.(queue := s.queue[1..]), m.event, m.data, Some(m.id), now, writeOk(k)).state;
      DrainTakesPrefix(t, now, writeOk, k + 1);
      var n := Popped(t, now, writeOk, k + 1);
      assert s.queue[1..][n..] == s.queue[n + 1..];
    }
  }

  /** Draining writes the popped messages in FIFO order with the ids stored at
      enqueue time. If a write fails, the message it carried is lost: it was
      popped but never reaches the stream. */
  lemma {:induction false} DrainSendsInOrder(s: ConnectionState, now: nat, writeOk: nat -> bool, k: nat)
    ensures var r := Drain(s, now, writeOk, k);
      var n := Popped(s, now, writeOk, k);
      n <= |s.queue| &&
      r.wire == s.wire + Frames(s.queue[..if r.connected || n == 0 then n else n - 1])
    decreases |s.queue|
  {
    if s.connected && s.queue != [] {
      DrainStep(s, now, writeOk, k);
      var m := s.queue[0];
      var t := Send(s.(queue := s.queue[1..]), m.event, m.data, Some(m.id), now, writeOk(k)).state;
      DrainSendsInOrder(t, now, writeOk, k + 1);
      DrainTakesPrefix(t, now, writeOk, k + 1);
      var r := Drain(t, now, writeOk, k + 1);
      var n := Popped(t, now, writeOk, k + 1);
      if writeOk(k) {
        var d := if r.connected || n == 0 then n else n - 1;
        var f := EventFrame(m.data, m.event, m.id);
        assert t.wire == s.wire + [f];
        FramesFirst(s.queue, d);
        assert r.wire == s.wire + [f] + Frames(s.queue[1..][..d]);
      } else {
        assert n == 0;
      }
    }
  }

  /** The frames of a non-empty prefix: the first message's frame, then the
      frames of the rest of the prefix. */
  lemma FramesFirst(q: seq<Message>, d: nat)
    requires d + 1 <= |q|
    ensures Frames(q[..d + 1]) == [EventFrame(q[0].data, q[0].event, q[0].id)] + Frames(q[1..][..d])
  {
    assert q[..d + 1] == [q[0]] + q[1..][..d];
  }

  /** A queue suffix with the same counter keeps ids increasing. */
  lemma SuffixKeepsIdsIncreasing(s: ConnectionState, r: ConnectionState, n: nat)
    requires IdsIncreasing(s) && n <= |s.queue| && r.queue == s.queue[n..] && r.counter == s.counter
    ensures IdsIncreasing(r)
  {
    forall i, j | 0 <= i < j < |r.queue| ensures r.queue[i].id < r.queue[j].id {
      assert r.queue[i] == s.queue[n + i] && r.queue[j] == s.queue[n + j];
    }
    forall i | 0 <= i < |r.queue| ensures r.queue[i].id <= r.counter {
      assert r.queue[i] == s.queue[n + i];
    }
  }

  lemma DrainKeepsIdsIncreasing(s: ConnectionState, now: nat, writeOk: nat -> bool, k: nat)
    requires IdsIncreasing(s)
    ensures IdsIncreasing(Drain(s, now, writeOk, k))
  {
    DrainTakesPrefix(s, now, writeOk, k);
    SuffixKeepsIdsIncreasing(s, Drain(s, now, writeOk, k), Popped(s, now, writeOk, k));
  }

  /** One session's part of a keepalive sweep: a session idle for strictly
      more than `timeout` is closed and dropped without a keepalive; an open
      one gets a keepalive and is dropped if it fails; a closed, recently
      active one is left as it is. `ok` says whether the session stays. */
  function SweepStep(s: ConnectionState, now: nat, timeout: nat, writeOk: bool): Sent {
    if now - s.lastActivity > timeout then Sent(s.(connected := false), false)
    else if s.connected then Keepalive(s, now, writeOk)
    else Sent(s, true)
  }

  /** The registry after a sweep. */
  function Sweep(m: map<string, ConnectionState>, now: nat, timeout: nat, writeOk: string -> bool): map<string, ConnectionState> {
    map sid | sid in m && SweepStep(m[sid], now, timeout, writeOk(sid)).ok :: SweepStep(m[sid], now, timeout, writeOk(sid)).state
  }

  /** The registry whose survivors are the sessions not dropped, each in the
      state its sweep step left, is the swept registry. */
  lemma SweptRegistry(before: map<string, ConnectionState>, after: map<string, ConnectionState>, dropped: set<string>,
                      now: nat, timeout: nat, writeOk: string -> bool)
    requires after.Keys == before.Keys - dropped
    requires forall sid :: sid in before ==> SweepStep(before[sid], now, timeout, writeOk(sid)).ok == (sid !in dropped)
    requires forall sid :: sid in after ==> after[sid] == SweepStep(before[sid], now, timeout, writeOk(sid)).state
    ensures after == Sweep(before, now, timeout, writeOk)
  {
  }

  lemma SweepRemovesExactly(m: map<string, ConnectionState>, now: nat, timeout: nat, writeOk: string -> bool, sid: string)
    requires sid in m
    ensures var stale := now - m[sid].lastActivity > timeout;
      (sid in Sweep(m, now, timeout, writeOk) <==> !stale && (!m[sid].connected || writeOk(sid))) &&
      (stale ==> SweepStep(m[sid], now, timeout, writeOk(sid)).state.wire == m[sid].wire) &&
      (stale ==> !SweepStep(m[sid], now, timeout, writeOk(sid)).state.connected) &&
      (!stale && !m[sid].connected ==> Sweep(m, now, timeout, writeOk)[sid] == m[sid]) &&
      (!stale && m[sid].connected && writeOk(sid) ==>
        Sweep(m, now, timeout, writeOk)[sid].wire == m[sid].wire + [KeepaliveFrame])
  {
  }

  /** The HTTP reply to `POST /mcp/messages/{session_id}`. */
  datatype PostReply = Rejected(status: nat, reason: string) | Accepted(sessionId: string, message: Json)

  /** `int(headers.get('Content-Length', 0))`, or the `ValueError` it raises. */
  function ContentLength(header: Option<string>): (r: Result<int>)
    ensures header.None? ==> r == Ok(0)
    ensures header.Some? ==> r == ToInt(header.value)
  {
    if header.None? then Ok(0) else ToInt(header.value)
  }

  /** The reason of the 500 reply the handler's outer `except` sends. */
  function InternalError(e: string): string {
    "Internal server error: " + e
  }

  /** The checks of `handle_messages_endpoint`, in the order the handler runs
      them, given the registered session ids, the Content-Length header, the
      body read from the socket and decoded as UTF-8 (or the decoder's
      message) and the JSON parser, which fails with the decoder's message.
      Every exception the outer `except` catches becomes a 500 whose reason
      carries the exception's text. */
  function CheckPost(path: string, sessions: set<string>, contentLength: Option<string>, body: Result<string>,
                     parse: string -> Result<Json>): (r: PostReply)
    ensures var parts := Split(path, '/');
      var known := |parts| >= 4 && parts[3] in sessions;
      var length := ContentLength(contentLength);
      var sized := known && length.Ok? && length.value != 0;
      (|parts| < 4 ==> r == Rejected(400, "Invalid path - missing session_id")) &&
      (|parts| >= 4 && parts[3] !in sessions ==> r == Rejected(404, "Session not found")) &&
      (known && length.Err? ==> r == Rejected(500, InternalError(length.error))) &&
      (known && length == Ok(0) ==> r == Rejected(400, "Empty message body")) &&
      (sized && body.Err? ==> r == Rejected(500, InternalError(body.error))) &&
      (sized && body.Ok? && parse(body.value).Err? ==> r == Rejected(400, "Invalid JSON: " + parse(body.value).error)) &&
      (sized && body.Ok? && parse(body.value).Ok? && !parse(body.value).value.Obj? ==>
        r == Rejected(500, InternalError("'" + TypeName(parse(body.value).value) + "' object has no attribute 'get'"))) &&
      (r.Accepted? <==> sized && body.Ok? && parse(body.value).Ok? && parse(body.value).value.Obj?) &&
      (r.Accepted? ==> r.sessionId == parts[3] && parse(body.value) == Ok(r.message)) &&
      (r.Rejected? ==> r.status in {400, 404, 500})
  {
    var parts := Split(path, '/');
    if |parts| < 4 then Rejected(400, "Invalid path - missing session_id")
    else if parts[3] !in sessions then Rejected(404, "Session not found")
    else match ContentLength(contentLength)
      case Err(e) => Rejected(500, InternalError(e))
      case Ok(n) =>
        if n == 0 then Rejected(400, "Empty message body")
        else match body
          case Err(e) => Rejected(500, InternalError(e))
          case Ok(text) =>
            match parse(text)
            case Err(e) => Rejected(400, "Invalid JSON: " + e)
            case Ok(message) =>
              // the handler logs `message.get('method')`, which raises on a non-object
              if message.Obj? then Accepted(parts[3], message)
              else Rejected(500, InternalError("'" + TypeName(message) + "' object has no attribute 'get'"))
  }

  /** The error reply queued when processing a request raised. */
  function ErrorReply(request: seq<(string, Json)>, error: string): (j: Json)
    ensures j.Obj? && Lookup(j.fields, "jsonrpc") == Some(Str("2.0"))
    ensures Lookup(j.fields, "id") == Some(GetOr(request, "id", Null))
    ensures Lookup(j.fields, "error") == Some(Obj([("code", Num(-32603)), ("message", Str("Internal error: " + error))]))
  {
    var fields := [("jsonrpc", Str("2.0")),
                   ("id", GetOr(request, "id", Null)),
                   ("error", Obj([("code", Num(-32603)), ("message", Str("Internal error: " + error))]))];
    LookupAt(fields, 0, "jsonrpc");
    LookupAt(fields, 1, "id");
    LookupAt(fields, 2, "error");
    Obj(fields)
  }

  /** The event `_process_message_async` queues once the protocol server has
      produced `outcome` for `request`. Building the error reply calls
      `request.get`, which raises on a non-object, so then there is none. */
  function ReplyEvent(request: Json, outcome: Result<Json>): Option<(string, Json)> {
    match outcome
    case Ok(response) => Some(("message", response))
    case Err(e) => if request.Obj? then Some(("error", ErrorReply(request.fields, e))) else None
  }

  /** The session's connection after that event is queued. */
  function Reply(s: ConnectionState, request: Json, outcome: Result<Json>, now: nat): ConnectionState {
    match ReplyEvent(request, outcome)
    case None => s
    case Some(e) => Enqueue(s, e.0, e.1, now)
  }

  lemma ReplyQueuesOneEvent(s: ConnectionState, request: Json, outcome: Result<Json>, now: nat)
    requires s.connected && (outcome.Ok? || request.Obj?)
    ensures var r := Reply(s, request, outcome, now);
      |r.queue| == |s.queue| + 1 && r.queue[..|s.queue|] == s.queue &&
      r.queue[|s.queue|].id == s.counter + 1 &&
      r.queue[|s.queue|].event == (if outcome.Ok? then "message" else "error") &&
      (outcome.Ok? ==> r.queue[|s.queue|].data == outcome.value)
  {
  }

  class Connection {
    const sessionId: string
    var messageQueue: seq<Message>
    var lastActivity: nat
    var connected: bool
    var messageCounter: nat
    var wire: seq<Frame>

    function State(): ConnectionState
      reads this
    {
      ConnectionState(messageQueue, lastActivity, connected, messageCounter, wire)
    }

    constructor (sessionId: string, now: nat)
      ensures this.sessionId == sessionId && State() == Fresh(now)
    {
      this.sessionId := sessionId;
      messageQueue := [];
      lastActivity := now;
      connected := true;
      messageCounter := 0;
      wire := [];
    }

    method QueueMessage(event: string, data: Json, now: nat)
      modifies this
      ensures State() == Enqueue(old(State()), event, data, now)
    {
      if !connected {
        return;
      }
      messageCounter := messageCounter + 1;
      messageQueue := messageQueue + [Message(messageCounter, event, data, now)];
      lastActivity := now;
    }

    method SendEvent(event: string, data: Json, eventId: Option<nat>, now: nat, writeOk: bool) returns (ok: bool)
      modifies this
      ensures Sent(State(), ok) == Send(old(State()), event, data, eventId, now, writeOk)
    {
      if !connected {
        return false;
      }
      var id: nat;
      if eventId.None? {
        messageCounter := messageCounter + 1;
        id := messageCounter;
      } else {
        id := eventId.value;
      }
      if !writeOk {
        connected := false;
        return false;
      }
      wire := wire + [EventFrame(data, event, id)];
      lastActivity := now;
      return true;
    }

    method SendKeepalive(now: nat, writeOk: bool) returns (ok: bool)
      modifies this
      ensures Sent(State(), ok) == Keepalive(old(State()), now, writeOk)
    {
      if !writeOk {
        connected := false;
        return false;
      }
      wire := wire + [KeepaliveFrame];
      lastActivity := now;
      return true;
    }

    method Close()
      modifies this
      ensures State() == old(State()).(connected := false)
    {
      connected := false;
    }
  }

  class Transport {
    var connections: map<string, Connection>
    var running: bool
    const keepaliveInterval: nat
    const connectionTimeout: nat

    /** Every connection is registered under its own session id, so distinct
        ids hold distinct connections. */
    ghost predicate Valid()
      reads this
    {
      forall sid :: sid in connections ==> connections[sid].sessionId == sid
    }

    /** The registry as values. */
    function Sessions(): map<string, ConnectionState>
      reads this, connections.Values
    {
      map sid | sid in connections :: connections[sid].State()
    }

    constructor ()
      ensures Valid() && connections == map[] && running
      ensures keepaliveInterval == 30 && connectionTimeout == 300
    {
      connections := map[];
      running := true;
      keepaliveInterval := 30;
      connectionTimeout := 300;
    }

    /** The start of `GET /mcp/sse`: register a connection under the fresh id
        `sid` and write the `connected` event with id 0. */
    method OpenSession(sid: string, now: nat, writeOk: bool) returns (conn: Connection)
      requires Valid()
      modifies this
      ensures Valid() && fresh(conn) && conn.sessionId == sid
      ensures connections == old(connections)[sid := conn] && running == old(running)
      ensures conn.State() == Send(Fresh(now), "connected", ConnectedPayload(sid), Some(0), now, writeOk).state
    {
      conn := new Connection(sid, now);
      connections := connections[sid := conn];
      var _ := conn.SendEvent("connected", ConnectedPayload(sid), Some(0), now, writeOk);
    }

    /** The rest of `GET /mcp/sse`: send what is queued, oldest first, while
        the connection stays open; once it is closed, unregister it. */
    method ServeQueue(conn: Connection, now: nat, writeOk: nat -> bool)
      requires Valid()
      modifies this, conn
      ensures Valid() && running == old(running)
      ensures conn.State() == Drain(old(conn.State()), now, writeOk, 0)
      ensures connections == if conn.connected then old(connections) else old(connections) - {conn.sessionId}
    {
      var k := 0;
      while conn.connected && conn.messageQueue != []
        invariant Valid() && connections == old(connections) && running == old(running)
        invariant Drain(conn.State(), now, writeOk, k) == Drain(old(conn.State()), now, writeOk, 0)
        decreases |conn.messageQueue|
      {
        var m := conn.messageQueue[0];
        conn.messageQueue := conn.messageQueue[1..];
        var _ := conn.SendEvent(m.event, m.data, Some(m.id), now, writeOk(k));
        k := k + 1;
      }
      if !conn.connected {
        connections := connections - {conn.sessionId};
      }
    }

    /** `POST /mcp/messages/{session_id}`: the checks, in order, against the
        current registry. An accepted message is then handed to
        `ProcessMessageAsync`. */
    function HandleMessagesEndpoint(path: string, contentLength: Option<string>, body: Result<string>, parse: string -> Result<Json>): (r: PostReply)
      reads this
      ensures r.Accepted? ==> r.sessionId in connections
      ensures r.Rejected? && r.status == 404 ==> |Split(path, '/')| >= 4 && Split(path, '/')[3] !in connections
    {
      CheckPost(path, connections.Keys, contentLength, body, parse)
    }

    /** `_process_message_async` once the protocol server has answered
        `request` with `outcome`: the reply goes to the session's queue, or
        nowhere if the session is gone. */
    method ProcessMessageAsync(sid: string, request: Json, outcome: Result<Json>, now: nat)
      requires Valid()
      modifies connections.Values
      ensures Valid()
      ensures Sessions() == if sid in old(Sessions()) then old(Sessions())[sid := Reply(old(Sessions())[sid], request, outcome, now)] else old(Sessions())
    {
      if sid in connections {
        var conn := connections[sid];
        var event := ReplyEvent(request, outcome);
        if event.Some? {
          conn.QueueMessage(event.value.0, event.value.1, now);
        }
        OnlyOneChanged(sid);
      }
    }

    /** Only the connection of `sid` may have changed since the old state:
        the registry differs at `sid` alone. */
    twostate lemma OnlyOneChanged(sid: string)
      requires old(Valid()) && unchanged(this) && sid in connections
      requires forall x :: x in connections && x != sid ==> unchanged(connections[x])
      ensures Sessions() == old(Sessions())[sid := connections[sid].State()]
    {
    }

    /** The loop body of `_keepalive_loop` for one session: `keep` is false
        when the session must be unregistered. */
    static method SweepOne(c: Connection, now: nat, timeout: nat, writeOk: bool) returns (keep: bool)
      modifies c
      ensures Sent(c.State(), keep) == SweepStep(old(c.State()), now, timeout, writeOk)
    {
      if now - c.lastActivity > timeout {
        c.Close();
        return false;
      }
      if c.connected {
        keep := c.SendKeepalive(now, writeOk);
        return;
      }
      return true;
    }

    /** The `for` loop of one keepalive pass over a snapshot of the registry:
        every connection takes its `SweepStep`; `dropped` are the sessions to unregister. */
    static method SweepSnapshot(snapshot: map<string, Connection>, now: nat, timeout: nat, writeOk: string -> bool)
      returns (dropped: set<string>)
      requires forall sid :: sid in snapshot ==> snapshot[sid].sessionId == sid
      modifies snapshot.Values
      ensures dropped <= snapshot.Keys
      ensures forall sid :: sid in snapshot ==>
        Sent(snapshot[sid].State(), sid !in dropped) == SweepStep(old(snapshot[sid].State()), now, timeout, writeOk(sid))
    {
      dropped := {};
      var todo := snapshot.Keys;
      while todo != {}
        invariant todo <= snapshot.Keys && dropped <= snapshot.Keys - todo
        invariant forall sid :: sid in todo ==> snapshot[sid].State() == old(snapshot[sid].State())
        invariant forall sid :: sid in snapshot && sid !in todo ==>
          Sent(snapshot[sid].State(), sid !in dropped) == SweepStep(old(snapshot[sid].State()), now, timeout, writeOk(sid))
        decreases |todo|
      {
        var sid :| sid in todo;
        label Before:
        var keep := SweepOne(snapshot[sid], now, timeout, writeOk(sid));
        forall x | x in snapshot && x != sid
          ensures snapshot[x].State() == old@Before(snapshot[x].State())
        {
          assert snapshot[x].sessionId == x;
        }
        if !keep {
          dropped := dropped + {sid};
        }
        todo := todo - {sid};
      }
    }

    /** One pass of `_keepalive_loop` at time `now` over a snapshot of the
        registry. `writeOk(sid)` is the outcome of that session's keepalive. */
    method KeepaliveSweep(now: nat, writeOk: string -> bool)
      requires Valid()
      modifies this, connections.Values
      ensures Valid() && running == old(running)
      ensures forall sid :: sid in connections ==> sid in old(connections) && connections[sid] == old(connections)[sid]
      ensures forall sid :: sid in old(connections) && sid !in connections ==> !old(connections)[sid].connected
      ensures Sessions() == Sweep(old(Sessions()), now, connectionTimeout, writeOk)
    {
      var snapshot := connections;
      ghost var before := Sessions();
      var dropped := SweepSnapshot(snapshot, now, connectionTimeout, writeOk);
      connections := connections - dropped;
      SweptRegistry(before, Sessions(), dropped, now, connectionTimeout, writeOk);
    }

    /** `SSETransport.send_event`: write an event with a fresh id now, if the
        session exists. */
    method SendEventTo(sid: string, event: string, data: Json, now: nat, writeOk: bool) returns (ok: bool)
      requires Valid()
      modifies connections.Values
      ensures Valid()
      ensures sid !in old(Sessions()) ==> !ok && Sessions() == old(Sessions())
      ensures sid in old(Sessions()) ==>
        var r := Send(old(Sessions())[sid], event, data, None, now, writeOk);
        ok == r.ok && Sessions() == old(Sessions())[sid := r.state]
    {
      if sid !in connections {
        return false;
      }
      var conn := connections[sid];
      ok := conn.SendEvent(event, data, None, now, writeOk);
      assert forall x :: x in connections && x != sid ==> connections[x] != conn;
    }

    /** `get_active_connections`: every registered id, once each. The
        registry is a map, so the dict's insertion order of the ids is not
        kept. */
    method ActiveConnections() returns (ids: seq<string>)
      ensures forall sid :: sid in ids <==> sid in connections
      ensures forall i, j :: 0 <= i < j < |ids| ==> ids[i] != ids[j]
      ensures |ids| == |connections|
    {
      ids := [];
      var rest := connections.Keys;
      while rest != {}
        invariant rest <= connections.Keys
        invariant forall sid :: sid in ids <==> sid in connections && sid !in rest
        invariant forall i, j :: 0 <= i < j < |ids| ==> ids[i] != ids[j]
        invariant |ids| + |rest| == |connections|
        decreases |rest|
      {
        var sid :| sid in rest;
        ids := ids + [sid];
        rest := rest - {sid};
      }
    }

    /** `close_connection`: close and unregister a known session; an unknown
        id changes nothing. */
    method CloseConnection(sid: string)
      requires Valid()
      modifies this, connections.Values
      ensures Valid() && running == old(running)
      ensures connections == old(connections) - {sid}
      ensures sid in old(connections) ==> old(connections)[sid].State() == old(connections[sid].State()).(connected := false)
      ensures forall x :: x in connections ==> connections[x].State() == old(connections[x].State())
    {
      if sid in connections {
        var conn := connections[sid];
        assert forall x :: x in connections && x != sid ==> connections[x] != conn;
        conn.Close();
        connections := connections - {sid};
      }
    }

    /** `shutdown`: stop the sweep loop, close every connection, empty the
        registry. */
    method Shutdown()
      requires Valid()
      modifies this, connections.Values
      ensures Valid() && !running && connections == map[]
      ensures forall c :: c in old(connections).Values ==> c.State() == old(c.State()).(connected := false)
    {
      running := false;
      var all := connections.Values;
      var rest := all;
      while rest != {}
        invariant rest <= all && connections == old(connections) && !running
        invariant forall c :: c in rest ==> c.State() == old(c.State())
        invariant forall c :: c in all && c !in rest ==> c.State() == old(c.State()).(connected := false)
        decreases |rest|
      {
        var c :| c in rest;
        c.Close();
        rest := rest - {c};
      }
      connections := map[];
    }
  }

  /** The module-level slot holding the one transport. */
  class Runtime {
    var instance: Transport?

    ghost predicate Valid()
      reads this, instance
    {
      instance != null ==> instance.Valid()
    }

    constructor ()
      ensures Valid() && instance == null
    {
      instance := null;
    }

    /** `initialize`: a second call returns the transport already there. */
    method Initialize() returns (t: Transport)
      requires Valid()
      modifies this
      ensures Valid() && instance == t
      ensures old(instance) != null ==> t == old(instance)
      ensures old(instance) == null ==> fresh(t) && t.connections == map[] && t.running
    {
      if instance != null {
        return instance;
      }
      t := new Transport();
      instance := t;
    }

    /** The module-level `handle_messages_endpoint`: 503 before `initialize`. */
    function HandleMessagesEndpoint(path: string, contentLength: Option<string>, body: Result<string>, parse: string -> Result<Json>): (r: PostReply)
      reads this, instance
      ensures instance == null ==> r == Rejected(503, "MCP server not available")
      ensures instance != null ==> r == CheckPost(path, instance.connections.Keys, contentLength, body, parse)
    {
      if instance == null then Rejected(503, "MCP server not available")
      else instance.HandleMessagesEndpoint(path, contentLength, body, parse)
    }

    /** The module-level `handle_sse_endpoint`: no session before `initialize`. */
    method OpenSession(sid: string, now: nat, writeOk: bool) returns (conn: Connection?)
      requires Valid()
      modifies instance
      ensures Valid() && instance == old(instance)
      ensures old(instance) == null <==> conn == null
      ensures conn != null ==> fresh(conn) && instance.connections == old(instance.connections)[sid := conn]
    {
      if instance == null {
        return null;
      }
      conn := instance.OpenSession(sid, now, writeOk);
    }

    /** The module-level `shutdown`: shut the transport down and empty the slot. */
    method Shutdown()
      requires Valid()
      modifies this, instance, if instance == null then {} else instance.connections.Values
      ensures Valid() && instance == null
      ensures old(instance) != null ==> !old(instance).running && old(instance).connections == map[]
    {
      if instance != null {
        instance.Shutdown();
        instance := null;
      }
    }
  }
}

=== FILE: strings.dfy ===
/** The few Python `str` operations the bridge relies on, stated over `seq<char>`.
    Case mapping is ASCII only (see README, "Left out"). */
module Strings {
  import opened Wrappers

  // ---------------------------------------------------------------------------
  // Whitespace and `str.strip()`
  // ---------------------------------------------------------------------------

  /** `str.isspace()` on one character: the whitespace `str.strip()` removes. */
  predicate IsSpace(c: char) {
    ('\t' <= c <= '\r') || ('\U{1C}' <= c <= ' ') || c == '\U{85}' || c == '\U{A0}' || c == '\U{1680}' ||
    ('\U{2000}' <= c <= '\U{200A}') || c == '\U{2028}' || c == '\U{2029}' || c == '\U{202F}' ||
    c == '\U{205F}' || c == '\U{3000}'
  }

  predicate Blank(s: string) {
    forall i :: 0 <= i < |s| ==> IsSpace(s[i])
  }

  /** The end of the run of whitespace starting at `i`. */
  function SpaceRunEnd(s: string, i: nat): (k: nat)
    requires i <= |s|
    ensures i <= k <= |s|
    ensures forall j :: i <= j < k ==> IsSpace(s[j])
    ensures k < |s| ==> !IsSpace(s[k])
    decreases |s| - i
  {
    if i < |s| && IsSpace(s[i]) then SpaceRunEnd(s, i + 1) else i
  }

  /** The start of the run of whitespace ending at `j`. */
  function SpaceRunStart(s: string, j: nat): (k: nat)
    requires j <= |s|
    ensures k <= j
    ensures forall i :: k <= i < j ==> IsSpace(s[i])
    ensures k > 0 ==> !IsSpace(s[k - 1])
  {
    if j > 0 && IsSpace(s[j - 1]) then SpaceRunStart(s, j - 1) else j
  }

  function TrimLeft(s: string): (r: string)
    ensures |r| <= |s| && r == s[|s| - |r|..]
    ensures Blank(s[..|s| - |r|])
    ensures r != [] ==> !IsSpace(r[0])
  {
    s[SpaceRunEnd(s, 0)..]
  }

  function TrimRight(s: string): (r: string)
    ensures |r| <= |s| && r == s[..|r|]
    ensures Blank(s[|r|..])
    ensures r != [] ==> !IsSpace(r[|r| - 1])
  {
    s[..SpaceRunStart(s, |s|)]
  }

  lemma TrimLeftEmptyIffBlank(s: string)
    ensures TrimLeft(s) == [] <==> Blank(s)
  {
    var l := TrimLeft(s);
    if l != [] {
      assert s[|s| - |l|] == l[0];
      assert !IsSpace(s[|s| - |l|]);
    } else {
      assert s[..|s|] == s;
    }
  }

  lemma TrimRightEmptyIffBlank(s: string)
    ensures TrimRight(s) == [] <==> Blank(s)
  {
    var r := TrimRight(s);
    if r != [] {
      assert s[|r| - 1] == r[|r| - 1];
      assert !IsSpace(s[|r| - 1]);
    } else {
      assert s[0..] == s;
    }
  }

  /** `s.strip()`: `s` without its leading and trailing whitespace. */
  function Strip(s: string): (r: string)
    ensures r == [] <==> Blank(s)
    ensures r != [] ==> !IsSpace(r[0]) && !IsSpace(r[|r| - 1])
  {
    var l := TrimLeft(s);
    TrimLeftEmptyIffBlank(s);
    TrimRightEmptyIffBlank(l);
    assert l != [] ==> !Blank(l);
    TrimRight(l)
  }

  /** Stripping a string that neither starts nor ends with whitespace changes nothing. */
  lemma StripNoEdgeSpace(s: string)
    requires s != [] ==> !IsSpace(s[0]) && !IsSpace(s[|s| - 1])
    ensures Strip(s) == s
  {
  }

  // ---------------------------------------------------------------------------
  // Case
  // ---------------------------------------------------------------------------

  function LowerChar(c: char): char {
    if 'A' <= c <= 'Z' then (c as int + 32) as char else c
  }

  /** `s.lower()` for ASCII letters. */
  function Lower(s: string): (r: string)
    ensures |r| == |s|
    ensures forall i :: 0 <= i < |s| ==> r[i] == LowerChar(s[i])
  {
    seq(|s|, i requires 0 <= i < |s| => LowerChar(s[i]))
  }

  function UpperChar(c: char): char {
    if 'a' <= c <= 'z' then (c as int - 32) as char else c
  }

  /** `s.upper()` for ASCII letters. */
  function Upper(s: string): (r: string)
    ensures |r| == |s|
    ensures forall i :: 0 <= i < |s| ==> r[i] == UpperChar(s[i])
  {
    seq(|s|, i requires 0 <= i < |s| => UpperChar(s[i]))
  }

  // ---------------------------------------------------------------------------
  // Substring search: `p in s` and `s.find(p)`
  // ---------------------------------------------------------------------------

  predicate OccursAt(s: string, p: string, i: int) {
    0 <= i && i + |p| <= |s| && s[i..i + |p|] == p
  }

  function IndexOfFrom(s: string, p: string, i: nat): (r: int)
    requires i <= |s|
    ensures r == -1 || (i <= r && OccursAt(s, p, r))
    ensures r == -1 ==> forall k :: i <= k ==> !OccursAt(s, p, k)
    ensures r >= 0 ==> forall k :: i <= k < r ==> !OccursAt(s, p, k)
    decreases |s| - i
  {
    if i + |p| > |s| then -1
    else if s[i..i + |p|] == p then i
    else IndexOfFrom(s, p, i + 1)
  }

  /** `s.find(p)`: the first position where `p` occurs, or -1. */
  function IndexOf(s: string, p: string): (r: int)
    ensures r == -1 || OccursAt(s, p, r)
    ensures r == -1 <==> forall k :: !OccursAt(s, p, k)
    ensures r >= 0 ==> forall k :: k < r ==> !OccursAt(s, p, k)
  {
    IndexOfFrom(s, p, 0)
  }

  /** `p in s`. */
  predicate Contains(s: string, p: string)
    ensures Contains(s, p) <==> exists k :: OccursAt(s, p, k)
  {
    IndexOf(s, p) >= 0
  }

  lemma OccursInPrefix(s: string, p: string, k: int, q: int)
    requires 0 <= k <= |s| && OccursAt(s[..k], p, q)
    ensures OccursAt(s, p, q)
  {
    assert s[..k][q..q + |p|] == s[q..q + |p|];
  }

  lemma OccursInSuffix(s: string, p: string, k: int, q: int)
    requires 0 <= k <= |s| && OccursAt(s[k..], p, q)
    ensures OccursAt(s, p, q + k)
  {
    assert s[k..][q..q + |p|] == s[q + k..q + k + |p|];
  }

  // ---------------------------------------------------------------------------
  // `sep.join(parts)` and `s.split(c)`
  // ---------------------------------------------------------------------------

  function Join(sep: string, parts: seq<string>): string {
    if parts == [] then ""
    else if |parts| == 1 then parts[0]
    else parts[0] + sep + Join(sep, parts[1..])
  }

  lemma JoinAppend(sep: string, parts: seq<string>, x: string)
    ensures Join(sep, parts + [x]) == if parts == [] then x else Join(sep, parts) + sep + x
  {
    if |parts| > 1 {
      assert (parts + [x])[1..] == parts[1..] + [x];
      JoinAppend(sep, parts[1..], x);
    } else if |parts| == 1 {
      assert (parts + [x])[1..] == [x];
    }
  }

  /** The position of the first `c` in `s`, or -1. */
  function FindChar(s: string, c: char): (k: int)
    ensures -1 <= k < |s|
    ensures k == -1 ==> c !in s
    ensures k >= 0 ==> s[k] == c && c !in s[..k]
  {
    if s == [] then -1
    else if s[0] == c then 0
    else
      var k := FindChar(s[1..], c);
      if k < 0 then -1
      else
        assert s[..k + 1] == [s[0]] + s[1..][..k];
        k + 1
  }

  /** `s.split(c)`: the pieces of `s` between occurrences of `c`. */
  function Split(s: string, c: char): (parts: seq<string>)
    ensures |parts| >= 1
    ensures forall i :: 0 <= i < |parts| ==> c !in parts[i]
    ensures Join([c], parts) == s
    decreases |s|
  {
    var k := FindChar(s, c);
    if k < 0 then [s]
    else
      var rest := Split(s[k + 1..], c);
      var parts := [s[..k]] + rest;
      assert parts[1..] == rest;
      assert s == s[..k] + [c] + s[k + 1..];
      parts
  }

  // ---------------------------------------------------------------------------
  // `s.replace(p, r)`
  // ---------------------------------------------------------------------------

  /** `s.replace(p, r)`: scan left to right, replacing each non-overlapping occurrence. */
  function Replace(s: string, p: string, r: string): string
    requires |p| > 0
    decreases |s|
  {
    if |s| < |p| then s
    else if s[..|p|] == p then r + Replace(s[|p|..], p, r)
    else [s[0]] + Replace(s[1..], p, r)
  }

  /** The pieces of `s` between the occurrences of `p` that a left-to-right scan finds. */
  function SplitOn(s: string, p: string): (pieces: seq<string>)
    requires |p| > 0
    ensures |pieces| >= 1
    ensures Join(p, pieces) == s
    ensures forall i :: 0 <= i < |pieces| ==> !Contains(pieces[i], p)
    decreases |s|
  {
    var k := IndexOf(s, p);
    if k < 0 then [s]
    else
      assert !Contains(s[..k], p) by {
        if Contains(s[..k], p) {
          var q :| OccursAt(s[..k], p, q);
          OccursInPrefix(s, p, k, q);
        }
      }
      var rest := SplitOn(s[k + |p|..], p);
      assert s == s[..k] + p + s[k + |p|..];
      [s[..k]] + rest
  }

  lemma {:induction false} ReplaceWithoutOccurrence(s: string, p: string, r: string)
    requires |p| > 0
    requires forall k :: !OccursAt(s, p, k)
    ensures Replace(s, p, r) == s
    decreases |s|
  {
    if |s| >= |p| {
      assert !OccursAt(s, p, 0);
      forall k ensures !OccursAt(s[1..], p, k) {
        if OccursAt(s[1..], p, k) { OccursInSuffix(s, p, 1, k); }
      }
      ReplaceWithoutOccurrence(s[1..], p, r);
      assert s == [s[0]] + s[1..];
    }
  }

  lemma NoOccurrenceShift(s: string, p: string, k: int)
    requires |s| > 0
    requires forall q :: q < k ==> !OccursAt(s, p, q)
    ensures forall q :: q < k - 1 ==> !OccursAt(s[1..], p, q)
  {
    forall q | q < k - 1 ensures !OccursAt(s[1..], p, q) {
      if OccursAt(s[1..], p, q) { OccursInSuffix(s, p, 1, q); }
    }
  }

  lemma ReplaceStepNoMatch(s: string, p: string, r: string)
    requires |p| > 0 && |s| >= |p| && !OccursAt(s, p, 0)
    ensures Replace(s, p, r) == [s[0]] + Replace(s[1..], p, r)
  {
  }

  /** Up to the first occurrence of `p`, at `k`, `Replace` copies the text,
      then puts `r` and goes on with the `suffix` after the occurrence. */
  lemma {:induction false} ReplaceUpToFirst(s: string, p: string, r: string, k: nat, suffix: string)
    requires |p| > 0 && OccursAt(s, p, k)
    requires forall q :: q < k ==> !OccursAt(s, p, q)
    requires suffix == s[k + |p|..]
    ensures Replace(s, p, r) == s[..k] + r + Replace(suffix, p, r)
    decreases k
  {
    if k > 0 {
      var t := s[1..];
      ReplaceStepNoMatch(s, p, r);
      NoOccurrenceShift(s, p, k);
      assert t[k - 1..k - 1 + |p|] == s[k..k + |p|];
      ReplaceUpToFirst(t, p, r, k - 1, suffix);
      ConsPrefix(s, k, r + Replace(suffix, p, r));
    }
  }

  /** The first character followed by the next `k - 1` is the first `k`. */
  lemma ConsPrefix(s: string, k: nat, tail: string)
    requires 0 < k <= |s|
    ensures [s[0]] + (s[1..][..k - 1] + tail) == s[..k] + tail
  {
    assert [s[0]] + s[1..][..k - 1] == s[..k];
  }

  /** `s.replace(p, r)` keeps the text between the occurrences of `p` and puts `r` in
      place of each of them: it is `r.join` of the pieces that `p.join` reassembles into `s`. */
  lemma {:induction false} ReplaceIsJoinOfPieces(s: string, p: string, r: string)
    requires |p| > 0
    ensures Replace(s, p, r) == Join(r, SplitOn(s, p))
    decreases |s|
  {
    var k := IndexOf(s, p);
    if k < 0 {
      ReplaceWithoutOccurrence(s, p, r);
    } else {
      ReplaceUpToFirst(s, p, r, k, s[k + |p|..]);
      ReplaceIsJoinOfPieces(s[k + |p|..], p, r);
    }
  }

  /** When `p` does not occur, `s.replace(p, r)` is `s`. */
  lemma ReplaceAbsent(s: string, p: string, r: string)
    requires |p| > 0 && !Contains(s, p)
    ensures Replace(s, p, r) == s
  {
    ReplaceWithoutOccurrence(s, p, r);
  }

  // ---------------------------------------------------------------------------
  // Decimal integers: `str(n)` and `int(s)`
  // ---------------------------------------------------------------------------

  predicate IsDigit(c: char) { '0' <= c <= '9' }

  predicate AllDigits(s: string) { forall i :: 0 <= i < |s| ==> IsDigit(s[i]) }

  function DigitChar(d: nat): (c: char)
    requires d < 10
    ensures IsDigit(c) && c as int - '0' as int == d
  {
    (d + '0' as int) as char
  }

  function NatToString(n: nat): (r: string)
    ensures r != [] && AllDigits(r)
  {
    if n < 10 then [DigitChar(n)] else NatToString(n / 10) + [DigitChar(n % 10)]
  }

  /** `str(n)` for an integer. */
  function IntToString(n: int): string {
    if n < 0 then "-" + NatToString(-n) else NatToString(n)
  }

  function DigitsValue(s: string): nat
    requires AllDigits(s)
  {
    if s == [] then 0 else DigitsValue(s[..|s| - 1]) * 10 + (s[|s| - 1] as int - '0' as int)
  }

  lemma {:induction false} DigitsValueOfNatToString(n: nat)
    ensures DigitsValue(NatToString(n)) == n
  {
    if n >= 10 {
      var s := NatToString(n);
      assert s[..|s| - 1] == NatToString(n / 10);
      DigitsValueOfNatToString(n / 10);
    }
  }

  /** `int(s)` for a string: surrounding whitespace, an optional sign, then decimal digits. */
  function PyInt(s: string): Option<int> {
    var t := Strip(s);
    if t != [] && (t[0] == '-' || t[0] == '+') then
      if |t| > 1 && AllDigits(t[1..]) then
        var v: int := DigitsValue(t[1..]);
        Some(if t[0] == '-' then 0 - v else v)
      else None
    else if t != [] && AllDigits(t) then Some(DigitsValue(t))
    else None
  }

  /** `int(s)`, or the `ValueError` it raises. */
  function ToInt(s: string): (r: Result<int>)
    ensures r.Ok? <==> PyInt(s).Some?
    ensures r.Ok? ==> r.value == PyInt(s).value
    ensures r.Err? ==> r.error == "invalid literal for int() with base 10: '" + s + "'"
  {
    match PyInt(s)
    case Some(n) => Ok(n)
    case None => Err("invalid literal for int() with base 10: '" + s + "'")
  }

  /** `int(str(n)) == n`. */
  lemma PyIntOfIntToString(n: int)
    ensures PyInt(IntToString(n)) == Some(n)
  {
    var s := IntToString(n);
    var digits := NatToString(if n < 0 then -n else n);
    assert IsDigit(digits[0]) && IsDigit(digits[|digits| - 1]);
    assert s[|s| - 1] == digits[|digits| - 1];
    StripNoEdgeSpace(s);
    if n < 0 {
      assert s[1..] == NatToString(-n);
      DigitsValueOfNatToString(-n);
    } else {
      DigitsValueOfNatToString(n);
    }
  }
}

=== FILE: tool_executor.dfy ===
/** `ToolExecutor`: runs one MCP tool by name and wraps the outcome as MCP
    text content. Every failure becomes an "Error: ..." text item; the
    executor itself never fails.

    The EdgeLake client is the function `run` from the command and its
    headers to the client's result (or the message of what it raised);
    `json.dumps(..., indent=2)` is the function `dumps`. */
module ToolExecutor {
  import opened Wrappers
  import opened Strings
  import opened Json
  import Sorting
  import Seqs
  import CommandBuilder
  import Config
  import DirectClient

  // ---------------------------------------------------------------------------
  // Text content
  // ---------------------------------------------------------------------------

  /** `{"type": "text", "text": text}`. */
  function TextItem(text: string): Json {
    Obj([("type", Str("text")), ("text", Str(text))])
  }

  /** `item['text']` of a text content item. */
  function ItemText(item: Json): Option<string> {
    if item.Obj? && Lookup(item.fields, "type") == Some(Str("text")) && GetOr(item.fields, "text", Null).Str? then
      Some(GetOr(item.fields, "text", Null).s)
    else None
  }

  lemma TextItemText(text: string)
    ensures ItemText(TextItem(text)) == Some(text)
  {
    var fields := TextItem(text).fields;
    assert "type"[1] != "text"[1];
    assert fields[1..][0].0 == "text";
    assert Lookup(fields, "type") == Some(Str("text"));
    assert Lookup(fields[1..], "text") == Some(Str(text));
    assert Lookup(fields, "text") == Some(Str(text));
  }

  /** `_format_response`: exactly one text item carrying the result. */
  function FormatResponse(result: string): (r: seq<Json>)
    ensures |r| == 1 && ItemText(r[0]) == Some(result)
  {
    TextItemText(result);
    [TextItem(result)]
  }

  /** `_format_error`: exactly one text item carrying "Error: " and the message. */
  function FormatError(message: string): (r: seq<Json>)
    ensures |r| == 1 && ItemText(r[0]) == Some("Error: " + message)
  {
    TextItemText("Error: " + message);
    [TextItem("Error: " + message)]
  }

  // ---------------------------------------------------------------------------
  // Blockchain table extraction
  // ---------------------------------------------------------------------------

  /** `item['table']` when the item is a dict with a dict under `table`. */
  function TableInfo(item: Json): (r: Option<seq<(string, Json)>>)
    ensures r.Some? <==> item.Obj? && Lookup(item.fields, "table").Some? && Lookup(item.fields, "table").value.Obj?
  {
    if item.Obj? then
      match Lookup(item.fields, "table")
      case Some(Obj(info)) => Some(info)
      case _ => None
    else None
  }

  /** The truthy `dbms` name an item contributes, if any. */
  function DatabaseOf(item: Json): Option<string> {
    match TableInfo(item)
    case Some(info) =>
      var dbms := GetOr(info, "dbms", Null);
      if dbms.Str? && dbms.s != "" then Some(dbms.s) else None
    case None => None
  }

  /** The `dbms` names of the items, in order, repeats included. */
  function DatabaseNames(items: seq<Json>): (r: seq<string>)
    ensures forall z :: z in r <==> exists i :: 0 <= i < |items| && DatabaseOf(items[i]) == Some(z)
    decreases |items|
  {
    if items == [] then []
    else
      var n := |items| - 1;
      var rest := DatabaseNames(items[..n]);
      assert forall i :: 0 <= i < n ==> items[..n][i] == items[i];
      match DatabaseOf(items[n])
      case Some(z) => rest + [z]
      case None => rest
  }

  /** One more item adds its `dbms` name, if it has one. */
  lemma DatabaseNamesStep(items: seq<Json>, i: nat)
    requires i < |items|
    ensures DatabaseNames(items[..i + 1]) ==
      DatabaseNames(items[..i]) + (if DatabaseOf(items[i]).Some? then [DatabaseOf(items[i]).value] else [])
  {
    assert items[..i + 1][..i] == items[..i];
  }

  /** `_extract_unique_databases`: the distinct database names, sorted; a
      result that is not a list gives none. */
  function UniqueDatabases(result: Json): (r: seq<string>)
    ensures Sorting.StrictlySorted(r)
    ensures forall z :: z in r <==> result.Arr? && exists i :: 0 <= i < |result.items| && DatabaseOf(result.items[i]) == Some(z)
  {
    if result.Arr? then Sorting.SortedOf(DatabaseNames(result.items)) else []
  }

  /** The loop of `_extract_unique_databases`, adding to a set, then `sorted`. */
  method ExtractUniqueDatabases(result: Json) returns (r: seq<string>)
    ensures r == UniqueDatabases(result)
  {
    var databases: set<string> := {};
    if result.Arr? {
      var items := result.items;
      for i := 0 to |items|
        invariant forall z :: z in databases <==> z in DatabaseNames(items[..i])
      {
        DatabaseNamesStep(items, i);
        var dbms := DatabaseOf(items[i]);
        if dbms.Some? {
          databases := databases + {dbms.value};
        }
      }
      assert items[..|items|] == items;
    }
    r := Sorting.SortedList(databases);
    Sorting.SortedListUnique(r, UniqueDatabases(result));
  }

  /** Python's `==` between two values: equal values, or a bool and the
      number it stands for. */
  predicate PyEq(a: Json, b: Json) {
    a == b ||
    (a.Bool? && b.Num? && b.n == (if a.b then 1 else 0)) ||
    (b.Bool? && a.Num? && a.n == (if b.b then 1 else 0))
  }

  /** The table name an item contributes for `database`, if any. */
  function TableNameFor(item: Json, database: Json): Option<Json> {
    match TableInfo(item)
    case Some(info) =>
      var name := GetOr(info, "name", Null);
      if PyEq(GetOr(info, "dbms", Null), database) && Truthy(name) then Some(name) else None
    case None => None
  }

  /** The name an item contributes, as a list of zero or one names. */
  function Named(item: Json, database: Json): seq<Json> {
    var name := TableNameFor(item, database);
    if name.Some? then [name.value] else []
  }

  /** The lists `f` gives for the items, one after another in item order. */
  function Concat<T, U>(items: seq<T>, f: T -> seq<U>): seq<U>
    decreases |items|
  {
    if items == [] then [] else Concat(items[..|items| - 1], f) + f(items[|items| - 1])
  }

  /** One more item adds its list. */
  lemma ConcatStep<T, U>(items: seq<T>, prefix: seq<T>, last: T, f: T -> seq<U>)
    requires items == prefix + [last]
    ensures Concat(items, f) == Concat(prefix, f) + f(last)
  {
    assert items[..|items| - 1] == prefix;
  }

  /** A value is in the concatenation exactly when some item's list holds it. */
  lemma {:induction false} ConcatMembers<T, U>(items: seq<T>, f: T -> seq<U>, u: U)
    ensures u in Concat(items, f) <==> exists i :: 0 <= i < |items| && u in f(items[i])
    decreases |items|
  {
    if items != [] {
      var n := |items| - 1;
      var prefix := items[..n];
      ConcatMembers(prefix, f, u);
      if u in Concat(prefix, f) {
        var i :| 0 <= i < n && u in f(prefix[i]);
        assert items[i] == prefix[i];
      }
      if exists i :: 0 <= i < |items| && u in f(items[i]) {
        var i :| 0 <= i < |items| && u in f(items[i]);
        if i < n {
          assert prefix[i] == items[i];
        }
      }
    }
  }

  /** Concatenating over two runs of items concatenates their results. */
  lemma {:induction false} ConcatAppend<T, U>(a: seq<T>, b: seq<T>, f: T -> seq<U>)
    ensures Concat(a + b, f) == Concat(a, f) + Concat(b, f)
    decreases |b|
  {
    if b == [] {
      assert a + b == a;
    } else {
      var n := |b| - 1;
      ConcatAppend(a, b[..n], f);
      assert a + b == (a + b[..n]) + [b[n]];
      ConcatStep(a + b, a + b[..n], b[n], f);
    }
  }

  /** With at most one value per item there are at most as many values as items. */
  lemma {:induction false} ConcatLength<T, U>(items: seq<T>, f: T -> seq<U>)
    requires forall x :: |f(x)| <= 1
    ensures |Concat(items, f)| <= |items|
    decreases |items|
  {
    if items != [] {
      ConcatLength(items[..|items| - 1], f);
    }
  }

  /** The truthy names of the items whose `dbms` equals `database`, in order. */
  function TablesIn(items: seq<Json>, database: Json): (r: seq<Json>)
    ensures |r| <= |items|
  {
    ConcatLength(items, item => Named(item, database));
    Concat(items, item => Named(item, database))
  }

  /** Each listed table is the name of some item in `database`, and each such
      name is listed. */
  lemma TablesInMembers(items: seq<Json>, database: Json)
    ensures forall t :: t in TablesIn(items, database) <==>
      exists i :: 0 <= i < |items| && TableNameFor(items[i], database) == Some(t)
  {
    forall t
      ensures t in TablesIn(items, database) <==> exists i :: 0 <= i < |items| && TableNameFor(items[i], database) == Some(t)
    {
      ConcatMembers(items, item => Named(item, database), t);
    }
  }

  /** Order and repeats are kept: the tables of two runs of items are the
      tables of the first followed by those of the second. */
  lemma TablesInAppend(a: seq<Json>, b: seq<Json>, database: Json)
    ensures TablesIn(a + b, database) == TablesIn(a, database) + TablesIn(b, database)
  {
    ConcatAppend(a, b, item => Named(item, database));
  }

  /** `_extract_tables_for_database`: nothing for a falsy database or a
      result that is not a list. */
  function TablesForDatabase(result: Json, database: Json): (r: seq<Json>)
    ensures !Truthy(database) || !result.Arr? ==> r == []
    ensures Truthy(database) && result.Arr? ==> r == TablesIn(result.items, database)
  {
    if !Truthy(database) then []
    else if result.Arr? then TablesIn(result.items, database)
    else []
  }

  /** The loop of `_extract_tables_for_database`. */
  method ExtractTablesForDatabase(result: Json, database: Json) returns (tables: seq<Json>)
    ensures tables == TablesForDatabase(result, database)
  {
    if !Truthy(database) {
      return [];
    }
    tables := [];
    if result.Arr? {
      var items := result.items;
      for i := 0 to |items|
        invariant tables == TablesIn(items[..i], database)
      {
        Seqs.TakeNext(items, i);
        ConcatStep(items[..i + 1], items[..i], items[i], item => Named(item, database));
        var name := TableNameFor(items[i], database);
        if name.Some? {
          tables := tables + [name.value];
        }
      }
      assert items[..|items|] == items;
    }
  }

  // ---------------------------------------------------------------------------
  // Response parsers
  // ---------------------------------------------------------------------------

  /** The database names as a JSON list. */
  function NameList(names: seq<string>): (r: Json)
    ensures r.Arr? && |r.items| == |names| && forall i :: 0 <= i < |names| ==> r.items[i] == Str(names[i])
  {
    Arr(seq(|names|, i requires 0 <= i < |names| => Str(names[i])))
  }

  /** `_parse_blockchain_table`: the `extract` setting picks the extraction;
      an unrecognised one returns the result unchanged. */
  function ParseBlockchainTable(result: Json, parserConfig: seq<(string, Json)>, args: seq<(string, Json)>): (r: Json)
    ensures GetOr(parserConfig, "extract", Null) == Str("unique_databases") ==> r == NameList(UniqueDatabases(result))
    ensures GetOr(parserConfig, "extract", Null) == Str("tables_for_database") ==>
      r == Arr(TablesForDatabase(result, GetOr(args, "database", Null)))
    ensures (GetOr(parserConfig, "extract", Null) != Str("unique_databases") &&
             GetOr(parserConfig, "extract", Null) != Str("tables_for_database")) ==> r == result
  {
    var extract := GetOr(parserConfig, "extract", Null);
    if extract == Str("unique_databases") then NameList(UniqueDatabases(result))
    else if extract == Str("tables_for_database") then Arr(TablesForDatabase(result, GetOr(args, "database", Null)))
    else result
  }

  /** `_parse_response` over the parser mapping `parsers`: an unknown parser
      name or a parser type other than `blockchain_table` leaves the result
      unchanged. A list or dict name cannot be looked up, and a parser entry
      that is not a mapping has no `get`. */
  function ParseResponse(result: Json, parsers: seq<(string, Json)>, parserName: Json, args: seq<(string, Json)>): (r: Result<Json>)
    ensures parserName.Str? && !Truthy(GetOr(parsers, parserName.s, Null)) ==> r == Ok(result)
    ensures parserName.Str? && GetOr(parsers, parserName.s, Null).Obj? && Truthy(GetOr(parsers, parserName.s, Null)) ==>
      r == Ok(
        if GetOr(GetOr(parsers, parserName.s, Null).fields, "type", Null) == Str("blockchain_table")
        then ParseBlockchainTable(result, GetOr(parsers, parserName.s, Null).fields, args)
        else result)
  {
    if parserName.Arr? || parserName.Obj? then Err("unhashable type: '" + TypeName(parserName) + "'")
    else
      var parserConfig := if parserName.Str? then GetOr(parsers, parserName.s, Null) else Null;
      if !Truthy(parserConfig) then Ok(result)
      else if !parserConfig.Obj? then Err("'" + TypeName(parserConfig) + "' object has no attribute 'get'")
      else if GetOr(parserConfig.fields, "type", Null) == Str("blockchain_table") then
        Ok(ParseBlockchainTable(result, parserConfig.fields, args))
      else Ok(result)
  }

  /** `_parse_response` as written: the configuration object it reads the
      parser mapping from has no `response_parsers` attribute. */
  function ParseResponseAsWritten(result: Json, parserName: Json, args: seq<(string, Json)>): (r: Result<Json>)
    ensures r.Err?
  {
    Err("'Config' object has no attribute 'response_parsers'")
  }

  /** A tool configured with a `blockchain_table` parser never gets its
      extraction as written, though the parser would list the databases. */
  lemma ParserUnreachableAsWritten(result: Json, args: seq<(string, Json)>)
    ensures var parsers := [("databases", Obj([("type", Str("blockchain_table")), ("extract", Str("unique_databases"))]))];
      ParseResponse(result, parsers, Str("databases"), args) == Ok(NameList(UniqueDatabases(result))) &&
      ParseResponseAsWritten(result, Str("databases"), args).Err?
  {
    var config := Obj([("type", Str("blockchain_table")), ("extract", Str("unique_databases"))]);
    assert GetOr([("databases", config)], "databases", Null) == config;
    assert GetOr(config.fields, "type", Null) == Str("blockchain_table");
    assert GetOr(config.fields, "extract", Null) == Str("unique_databases");
  }

  // ---------------------------------------------------------------------------
  // EdgeLake commands
  // ---------------------------------------------------------------------------

  /** The command of a `build_sql` tool: the built query in the `sql`
      command of the `database` argument, in the `format` argument's format
      (default "json"); the same command the direct client sends. */
  function SqlCommand(args: seq<(string, Json)>, sqlQuery: string): (r: string)
    ensures r == DirectClient.QueryCommand(Show(GetOr(args, "database", Null)), sqlQuery, Show(GetOr(args, "format", Str("json"))))
    ensures Lookup(args, "format").None? ==>
      r == DirectClient.QueryCommand(Show(GetOr(args, "database", Null)), sqlQuery, "json")
  {
    "sql " + Show(GetOr(args, "database", Null)) + " format = " + Show(GetOr(args, "format", Str("json"))) + " \"" + sqlQuery + "\""
  }

  /** The command and headers of a non-internal tool: a `build_sql` tool
      builds SQL from the arguments; any other tool builds its command from
      its `edgelake_command` mapping. */
  function EdgelakeCommand(cmd: seq<(string, Json)>, args: seq<(string, Json)>): (r: Result<(string, Option<Json>)>)
    ensures Truthy(GetOr(cmd, "build_sql", Null)) ==>
      r == match CommandBuilder.SqlQuery(args)
        case Ok(q) => Ok((SqlCommand(args, q), Get(cmd, "headers")))
        case Err(e) => Err(e)
    ensures !Truthy(GetOr(cmd, "build_sql", Null)) ==>
      r == CommandBuilder.BuildFrom(CommandBuilder.ReadCommand(cmd), args)
  {
    if Truthy(GetOr(cmd, "build_sql", Null)) then
      match CommandBuilder.SqlQuery(args)
      case Ok(q) => Ok((SqlCommand(args, q), Get(cmd, "headers")))
      case Err(e) => Err(e)
    else
      assert GetOr([("edgelake_command", Obj(cmd))], "edgelake_command", Obj([])) == Obj(cmd);
      CommandBuilder.BuildCommand([("edgelake_command", Obj(cmd))], args)
  }

  /** The template branch as written: the tool's `edgelake_command` mapping
      itself is passed where `build_command` expects the whole tool entry. */
  function EdgelakeCommandAsWritten(cmd: seq<(string, Json)>, args: seq<(string, Json)>): (r: Result<(string, Option<Json>)>)
    ensures !Truthy(GetOr(cmd, "build_sql", Null)) ==> r == CommandBuilder.BuildCommand(cmd, args)
  {
    if Truthy(GetOr(cmd, "build_sql", Null)) then EdgelakeCommand(cmd, args)
    else CommandBuilder.BuildCommand(cmd, args)
  }

  /** As written, a template tool sends the empty command: the mapping has
      no `edgelake_command` entry of its own. */
  lemma TemplateIgnoredAsWritten(args: seq<(string, Json)>)
    requires forall i :: 0 <= i < |args| ==> !Contains("get status", CommandBuilder.Placeholder(args[i].0))
    ensures EdgelakeCommandAsWritten([("template", Str("get status"))], args) == Ok(("", None))
    ensures EdgelakeCommand([("template", Str("get status"))], args) == Ok(("get status", None))
  {
    var cmd := [("template", Str("get status"))];
    assert Lookup(cmd, "edgelake_command").None?;
    assert Lookup(cmd, "type").None? && Lookup(cmd, "headers").None? && Lookup(cmd, "conditional_template").None?;
    CommandBuilder.FillWithoutPlaceholders("get status", args);
  }

  /** How a client result becomes text: dicts and lists are serialised,
      anything else is its `str`. */
  function ResultText(result: Json, dumps: Json -> string): (text: string)
    ensures result.Obj? || result.Arr? ==> text == dumps(result)
    ensures result.Str? ==> text == result.s
  {
    if result.Obj? || result.Arr? then dumps(result) else Show(result)
  }

  /** `_execute_edgelake_command`: build, run, parse when a parser is
      configured, then render. */
  function ExecuteEdgelakeCommand(cmd: seq<(string, Json)>, args: seq<(string, Json)>,
                                  run: (string, Option<Json>) -> Result<Json>,
                                  parsers: seq<(string, Json)>, dumps: Json -> string): (r: Result<string>)
    ensures EdgelakeCommand(cmd, args).Err? ==> r == Err(EdgelakeCommand(cmd, args).error)
    ensures EdgelakeCommand(cmd, args).Ok? && !Truthy(GetOr(cmd, "parse_response", Null)) ==>
      r == match run(EdgelakeCommand(cmd, args).value.0, EdgelakeCommand(cmd, args).value.1)
        case Ok(result) => Ok(ResultText(result, dumps))
        case Err(e) => Err(e)
    ensures EdgelakeCommand(cmd, args).Ok? && Truthy(GetOr(cmd, "parse_response", Null)) ==>
      r == match run(EdgelakeCommand(cmd, args).value.0, EdgelakeCommand(cmd, args).value.1)
        case Err(e) => Err(e)
        case Ok(result) =>
          match ParseResponse(result, parsers, GetOr(cmd, "parse_response", Null), args)
          case Ok(value) => Ok(ResultText(value, dumps))
          case Err(e) => Err(e)
  {
    match EdgelakeCommand(cmd, args)
    case Err(e) => Err(e)
    case Ok((command, headers)) =>
      match run(command, headers)
      case Err(e) => Err(e)
      case Ok(result) =>
        var parserName := GetOr(cmd, "parse_response", Null);
        var parsed := if Truthy(parserName) then ParseResponse(result, parsers, parserName, args) else Ok(result);
        match parsed
        case Ok(value) => Ok(ResultText(value, dumps))
        case Err(e) => Err(e)
  }

  /** `_execute_edgelake_command` as written: the template branch builds
      from the mapping itself, and any configured parser raises. */
  function ExecuteEdgelakeCommandAsWritten(cmd: seq<(string, Json)>, args: seq<(string, Json)>,
                                           run: (string, Option<Json>) -> Result<Json>,
                                           dumps: Json -> string): (r: Result<string>)
    ensures EdgelakeCommandAsWritten(cmd, args).Err? ==> r == Err(EdgelakeCommandAsWritten(cmd, args).error)
    ensures EdgelakeCommandAsWritten(cmd, args).Ok? && Truthy(GetOr(cmd, "parse_response", Null)) ==>
      r == match run(EdgelakeCommandAsWritten(cmd, args).value.0, EdgelakeCommandAsWritten(cmd, args).value.1)
        case Err(e) => Err(e)
        case Ok(_) => Err("'Config' object has no attribute 'response_parsers'")
  {
    match EdgelakeCommandAsWritten(cmd, args)
    case Err(e) => Err(e)
    case Ok((command, headers)) =>
      match run(command, headers)
      case Err(e) => Err(e)
      case Ok(result) =>
        var parserName := GetOr(cmd, "parse_response", Null);
        var parsed := if Truthy(parserName) then ParseResponseAsWritten(result, parserName, args) else Ok(result);
        match parsed
        case Ok(value) => Ok(ResultText(value, dumps))
        case Err(e) => Err(e)
  }

  /** As written, every template tool (no `build_sql`, no `edgelake_command`
      entry inside its own command mapping) sends the empty command with no
      headers, whatever its template says. */
  lemma TemplateToolSendsEmptyAsWritten(cmd: seq<(string, Json)>, args: seq<(string, Json)>,
                                        run: (string, Option<Json>) -> Result<Json>, dumps: Json -> string)
    requires !Truthy(GetOr(cmd, "build_sql", Null)) && Lookup(cmd, "edgelake_command").None?
    requires !Truthy(GetOr(cmd, "parse_response", Null))
    ensures ExecuteEdgelakeCommandAsWritten(cmd, args, run, dumps) ==
      match run("", None)
      case Ok(result) => Ok(ResultText(result, dumps))
      case Err(e) => Err(e)
  {
    assert EdgelakeCommandAsWritten(cmd, args) == Ok(("", None));
  }

  /** The two defects touch only template tools and tools with a parser: a
      `build_sql` tool without a parser runs the same command and answers
      the same under both definitions. */
  lemma AsWrittenAgreesOnSql(cmd: seq<(string, Json)>, args: seq<(string, Json)>,
                             run: (string, Option<Json>) -> Result<Json>, parsers: seq<(string, Json)>,
                             dumps: Json -> string)
    requires Truthy(GetOr(cmd, "build_sql", Null)) && !Truthy(GetOr(cmd, "parse_response", Null))
    ensures ExecuteEdgelakeCommandAsWritten(cmd, args, run, dumps) == ExecuteEdgelakeCommand(cmd, args, run, parsers, dumps)
  {
  }

  // ---------------------------------------------------------------------------
  // Internal commands
  // ---------------------------------------------------------------------------

  /** `_get_server_info`'s dict, or what reading the settings raised. */
  function ServerInfo(version: string, toolCount: nat, timeout: Result<Json>, workers: Result<Json>): (r: Result<Json>)
    ensures r.Ok? <==> timeout.Ok? && workers.Ok?
    ensures r.Ok? ==> (r.value.Obj? && GetOr(r.value.fields, "mode", Null) == Str("embedded") &&
                       GetOr(r.value.fields, "server_name", Null) == Str("edgelake-mcp-server"))
  {
    match timeout
    case Err(e) => Err(e)
    case Ok(t) =>
      match workers
      case Err(e) => Err(e)
      case Ok(w) =>
        var fields := [
          ("version", Str(version)),
          ("server_name", Str("edgelake-mcp-server")),
          ("mode", Str("embedded")),
          ("configuration", Obj([("total_tools", Num(toolCount)), ("request_timeout", t), ("max_workers", w)]))];
        assert "version"[0] != "mode"[0] && "server_name"[0] != "mode"[0] && "version"[0] != "server_name"[0];
        assert Lookup(fields[2..], "mode") == Some(Str("embedded"));
        assert Lookup(fields[1..], "server_name") == Some(Str("edgelake-mcp-server"));
        Ok(Obj([
          ("version", Str(version)),
          ("server_name", Str("edgelake-mcp-server")),
          ("mode", Str("embedded")),
          ("configuration", Obj([("total_tools", Num(toolCount)), ("request_timeout", t), ("max_workers", w)]))]))
  }

  /** The text `_get_server_info` returns: the info dict serialised, or what
      reading the settings raised. */
  function InfoText(config: Config.Config, env: Config.Env, version: string, dumps: Json -> string): (r: Result<string>)
    reads config
    ensures r.Ok? <==> config.RequestTimeout(env).Ok? && config.MaxWorkers(env).Ok?
  {
    var info := ServerInfo(version, |config.tools|, config.RequestTimeout(env), config.MaxWorkers(env));
    if info.Ok? then Ok(dumps(info.value)) else Err(info.error)
  }

  /** `_execute_internal`: `server_info` is the only internal method. */
  function ExecuteInternal(cmd: seq<(string, Json)>, info: Result<string>): (r: Result<string>)
    ensures GetOr(cmd, "method", Str("")) == Str("server_info") ==> r == info
    ensures GetOr(cmd, "method", Str("")) != Str("server_info") ==>
      r == Err("Unknown internal method: " + Show(GetOr(cmd, "method", Str(""))))
  {
    var name := GetOr(cmd, "method", Str(""));
    if name == Str("server_info") then info
    else Err("Unknown internal method: " + Show(name))
  }

  // ---------------------------------------------------------------------------
  // execute_tool
  // ---------------------------------------------------------------------------

  /** What `execute_tool` computes before formatting: the result text, or
      the message of what was raised. */
  function Outcome(config: Config.Config, env: Config.Env, version: string, name: string, args: seq<(string, Json)>,
                   run: (string, Option<Json>) -> Result<Json>, parsers: seq<(string, Json)>,
                   dumps: Json -> string): (r: Result<string>)
    reads config
    ensures Config.ToolByName(config.tools, name).None? ==> r == Err("Unknown tool: " + name)
    ensures Config.ToolByName(config.tools, name).Some? && !Config.ToolByName(config.tools, name).value.edgelakeCommand.Obj? ==>
      r == Err("'" + TypeName(Config.ToolByName(config.tools, name).value.edgelakeCommand) + "' object has no attribute 'get'")
    ensures Config.ToolByName(config.tools, name).Some? && Config.ToolByName(config.tools, name).value.edgelakeCommand.Obj? ==>
      var cmd := Config.ToolByName(config.tools, name).value.edgelakeCommand.fields;
      (GetOr(cmd, "type", Null) == Str("internal") ==>
         r == ExecuteInternal(cmd, InfoText(config, env, version, dumps))) &&
      (GetOr(cmd, "type", Null) != Str("internal") ==>
         r == ExecuteEdgelakeCommand(cmd, args, run, parsers, dumps))
  {
    match Config.ToolByName(config.tools, name)
    case None => Err("Unknown tool: " + name)
    case Some(tool) =>
      var cmd := tool.edgelakeCommand;
      if !cmd.Obj? then Err("'" + TypeName(cmd) + "' object has no attribute 'get'")
      else if GetOr(cmd.fields, "type", Null) == Str("internal") then
        ExecuteInternal(cmd.fields, InfoText(config, env, version, dumps))
      else ExecuteEdgelakeCommand(cmd.fields, args, run, parsers, dumps)
  }

  /** `execute_tool` as written: the same dispatch, over the as-written
      command pipeline. */
  function OutcomeAsWritten(config: Config.Config, env: Config.Env, version: string, name: string, args: seq<(string, Json)>,
                            run: (string, Option<Json>) -> Result<Json>, dumps: Json -> string): (r: Result<string>)
    reads config
    ensures Config.ToolByName(config.tools, name).None? ==> r == Err("Unknown tool: " + name)
    ensures Config.ToolByName(config.tools, name).Some? && Config.ToolByName(config.tools, name).value.edgelakeCommand.Obj? &&
            GetOr(Config.ToolByName(config.tools, name).value.edgelakeCommand.fields, "type", Null) != Str("internal") ==>
      r == ExecuteEdgelakeCommandAsWritten(Config.ToolByName(config.tools, name).value.edgelakeCommand.fields, args, run, dumps)
  {
    match Config.ToolByName(config.tools, name)
    case None => Err("Unknown tool: " + name)
    case Some(tool) =>
      var cmd := tool.edgelakeCommand;
      if !cmd.Obj? then Err("'" + TypeName(cmd) + "' object has no attribute 'get'")
      else if GetOr(cmd.fields, "type", Null) == Str("internal") then
        ExecuteInternal(cmd.fields, InfoText(config, env, version, dumps))
      else ExecuteEdgelakeCommandAsWritten(cmd.fields, args, run, dumps)
  }

  /** Internal tools and unknown tools answer the same as written and
      corrected; the defects lie only in the command pipeline. */
  lemma OutcomeAsWrittenAgreesOffPipeline(config: Config.Config, env: Config.Env, version: string, name: string,
                                          args: seq<(string, Json)>, run: (string, Option<Json>) -> Result<Json>,
                                          parsers: seq<(string, Json)>, dumps: Json -> string)
    requires Config.ToolByName(config.tools, name).None? ||
             !Config.ToolByName(config.tools, name).value.edgelakeCommand.Obj? ||
             GetOr(Config.ToolByName(config.tools, name).value.edgelakeCommand.fields, "type", Null) == Str("internal")
    ensures OutcomeAsWritten(config, env, version, name, args, run, dumps) == Outcome(config, env, version, name, args, run, parsers, dumps)
  {
  }

  /** `execute_tool`: exactly one text item, the result on success and
      "Error: " with the message on any failure. */
  function ExecuteTool(config: Config.Config, env: Config.Env, version: string, name: string, args: seq<(string, Json)>,
                       run: (string, Option<Json>) -> Result<Json>, parsers: seq<(string, Json)>,
                       dumps: Json -> string): (r: seq<Json>)
    reads config
    ensures |r| == 1
    ensures Config.ToolByName(config.tools, name).None? ==> ItemText(r[0]) == Some("Error: Unknown tool: " + name)
    ensures var o := Outcome(config, env, version, name, args, run, parsers, dumps);
      ItemText(r[0]) == if o.Ok? then Some(o.value) else Some("Error: " + o.error)
  {
    assert "Error: " + ("Unknown tool: " + name) == "Error: Unknown tool: " + name;
    match Outcome(config, env, version, name, args, run, parsers, dumps)
    case Ok(text) => FormatResponse(text)
    case Err(e) => FormatError(e)
  }
}

=== FILE: tool_generator.dfy ===
/** `ToolGenerator`: the MCP tool list built from the tool configurations,
    optionally restricted to the names in `enabled_tools`. */
module ToolGenerator {
  import opened Wrappers
  import opened Json
  import Config

  /** `_generate_tool`: exactly the three fields MCP lists, copied from the
      configuration. */
  function GenerateTool(config: Config.ToolConfig): Json {
    Obj([("name", Str(config.name)), ("description", config.description), ("inputSchema", config.inputSchema)])
  }

  /** The generated entry has exactly the three fields, with the
      configuration's values. */
  lemma GenerateToolFields(config: Config.ToolConfig)
    ensures var tool := GenerateTool(config);
      tool.Obj? && Keys(tool.fields) == ["name", "description", "inputSchema"] &&
      GetOr(tool.fields, "name", Null) == Str(config.name) &&
      GetOr(tool.fields, "description", Null) == config.description &&
      GetOr(tool.fields, "inputSchema", Null) == config.inputSchema
  {
    var fields := GenerateTool(config).fields;
    assert "name"[0] != "description"[0] && "name"[0] != "inputSchema"[0] && "description"[0] != "inputSchema"[0];
    assert Lookup(fields[1..], "description") == Some(config.description);
    assert Lookup(fields[2..], "inputSchema") == Some(config.inputSchema);
    assert Keys(fields) == ["name", "description", "inputSchema"];
  }

  /** The filter of `generate_tools`: with no list every tool is kept, with a
      list (even an empty one) only the tools it names. */
  predicate Enabled(config: Config.ToolConfig, enabledTools: Option<seq<string>>) {
    enabledTools.None? || config.name in enabledTools.value
  }

  /** The tools `generate_tools` lists, in configuration order. */
  function Generated(configs: seq<Config.ToolConfig>, enabledTools: Option<seq<string>>): (tools: seq<Json>)
    ensures |tools| <= |configs|
    decreases |configs|
  {
    if configs == [] then []
    else
      var n := |configs| - 1;
      Generated(configs[..n], enabledTools) + (if Enabled(configs[n], enabledTools) then [GenerateTool(configs[n])] else [])
  }

  /** Without a filter there is one tool per configuration, in order. */
  lemma {:induction false} GeneratedUnfiltered(configs: seq<Config.ToolConfig>)
    ensures |Generated(configs, None)| == |configs|
    ensures forall i :: 0 <= i < |configs| ==> Generated(configs, None)[i] == GenerateTool(configs[i])
    decreases |configs|
  {
    if configs != [] {
      var n := |configs| - 1;
      GeneratedUnfiltered(configs[..n]);
    }
  }

  /** With a filter, a tool is listed exactly when some configuration the
      list names generates it. */
  lemma {:induction false} GeneratedMembers(configs: seq<Config.ToolConfig>, enabledTools: Option<seq<string>>)
    ensures forall t :: t in Generated(configs, enabledTools) <==>
      exists i :: 0 <= i < |configs| && Enabled(configs[i], enabledTools) && t == GenerateTool(configs[i])
    decreases |configs|
  {
    if configs != [] {
      var n := |configs| - 1;
      GeneratedMembers(configs[..n], enabledTools);
      assert forall i :: 0 <= i < n ==> configs[..n][i] == configs[i];
    }
  }

  /** An empty filter list lists nothing. */
  lemma {:induction false} EmptyFilter(configs: seq<Config.ToolConfig>)
    ensures Generated(configs, Some([])) == []
    decreases |configs|
  {
    if configs != [] {
      EmptyFilter(configs[..|configs| - 1]);
    }
  }

  /** Filtering keeps configuration order: the tools of two runs of
      configurations are those of the first followed by those of the second. */
  lemma {:induction false} GeneratedAppend(a: seq<Config.ToolConfig>, b: seq<Config.ToolConfig>, enabledTools: Option<seq<string>>)
    ensures Generated(a + b, enabledTools) == Generated(a, enabledTools) + Generated(b, enabledTools)
    decreases |b|
  {
    if b == [] {
      assert a + b == a;
    } else {
      var n := |b| - 1;
      GeneratedAppend(a, b[..n], enabledTools);
      assert (a + b)[..|a + b| - 1] == a + b[..n];
      assert (a + b)[|a + b| - 1] == b[n];
    }
  }

  /** The loop of `generate_tools`. */
  method GenerateTools(configs: seq<Config.ToolConfig>, enabledTools: Option<seq<string>>) returns (tools: seq<Json>)
    ensures tools == Generated(configs, enabledTools)
  {
    tools := [];
    for i := 0 to |configs|
      invariant tools == Generated(configs[..i], enabledTools)
    {
      assert configs[..i + 1][..i] == configs[..i];
      if Enabled(configs[i], enabledTools) {
        tools := tools + [GenerateTool(configs[i])];
      }
    }
    assert configs[..|configs|] == configs;
  }
}

=== FILE: wrappers.dfy ===
/** Failure-carrying values shared by every module of the model.
    `Err` stands for a Python exception and carries the text that `str(e)` would give. */
module Wrappers {

  datatype Option<+T> = None | Some(value: T)

  datatype Result<+T> = Ok(value: T) | Err(error: string)
}
